=== FILE: README.md ===
# Ink notebook core in Dafny

This project models the core of an ink notebook written in TypeScript. Pen input arrives as
raw pointer samples. These are normalized into strokes: per-sample time deltas, optional
Douglas-Peucker simplification, a bounding box and a stroke id. Strokes are drawn segment by
segment with a width and an opacity derived from the tool, pressure and speed. A page is cut
into square tiles, and a tile cache indexes which strokes reach which tile and which tiles are
dirty. The eraser either deletes every stroke it touches or cuts the touched samples out and
keeps the remaining stretches as new strokes. Edits are recorded on an undo/redo history. A
notebook is exported as a container whose manifest, page index, stroke index and page file
names are derived from the pages.

Everything is modelled as pure functions over immutable datatypes:

- Coordinates are `real`.
- `Math.sqrt`, `Math.hypot` and `Math.pow` are the fields of a `MathLib` value. Lemmas that
  need facts about them assume `Sound(m)` or one of the weaker predicates of module
  `Numerics`.
- Clock readings and fresh-id counters are parameters.

Modules follow the source files:

| module | file |
|---|---|
| `StrokeTypes` | `types/stroke.ts` |
| `Coordinates` | `geometry/coordinates.ts` |
| `Intersection` | `geometry/intersection.ts` |
| `Pressure`, `Velocity`, `ToolSettings` | `tools/*.ts` |
| `StrokeNormalizer`, `Rgba` | `utils/strokeNormalizer.ts` |
| `StrokeRenderer` | `rendering/strokeRenderer.ts` |
| `TileCache` | `rendering/tileCache.ts` |
| `Eraser` | `tools/eraser.ts` |
| `UndoRedo` | `hooks/useUndoRedo.ts` |
| `Serializer` | `utils/serializer.ts` |

`Wrappers`, `Numerics` and `Seqs` hold the shared helpers.

## Model

| member | source | states |
|---|---|---|
| Coordinates.ToNormalizedPoint | geometry/coordinates.ts:3-6 | the normalized point times the page size is the pixel position |
| Coordinates.CanvasOfNormalized | geometry/coordinates.ts:3-11 | normalizing a pixel position and mapping it back to pixels returns the position |
| Coordinates.NormalizedOfCanvas | geometry/coordinates.ts:3-11 | mapping a point to pixels and normalizing again returns its coordinates |
| Coordinates.StrokeBoundsPx | geometry/coordinates.ts:13-18 | scaling a well-formed box by a positive page size gives a well-formed box |
| Coordinates.StrokeBoundsPxContainsImage | geometry/coordinates.ts:8-18 | the pixel image of a point inside a box lies inside the pixel box |
| Coordinates.ToCanvasPoint | geometry/coordinates.ts:8-11 | scales by the page size; `CanvasOfNormalized` and `NormalizedOfCanvas` state that it inverts `ToNormalizedPoint` |
| Coordinates.MidpointCanvas | geometry/coordinates.ts:20-23 | `MidpointCanvasIsMidpointOfImages` states that it is the midpoint of the two pixel images |
| Coordinates.MidpointCanvasIsMidpointOfImages | geometry/coordinates.ts:20-23 | the pixel midpoint of two points is the midpoint of their pixel images |
| Coordinates.CreateBoundsFromPoint | geometry/coordinates.ts:25-30 | the box of a point is well formed, degenerate and contains the point |
| Coordinates.CreateBoundsFromPointIsSmallest | geometry/coordinates.ts:25-30 | the point box lies inside every box containing the point |
| Coordinates.ExpandBounds | geometry/coordinates.ts:32-37 | the grown box contains the old box and the point, and is unchanged when the point was already inside |
| Coordinates.ExpandBoundsIsSmallest | geometry/coordinates.ts:32-37 | the grown box lies inside every box holding the old box and the point |
| Intersection.OverlapIffCommonPoint | geometry/intersection.ts:3-18 | the interval test on both axes holds exactly when the two well-formed boxes share a point |
| Intersection.BoundsIntersect | geometry/intersection.ts:3-18 | the box test around the eraser centre; `BoundsIntersectIsBoxOverlap` characterises it as a box overlap |
| Intersection.BoundsIntersectIsBoxOverlap | geometry/intersection.ts:3-18 | boundsIntersect is an overlap against the centre grown by the radius divided by the page size on each axis |
| Intersection.CenterInsideIntersects | geometry/intersection.ts:3-18 | a box containing the centre always intersects |
| Intersection.DistancePointToSegment | geometry/intersection.ts:20-38 | the point-to-segment distance; `ProjectionIsNearest`, `DistanceAtProjection` and `NearestPointOfSegment` state that it is the distance to the nearest point of the segment |
| Intersection.ProjectionParam | geometry/intersection.ts:28-35 | the clamped projection parameter lies in [0, 1] |
| Intersection.DistanceNonNegative | geometry/intersection.ts:20-38 | the point-to-segment distance is never negative |
| Intersection.DistanceZeroAtEndpoints | geometry/intersection.ts:20-38 | both endpoints are at distance 0 from their segment |
| Intersection.ProjectionIsNearest | geometry/intersection.ts:28-38 | no parameter in [0, 1] gives a smaller squared distance than the clamped projection |
| Intersection.DistanceAtProjection | geometry/intersection.ts:20-38 | away from the zero-length case the distance is the hypot of p minus the projected point |
| Intersection.ProjectionMinimisesHypot | geometry/intersection.ts:28-38 | the hypot length at the clamped projection is at most that at any point of the segment |
| Intersection.DistanceDegenerate | geometry/intersection.ts:32-33 | a zero-length segment measures the distance to its start |
| Intersection.NearestPointOfSegment | geometry/intersection.ts:20-38 | the distance is attained at a point of every box holding both endpoints |
| Pressure.NormalizePressure | tools/pressure.ts:1-4 | a zero reading is full pressure; other readings are clamped into [0.1, 1] |
| Pressure.NormalizePressureIdempotent | tools/pressure.ts:1-4 | normalizing twice equals normalizing once |
| Pressure.PressureCurveFacts | tools/pressure.ts:6 | shaping keeps non-negative pressures non-negative, and gamma 2 squares |
| Pressure.SmoothPressure | tools/pressure.ts:8 | the smoothed value lies between the two inputs and moves 30% of the way to the current one |
| Pressure.SmoothPressureSteady | tools/pressure.ts:8 | a steady pressure is a fixed point, and smoothing keeps normalized pressures normalized |
| Velocity.GetVelocity | tools/velocity.ts:4-10 | pixel distance over the time delta; `VelocityTimesDelta` and `VelocityNonNegative` state its meaning |
| Velocity.VelocityTimesDelta | tools/velocity.ts:4-10 | speed times the time delta is the pixel distance, with 1 ms for a non-positive delta |
| Velocity.VelocityNonNegative | tools/velocity.ts:4-10 | speed is never negative and is zero for coinciding pixel positions |
| ToolSettings.GetToolSettings | tools/toolSettings.ts:11-39 | the highlighter alone ignores pressure and speed; the exact constants of highlighter (1.0, 0.6, 0, off, off), marker and pen, the pen's also for the eraser |
| ToolSettings.ToolSettingsInRange | tools/toolSettings.ts:11-39 | every tool has a factor in (0, 1], a positive gamma and a non-negative speed coefficient; the eraser is configured like the pen |
| Rgba.RgbToUint32 | utils/strokeNormalizer.ts:150-152 | each channel, reduced to a byte, sits in its byte of the word, red in the top byte (the corrected, unsigned packing) |
| Rgba.RgbToNumberAsWritten | utils/strokeNormalizer.ts:150-152 | the packing as JavaScript evaluates it is a signed 32-bit number that reads back as the unsigned word, and is negative exactly when red is 128 or more |
| Rgba.Uint32ToRgb | utils/strokeNormalizer.ts:157-164 | every unpacked channel lies in 0..255 |
| Rgba.UnpackPack | utils/strokeNormalizer.ts:150-164 | unpacking a packed colour returns each channel reduced to a byte |
| Rgba.PackUnpack | utils/strokeNormalizer.ts:150-164 | packing the channels of a word returns the word |
| Rgba.AsWrittenOpaqueRedIsNegative | utils/strokeNormalizer.ts:150-152 | the packing as written turns opaque red into a negative number |
| Rgba.DefaultAlphaIsOpaque | utils/strokeNormalizer.ts:150-152 | with the default alpha 255 the packed colour unpacks to the channels and full opacity |
| Rgba.AsWrittenStillUnpacks | utils/strokeNormalizer.ts:150-164 | the signed result still unpacks to the channels |
| StrokeNormalizer.TimedPoints | utils/strokeNormalizer.ts:29-39 | samples keep position, pressure and tilt; the first delta is 0 and every later one is the timestamp minus the previous timestamp |
| StrokeNormalizer.ElapsedTime | utils/strokeNormalizer.ts:29-39 | the deltas up to a sample add up to its time since the first sample |
| StrokeNormalizer.CalculateBounds | utils/strokeNormalizer.ts:63-66 | no points give the zero box |
| StrokeNormalizer.CalculateBoundsIsTight | utils/strokeNormalizer.ts:63-81 | the box holds every point, each side is attained by a point, and it lies in every box holding the points |
| StrokeNormalizer.StrokeIdFor | utils/strokeNormalizer.ts:48 | the id of clock and counter; `StrokeIdsIncrease` states its order and injectivity |
| StrokeNormalizer.StrokeIdsIncrease | utils/strokeNormalizer.ts:48 | later strokes get larger ids, and distinct clock/counter pairs give distinct ids |
| StrokeNormalizer.PerpendicularDistance | utils/strokeNormalizer.ts:127-145 | with real math: coinciding chord ends give the Euclidean distance to the start; otherwise the chord length is non-zero, so the division is always reached, and the distance times that length is the cross term |
| StrokeNormalizer.PerpendicularDistanceDegenerate | utils/strokeNormalizer.ts:131-136 | a degenerate chord measures the Euclidean distance to its point, equal to the eraser's distance to a zero-length segment |
| StrokeNormalizer.PerpendicularDistanceZeroOnLine | utils/strokeNormalizer.ts:138-144 | off the degenerate case, the distance is 0 exactly when the point lies on the line through the chord |
| StrokeNormalizer.PerpendicularDistanceFacts | utils/strokeNormalizer.ts:127-145 | the distance is non-negative, the line length is positive off the degenerate case, and the endpoints are at distance 0 |
| StrokeNormalizer.Scan | utils/strokeNormalizer.ts:100-112 | the scan returns the first farthest interior point, or (0, 0) when none is at a positive distance |
| StrokeNormalizer.DouglasPeucker | utils/strokeNormalizer.ts:95-125 | short lists are returned unchanged; otherwise the result keeps both endpoints and is no longer than the input |
| StrokeNormalizer.DouglasPeuckerTerminates | utils/strokeNormalizer.ts:95-125 | with a non-negative tolerance the simplifier finishes |
| StrokeNormalizer.DouglasPeuckerDivergence | utils/strokeNormalizer.ts:100-120 | with a negative tolerance and no interior point off the chord, the source recurses on its own input |
| StrokeNormalizer.DouglasPeuckerIsSubsequence | utils/strokeNormalizer.ts:95-125 | the result is a subsequence of the input with the same endpoints |
| StrokeNormalizer.DouglasPeuckerCollapses | utils/strokeNormalizer.ts:114-124 | three or more points collapse to the endpoints exactly when no interior point is farther than epsilon |
| StrokeNormalizer.DouglasPeuckerIdempotent | utils/strokeNormalizer.ts:95-125 | simplifying a simplified list changes nothing |
| StrokeNormalizer.SimplifyPoints | utils/strokeNormalizer.ts:87-93 | lists of at most two points are returned as they are |
| StrokeNormalizer.NormalizeStroke | utils/strokeNormalizer.ts:16-58 | no samples is an error; otherwise the stroke carries the given tool, colour, width and the id for the clock and counter |
| StrokeNormalizer.NormalizeStrokeWithDefaults | utils/strokeNormalizer.ts:16-42 | with the default arguments (simplify on, tolerance 0.5) every non-empty run becomes a stroke whose points are the simplified timed samples |
| StrokeNormalizer.NormalizeStrokeSucceeds | utils/strokeNormalizer.ts:16-58 | a non-empty run always yields a stroke when simplification is off or the tolerance is non-negative |
| StrokeNormalizer.NormalizeStrokeFacts | utils/strokeNormalizer.ts:16-58 | the points are a subsequence of the timed samples with the same ends (all of them without simplification), and the box is their tight box |
| StrokeRenderer.GetRenderWidth | rendering/strokeRenderer.ts:8-21 | base width times tool, pressure and speed factors; its bounds are stated by `RenderWidthBounds` and the highlighter case by `HighlighterWidthIsBaseWidth` |
| StrokeRenderer.HighlighterWidthIsBaseWidth | rendering/strokeRenderer.ts:8-21 | the highlighter draws at its base width |
| StrokeRenderer.SpeedFactorInUnitRange | rendering/strokeRenderer.ts:15-18 | the speed factor lies in (0, 1] |
| StrokeRenderer.RenderWidthBounds | rendering/strokeRenderer.ts:8-21 | the width is non-negative and at most the zero-speed width |
| StrokeRenderer.GetRenderAlpha | rendering/strokeRenderer.ts:23-27 | opacity lies in [0.3, 1] and is 1 for every tool but the highlighter |
| StrokeRenderer.HighlighterAlphaFollowsPressure | rendering/strokeRenderer.ts:23-27 | highlighter opacity is 0.3 + 0.4 times the smoothed pressure and grows with it |
| StrokeRenderer.CompositeFor | rendering/strokeRenderer.ts:35-41 | the eraser, and only the eraser, cuts pixels out; every other stroke paints over in its own colour word |
| StrokeRenderer.DrawStroke | rendering/strokeRenderer.ts:29-78 | the compositing mode is set for every stroke |
| StrokeRenderer.DrawStrokeShape | rendering/strokeRenderer.ts:29-78 | nothing is drawn below two points, one line for two, and one curve per further point; curves join end to start between the first and last midpoints; a two-point line is styled by its two points |
| StrokeRenderer.CurvesStyledByLeadingPair | rendering/strokeRenderer.ts:62-77 | curve j is pulled towards point j + 1 and takes its width and opacity from points j and j + 1 |
| StrokeRenderer.DrawLiveSegment | rendering/strokeRenderer.ts:80-131 | the live draw is empty exactly below two points |
| StrokeRenderer.LiveSegmentIsLastOfRedraw | rendering/strokeRenderer.ts:29-131 | the live draw is the last segment of a full redraw |
| StrokeRenderer.LiveDrawingMatchesRedraw | rendering/strokeRenderer.ts:29-131 | drawing each new point live adds exactly what a full redraw of the longer stroke adds |
| TileCache.TilesForBounds | rendering/tileCache.ts:42-54 | exactly the tiles between the floor columns and rows of the box's corners, each once, row by row |
| TileCache.TileBoundsPx | rendering/tileCache.ts:33-40 | a tile covers a square whose side is the tile size |
| TileCache.TilesCoverBounds | rendering/tileCache.ts:33-54 | every pixel of a box lies in the square of one of its tiles |
| TileCache.IndexExtensional | rendering/tileCache.ts:12 | two indexes with no empty entries that agree on every tile are equal |
| TileCache.EnsureTile | rendering/tileCache.ts:56-66 | an existing tile is returned untouched; a missing one is created dirty |
| TileCache.EnsureTileIdempotent | rendering/tileCache.ts:56-66 | ensuring a tile twice is ensuring it once |
| TileCache.MarkTilesDirtyForBounds | rendering/tileCache.ts:68-75 | the footprint's tiles are dirty afterwards, other tiles keep their flag, and nothing else changes |
| TileCache.AddId | rendering/tileCache.ts:160-173 | the id joins the set of each listed tile, and no entry is left empty |
| TileCache.RemoveId | rendering/tileCache.ts:141-158 | the id leaves the set of each listed tile, and emptied entries are dropped |
| TileCache.MapOf | rendering/tileCache.ts:107-139 | every stroke's id is a key, and each key maps to a stroke of the list with that id |
| TileCache.MapOfUnique | rendering/tileCache.ts:107-108 | with unique ids every stroke is the one its id maps to |
| TileCache.RebuildFromStrokes | rendering/tileCache.ts:102-119 | a tile's ids are exactly the strokes reaching it, the tiles are exactly the footprints and all dirty, and the stroke map is the list by id |
| TileCache.IdOrder | rendering/tileCache.ts:138-142 | the Map's key order lists each id of the list once |
| TileCache.ApplyStrokeDiff | rendering/tileCache.ts:137-176 | the geometry is kept; `ApplyStrokeDiffIndex`, `ApplyStrokeDiffTiles` and `DiffLeavesCommonIds` state its effect on the index, the flags and the map |
| TileCache.ApplyStrokeDiffIndex | rendering/tileCache.ts:137-176 | removed ids leave the tiles of their old stroke, added ids join those of their new stroke, no entry is empty, and the stroke map is the new list |
| TileCache.ApplyStrokeDiffTiles | rendering/tileCache.ts:137-176 | exactly the tiles reached by removed or added strokes become dirty; the rest keep their flag |
| TileCache.DiffLeavesCommonIds | rendering/tileCache.ts:141-173 | an id present before and after is neither unindexed nor reindexed |
| TileCache.RebuildIsDiffFromEmpty | rendering/tileCache.ts:102-176 | with unique ids, rebuilding equals applying the diff from no strokes to a cleared cache |
| TileCache.DuplicateIdsBreakRebuildAgreement | rendering/tileCache.ts:102-176 | with a repeated id, rebuilding and the diff disagree |
| TileCache.RenderTile | rendering/tileCache.ts:77-100 | a tile becomes clean exactly when it has a context and an indexed stroke |
| TileCache.DrawTiles | rendering/tileCache.ts:126-134 | the tile loop changes only dirty flags, never the index, the map or the set of tiles; `DrawTilesFlags` states which flags |
| TileCache.DrawTilesFlags | rendering/tileCache.ts:121-135 | each visited dirty tile with indexed strokes becomes clean; other flags stay |
| TileCache.DrawToCanvas | rendering/tileCache.ts:121-135 | without a context nothing changes; otherwise a tile stays dirty exactly when it was dirty and has no strokes |
| Eraser.NearFrom | tools/eraser.ts:23-32 | the segment scan succeeds exactly when some later segment is within the radius |
| Eraser.IsPointNearEraser | tools/eraser.ts:10-33 | a sample is near exactly when some eraser segment is within the radius in pixels |
| Eraser.EraserSampleIsNear | tools/eraser.ts:10-33 | every sample of a path with a segment is near that path |
| Eraser.EraserBoundsIntersect | tools/eraser.ts:36-53 | the pre-test; `EraserBoundsIntersectIsOverlap` and `BoxTestIsSound` state what it means |
| Eraser.EraserBoundsIntersectIsOverlap | tools/eraser.ts:36-53 | the pre-test is an overlap with the eraser box grown by the radius in page fractions |
| Eraser.BoxTestIsSound | tools/eraser.ts:36-76 | with honest boxes the pre-test never skips a stroke that has a sample near the path |
| Eraser.AnyNear | tools/eraser.ts:81-89 | the stroke-mode hit flag is set exactly when some sample is near |
| Eraser.HitMask | tools/eraser.ts:109-111 | the mask marks exactly the samples near the path |
| Eraser.RunsFromFacts | tools/eraser.ts:109-126 | the loop's segments are exactly the maximal hit-free stretches from the start on, in order |
| Eraser.Runs | tools/eraser.ts:105-126 | the segments are exactly the maximal hit-free stretches, in order |
| Eraser.LongRuns | tools/eraser.ts:133-134 | exactly the segments longer than one sample are kept, in order |
| Eraser.Fragments | tools/eraser.ts:133-140 | one new stroke per kept segment, with consecutive fresh ids, each a piece of the stroke |
| Eraser.EraseOne | tools/eraser.ts:72-143 | a stroke changes exactly when it passes the pre-test and has a near sample; an unchanged stroke stays, and new ids are fresh and distinct |
| Eraser.EraseAll | tools/eraser.ts:71-145 | the pass reports a change exactly when some stroke is touched; every stroke it leaves alone survives, all of them in input order; every result stroke is an input stroke or a fresh piece of one; which pieces partial mode produces is stated by `EraseAllPartialPieces` and `EraseAllPartialOutputs` |
| Eraser.Kept | tools/eraser.ts:71-131 | exactly the strokes that fail the pre-test or have no near sample, in input order |
| Eraser.KeptIsSubsequence | tools/eraser.ts:71-131 | the strokes left alone are an in-order sub-list of the input |
| Eraser.EraseStrokes | tools/eraser.ts:55-148 | a path of fewer than two samples changes nothing; otherwise a change is reported exactly when a stroke is touched, the untouched strokes survive in input order, and the rest of the output is fresh pieces of input strokes; the partial-mode pieces are stated by `EraseStrokesPartialMode` |
| Eraser.Untouched | tools/eraser.ts:79-102 | exactly the strokes with no near sample are kept |
| Eraser.TouchedIsNear | tools/eraser.ts:72-90 | with honest boxes a stroke is touched exactly when it has a near sample |
| Eraser.PiecesAvoidEraser | tools/eraser.ts:104-140 | no sample of a piece is near the eraser path |
| Eraser.PiecesAreLongRuns | tools/eraser.ts:104-140 | the pieces are the maximal hit-free stretches longer than one sample, in order, with consecutive ids |
| Eraser.PartialModeCutsAtHits | tools/eraser.ts:104-143 | in partial mode a touched stroke is replaced by its pieces, and the counter advances by their number |
| Eraser.EraseAllPartialPieces | tools/eraser.ts:104-140 | in partial mode every unhit stretch of more than one sample of every touched stroke comes out of the pass as a piece holding exactly those samples, with the parent's tool, colour, width and a box of its samples |
| Eraser.EraseAllPartialOutputs | tools/eraser.ts:104-140 | in partial mode every stroke out of the pass is an untouched input stroke or the piece holding such a stretch of a touched one; nothing else appears |
| Eraser.EraseStrokesPartialMode | tools/eraser.ts:55-148 | both partial-mode facts for the exported entry point, whatever the length of the eraser path |
| Eraser.EraseAllWithHonestBoxes | tools/eraser.ts:71-145 | with honest boxes: a change exactly when a sample is near; stroke mode keeps exactly the untouched strokes and draws no ids; nothing near survives |
| Eraser.EraseStrokesWithHonestBoxes | tools/eraser.ts:55-148 | the entry point with honest boxes: a change exactly when some sample is near; stroke mode keeps the untouched strokes; nothing near survives |
| Eraser.EraseStrokesKeepsIdsUnique | tools/eraser.ts:133-140 | with ids below the counter, the result's ids stay unique and below the new counter |
| UndoRedo.PushCommand | hooks/useUndoRedo.ts:15-20 | the command goes on top of the undo stack, the redo stack empties, and the counters match the stacks |
| UndoRedo.Undo | hooks/useUndoRedo.ts:22-29 | an empty undo stack gives null and no change; otherwise the top command moves to the redo stack and its before list is returned |
| UndoRedo.Redo | hooks/useUndoRedo.ts:31-38 | an empty redo stack gives null and no change; otherwise the top command moves back and its after list is returned |
| UndoRedo.OperationsKeepCounters | hooks/useUndoRedo.ts:15-38 | every operation keeps the counters equal to the stack lengths |
| UndoRedo.PushUndoRedo | hooks/useUndoRedo.ts:15-38 | undoing a fresh edit returns its before list; redoing then returns its after list and restores the history |
| UndoRedo.UndoRedoInverse | hooks/useUndoRedo.ts:22-38 | on a consistent history, redo undoes an undo and undo undoes a redo |
| UndoRedo.UndoRedoKeepCommands | hooks/useUndoRedo.ts:22-38 | undo and redo only move commands between the stacks |
| Serializer.ParseDecimalString | utils/serializer.ts:83 | every integer's decimal numeral reads back as that integer |
| Serializer.CreateManifest | utils/serializer.ts:65-78 | version 1, the creator string "Trilium Notebook Addon v0.1", one page count per page, and a stroke total equal to the stroke index's length |
| Serializer.CreatePageIndex | utils/serializer.ts:80-87 | one entry per page, in order, with the page's id and timestamps and the title exactly "Page " followed by the id's numeral, which names that id |
| Serializer.StrokeIndexCountsStrokes | utils/serializer.ts:65-105 | the stroke index has exactly as many entries as the summed stroke counts |
| Serializer.StrokeIndexAppend | utils/serializer.ts:89-105 | the index of concatenated page lists is the concatenation of their indexes |
| Serializer.InLayersEntries | utils/serializer.ts:93-100 | a page's entries are exactly its layers' strokes under the page's id |
| Serializer.InStrokeIndex | utils/serializer.ts:89-105 | an entry is indexed exactly when it belongs to some page's entries |
| Serializer.CreateStrokeIndex | utils/serializer.ts:89-105 | the nested loops build the page-by-page, layer-by-layer index, as long as the stroke total |
| Serializer.PadStart | utils/serializer.ts:25 | padding keeps long strings and puts zeros before short ones up to the width |
| Serializer.PageFileName | utils/serializer.ts:25 | the template name; `PageFileNameParses` and `PageFileNameInjective` state that it identifies the page |
| Serializer.PageFileNameParses | utils/serializer.ts:25 | a non-negative page id is read back from its file name |
| Serializer.PageFileNameInjective | utils/serializer.ts:24-27 | distinct page ids get distinct file names |
| Serializer.PageEntriesPassFilter | utils/serializer.ts:24-54 | every page file the export writes passes the import filter |
| Serializer.OtherEntriesFailFilter | utils/serializer.ts:18-54 | the manifest, folders and index files never pass the import filter |
| Serializer.PageEntries | utils/serializer.ts:54 | the filter keeps exactly the entries named with the page prefix |
| Serializer.SortByIdSorted | utils/serializer.ts:62 | the imported pages come back in ascending id order |
| Serializer.SortByIdStable | utils/serializer.ts:62 | pages sharing an id keep their relative order |
| Serializer.ImportPages | utils/serializer.ts:49-63 | import returns the filtered entries' pages sorted by id, as a stable permutation |

## Left out

- I/O and foreign libraries are not modelled. This covers the ZIP packaging, JSON encoding and decoding, `TextEncoder`, Blob handling and `downloadFile`. Each imported entry carries its decoded page instead.
- Canvas drawing is not modelled. This covers `getContext`, clearing, clipping, `drawImage`, the CSS colour string (`uint32ToCSSColor`) and the tile canvases. Drawing is modelled as a plan of line and curve segments, and a tile as its dirty flag.
- `Date.now()` and `Math.random()` are parameters. The clock reading is passed in. The eraser draws fresh piece ids from a counter `nextId`, not from `generateStrokeId`.
- Eraser.EraseStrokesKeepsIdsUnique: the source draws piece ids from `generateStrokeId`, whose random six-digit suffix can repeat within one millisecond. The model draws them from a counter, so uniqueness is proved for the counter only.
- IEEE floating point (rounding, NaN, infinities) is replaced by exact reals.
- `Stroke.colorRGBA` is a JavaScript number in the source. `rgbToUint32` as written makes it negative whenever red is 128 or more. The model stores the unsigned word (`bv32`) instead. Unpacking reads the same channels from both (`AsWrittenStillUnpacks`), but the number a stroke carries differs.
- The optional parameters of `normalizeStroke` and `rgbToUint32` are explicit arguments. Their default values are the constants `DefaultSimplify`, `DefaultEpsilon` and `DefaultAlpha`.
- `Math.sqrt`, `Math.hypot` and `Math.pow` are not interpreted. They are fields of a `MathLib` value. Lemmas that need facts about them require `Sound(m)`, `HypotDominates(m)` or `HypotOrdered(m)`.
- Intersection.DistanceAtEnd: requires a segment of non-zero length. The zero-length case is `DistanceDegenerate`.
- Intersection.ProjectionMinimisesHypot: the end-to-end "the measured distance is the minimum over the segment" is stated by this lemma and `DistanceAtProjection` together, not as one lemma.
- StrokeNormalizer.DouglasPeucker: the source recurses forever with a negative tolerance when no interior point is off the chord. The model returns `None` there (`DouglasPeuckerDivergence`), and `NormalizeStroke` reports it as an error.
- Eraser.EraseStrokes: requires non-zero page dimensions, since the pre-test divides the radius by them.
- TileCache.TilesForBounds: requires a positive tile size.
- Tile keys are the datatype `TileKey` rather than the string "x,y". The string form is injective on integer pairs, so nothing is lost.
- The iteration order of the tile map in `drawToCanvas` is a parameter. Tile canvases are assumed to be created successfully.
- `updatePageSize`, `indexSize` and the `TileCache` constructor are not modelled.
- TileCache.RebuildIsDiffFromEmpty: holds only for lists with unique stroke ids. With a repeated id, the rebuild indexes every copy's footprint but the diff indexes only the last copy's (`DuplicateIdsBreakRebuildAgreement`).
- React state wiring in `useUndoRedo` is not modelled. The refs and `useState` counters become one immutable `History` value.
- Serializer.PageFileNameParses: only non-negative ids read back. A negative id pads around its minus sign ("page-00-5.pb"), which is not a run of digits. Distinct ids still get distinct names (`PageFileNameInjective`).
- Serializer.ImportPages: compares ids as exact integers. The source compares with `a.pageId - b.pageId` in floating point.
- The manifest's `createdTimestamp` is the caller's clock reading.

## Findings

| source | as written | input that shows it | evidently intended | confidence | as-written member | corrected member |
|---|---|---|---|---|---|---|
| utils/strokeNormalizer.ts:150-152 | `(r << 24) \| (g << 16) \| (b << 8) \| a` is a signed 32-bit result | r = 255, g = 0, b = 0, a = 255 gives -16776961, not 4278190335 | an unsigned 32-bit word (for example `>>> 0` after the `\|`) | not executed | Rgba.RgbToNumberAsWritten, Rgba.AsWrittenOpaqueRedIsNegative | Rgba.RgbToUint32, Rgba.UnpackPack |

=== FILE: coordinates.dfy ===
/** Mapping between normalized page-fraction coordinates and pixel coordinates,
    and the bounding-box helpers built on it (geometry/coordinates.ts). */
module Coordinates {
  import opened StrokeTypes
  import opened Numerics

  /** A bare coordinate pair, in pixels or in page fractions depending on use. */
  datatype XY = XY(x: real, y: real)

  function ToNormalizedPoint(x: real, y: real, pageWidth: real, pageHeight: real): (r: XY)
    requires pageWidth != 0.0 && pageHeight != 0.0
    ensures r.x * pageWidth == x && r.y * pageHeight == y
  {
    XY(x / pageWidth, y / pageHeight)
  }

  function ToCanvasPoint(p: Point, pageWidth: real, pageHeight: real): XY
  {
    XY(p.x * pageWidth, p.y * pageHeight)
  }

  /** Normalizing a pixel position and mapping it back gives the position again. */
  lemma CanvasOfNormalized(x: real, y: real, pageWidth: real, pageHeight: real, p: Point)
    requires pageWidth != 0.0 && pageHeight != 0.0
    requires p.x == ToNormalizedPoint(x, y, pageWidth, pageHeight).x
    requires p.y == ToNormalizedPoint(x, y, pageWidth, pageHeight).y
    ensures ToCanvasPoint(p, pageWidth, pageHeight) == XY(x, y)
  {
  }

  /** Mapping a point to pixels and normalizing it again gives its coordinates back. */
  lemma NormalizedOfCanvas(p: Point, pageWidth: real, pageHeight: real)
    requires pageWidth != 0.0 && pageHeight != 0.0
    ensures var c := ToCanvasPoint(p, pageWidth, pageHeight);
            ToNormalizedPoint(c.x, c.y, pageWidth, pageHeight) == XY(p.x, p.y)
  {
    var c := ToCanvasPoint(p, pageWidth, pageHeight);
    assert c.x / pageWidth == p.x;
    assert c.y / pageHeight == p.y;
  }

  function StrokeBoundsPx(b: Bounds, pageWidth: real, pageHeight: real): (r: Bounds)
    ensures 0.0 < pageWidth && 0.0 < pageHeight && WellFormed(b) ==> WellFormed(r)
  {
    Bounds(b.minX * pageWidth, b.minY * pageHeight, b.maxX * pageWidth, b.maxY * pageHeight)
  }

  lemma ScaleMonotone(a: real, b: real, k: real)
    requires a <= b && 0.0 <= k
    ensures a * k <= b * k
  {
    assert b * k - a * k == (b - a) * k;
  }

  /** A point inside a normalized box maps into the pixel box of that box. */
  lemma StrokeBoundsPxContainsImage(b: Bounds, p: Point, pageWidth: real, pageHeight: real)
    requires 0.0 <= pageWidth && 0.0 <= pageHeight
    requires Contains(b, p.x, p.y)
    ensures Contains(StrokeBoundsPx(b, pageWidth, pageHeight),
                     ToCanvasPoint(p, pageWidth, pageHeight).x, ToCanvasPoint(p, pageWidth, pageHeight).y)
  {
    var bp := StrokeBoundsPx(b, pageWidth, pageHeight);
    var q := ToCanvasPoint(p, pageWidth, pageHeight);
    assert bp.minX == b.minX * pageWidth && bp.maxX == b.maxX * pageWidth;
    assert bp.minY == b.minY * pageHeight && bp.maxY == b.maxY * pageHeight;
    assert q.x == p.x * pageWidth && q.y == p.y * pageHeight;
    ScaleMonotone(b.minX, p.x, pageWidth);
    ScaleMonotone(p.x, b.maxX, pageWidth);
    ScaleMonotone(b.minY, p.y, pageHeight);
    ScaleMonotone(p.y, b.maxY, pageHeight);
  }

  function Midpoint(a: XY, b: XY): XY
  {
    XY((a.x + b.x) / 2.0, (a.y + b.y) / 2.0)
  }

  function MidpointCanvas(a: Point, b: Point, pageWidth: real, pageHeight: real): XY
  {
    XY(((a.x + b.x) / 2.0) * pageWidth, ((a.y + b.y) / 2.0) * pageHeight)
  }

  /** The pixel midpoint is the midpoint of the two pixel images. */
  lemma MidpointCanvasIsMidpointOfImages(a: Point, b: Point, pageWidth: real, pageHeight: real)
    ensures MidpointCanvas(a, b, pageWidth, pageHeight)
         == Midpoint(ToCanvasPoint(a, pageWidth, pageHeight), ToCanvasPoint(b, pageWidth, pageHeight))
  {
    assert ((a.x + b.x) / 2.0) * pageWidth == (a.x * pageWidth + b.x * pageWidth) / 2.0;
    assert ((a.y + b.y) / 2.0) * pageHeight == (a.y * pageHeight + b.y * pageHeight) / 2.0;
  }

  function CreateBoundsFromPoint(p: Point): (r: Bounds)
    ensures WellFormed(r) && Contains(r, p.x, p.y)
    ensures r.minX == r.maxX && r.minY == r.maxY
  {
    Bounds(p.x, p.y, p.x, p.y)
  }

  /** The box of a single point lies inside every box that contains the point. */
  lemma CreateBoundsFromPointIsSmallest(p: Point, o: Bounds)
    requires Contains(o, p.x, p.y)
    ensures Within(CreateBoundsFromPoint(p), o)
  {
  }

  /** The source mutates `bounds` in place; the model returns the grown box. */
  function ExpandBounds(b: Bounds, p: Point): (r: Bounds)
    ensures Contains(r, p.x, p.y)
    ensures Within(b, r)
    ensures Contains(b, p.x, p.y) ==> r == b
  {
    Bounds(Min(b.minX, p.x), Min(b.minY, p.y), Max(b.maxX, p.x), Max(b.maxY, p.y))
  }

  /** The grown box is the smallest box holding both the old box and the point. */
  lemma ExpandBoundsIsSmallest(b: Bounds, p: Point, o: Bounds)
    requires Within(b, o) && Contains(o, p.x, p.y)
    ensures Within(ExpandBounds(b, p), o)
  {
  }
}

=== FILE: eraser.dfy ===
/** The eraser (tools/eraser.ts): which samples lie within the eraser's radius of its
    path, the box pre-test that skips far strokes, and the two erase modes (drop every
    touched stroke, or cut the touched samples out and keep the pieces). */
module Eraser {
  import opened Numerics
  import opened StrokeTypes
  import opened Coordinates
  import opened Intersection
  import opened Seqs
  import StrokeNormalizer

  datatype EraserMode = StrokeMode | PartialMode

  /** What an erase pass returns: whether anything changed, the strokes afterwards, and the
      next unused value of the fresh-id counter. */
  datatype EraseResult = EraseResult(changed: bool, nextStrokes: seq<Stroke>, nextId: int)

  // ---------------------------------------------------------------------------
  // Proximity of a sample to the eraser path

  /** Pixel distance from `point` to segment `i` of the eraser path. */
  function SegmentDistance(m: MathLib, point: Point, eraser: seq<Point>, i: int,
                           pageWidth: real, pageHeight: real): real
    requires 0 <= i < |eraser| - 1
  {
    DistanceToCanvasSegment(m, ToCanvasPoint(point, pageWidth, pageHeight),
                            ToCanvasPoint(eraser[i], pageWidth, pageHeight),
                            ToCanvasPoint(eraser[i + 1], pageWidth, pageHeight))
  }

  function DistanceToCanvasSegment(m: MathLib, p: XY, e1: XY, e2: XY): real
  {
    DistancePointToSegment(m, p.x, p.y, e1.x, e1.y, e2.x, e2.y)
  }

  /** Some segment of the eraser path is within `radiusPx` pixels of `point`. */
  ghost predicate NearPath(m: MathLib, point: Point, eraser: seq<Point>, radiusPx: real,
                           pageWidth: real, pageHeight: real)
  {
    exists i :: 0 <= i < |eraser| - 1 && SegmentDistance(m, point, eraser, i, pageWidth, pageHeight) <= radiusPx
  }

  /** The scan over the segments from `i` on, stopping at the first one within the radius. */
  function NearFrom(m: MathLib, point: Point, eraser: seq<Point>, radiusPx: real,
                    pageWidth: real, pageHeight: real, i: nat): (r: bool)
    ensures r <==> exists j :: i <= j < |eraser| - 1
                     && SegmentDistance(m, point, eraser, j, pageWidth, pageHeight) <= radiusPx
    decreases |eraser| - i
  {
    if i >= |eraser| - 1 then false
    else if SegmentDistance(m, point, eraser, i, pageWidth, pageHeight) <= radiusPx then true
    else NearFrom(m, point, eraser, radiusPx, pageWidth, pageHeight, i + 1)
  }

  function IsPointNearEraser(m: MathLib, point: Point, eraser: seq<Point>, radiusPx: real,
                             pageWidth: real, pageHeight: real): (r: bool)
    ensures r <==> NearPath(m, point, eraser, radiusPx, pageWidth, pageHeight)
  {
    NearFrom(m, point, eraser, radiusPx, pageWidth, pageHeight, 0)
  }

  /** With a path of at least two samples, every sample of the path is itself near it. */
  lemma EraserSampleIsNear(m: MathLib, eraser: seq<Point>, j: int, radiusPx: real,
                           pageWidth: real, pageHeight: real)
    requires Sound(m) && 0.0 <= radiusPx
    requires |eraser| >= 2 && 0 <= j < |eraser|
    ensures IsPointNearEraser(m, eraser[j], eraser, radiusPx, pageWidth, pageHeight)
  {
    var i := if j < |eraser| - 1 then j else j - 1;
    var e1 := ToCanvasPoint(eraser[i], pageWidth, pageHeight);
    var e2 := ToCanvasPoint(eraser[i + 1], pageWidth, pageHeight);
    DistanceZeroAtEndpoints(m, e1.x, e1.y, e2.x, e2.y);
    assert SegmentDistance(m, eraser[j], eraser, i, pageWidth, pageHeight) == 0.0;
  }

  // ---------------------------------------------------------------------------
  // The box pre-test

  /** The eraser path's box, grown by the radius converted to page fractions on each axis,
      meets the stroke's box. */
  function EraserBoundsIntersect(strokeBounds: Bounds, eraserBounds: Bounds, radiusPx: real,
                                 pageWidth: real, pageHeight: real): bool
    requires pageWidth != 0.0 && pageHeight != 0.0
  {
    var rX := radiusPx / pageWidth;
    var rY := radiusPx / pageHeight;
    !(eraserBounds.maxX + rX < strokeBounds.minX
      || eraserBounds.minX - rX > strokeBounds.maxX
      || eraserBounds.maxY + rY < strokeBounds.minY
      || eraserBounds.minY - rY > strokeBounds.maxY)
  }

  lemma EraserBoundsIntersectIsOverlap(strokeBounds: Bounds, eraserBounds: Bounds, radiusPx: real,
                                       pageWidth: real, pageHeight: real)
    requires pageWidth != 0.0 && pageHeight != 0.0
    ensures EraserBoundsIntersect(strokeBounds, eraserBounds, radiusPx, pageWidth, pageHeight)
        <==> Overlap(strokeBounds, Grow(eraserBounds, radiusPx / pageWidth, radiusPx / pageHeight))
  {
  }

  /** Every point of `pts` lies in the box `b`. */
  ghost predicate BoxHolds(b: Bounds, pts: seq<Point>)
  {
    forall p :: p in pts ==> Contains(b, p.x, p.y)
  }

  lemma CancelPositive(x: real, y: real, w: real)
    requires 0.0 < w && x * w <= y * w
    ensures x <= y
  {
  }

  lemma ShiftScaled(a: real, r: real, w: real)
    requires 0.0 < w
    ensures (a - r / w) * w == a * w - r && (a + r / w) * w == a * w + r
  {
    assert (r / w) * w == r;
  }

  /** Pixel bounds on a coordinate, divided by the page size `w`. */
  lemma FractionBounds(px: real, lo: real, hi: real, r: real, w: real)
    requires 0.0 < w && lo * w - r <= px * w <= hi * w + r
    ensures lo - r / w <= px <= hi + r / w
  {
    ShiftScaled(lo, r, w);
    ShiftScaled(hi, r, w);
    CancelPositive(lo - r / w, px, w);
    CancelPositive(px, hi + r / w, w);
  }

  /** A pixel position within `r` (in `hypot` length) of a point of the box `pb` lies in
      `pb` grown by `r`. */
  lemma CloseToBox(m: MathLib, px: real, py: real, cx: real, cy: real, pb: Bounds, r: real)
    requires HypotDominates(m)
    requires Contains(pb, cx, cy) && m.hypot(px - cx, py - cy) <= r
    ensures Contains(Grow(pb, r, r), px, py)
  {
    var h := m.hypot(px - cx, py - cy);
    assert -h <= px - cx <= h && -h <= py - cy <= h;
  }

  /** The distance to a canvas segment is attained at a point of any box holding the
      segment's endpoints. */
  lemma CanvasSegmentWitness(m: MathLib, p: XY, e1: XY, e2: XY, pb: Bounds) returns (cx: real, cy: real)
    requires Contains(pb, e1.x, e1.y) && Contains(pb, e2.x, e2.y)
    ensures Contains(pb, cx, cy)
    ensures DistanceToCanvasSegment(m, p, e1, e2) == m.hypot(p.x - cx, p.y - cy)
  {
    cx, cy := NearestPointOfSegment(m, p.x, p.y, e1.x, e1.y, e2.x, e2.y, pb);
  }

  /** Membership in the grown pixel box, read back in page fractions. */
  lemma GrownPixelBoxInFractions(point: Point, eb: Bounds, r: real, pageWidth: real, pageHeight: real)
    requires 0.0 < pageWidth && 0.0 < pageHeight
    requires Contains(Grow(StrokeBoundsPx(eb, pageWidth, pageHeight), r, r),
                      ToCanvasPoint(point, pageWidth, pageHeight).x,
                      ToCanvasPoint(point, pageWidth, pageHeight).y)
    ensures Contains(Grow(eb, r / pageWidth, r / pageHeight), point.x, point.y)
  {
    AxisFraction(point.x, eb.minX, eb.maxX, r, pageWidth);
    AxisFraction(point.y, eb.minY, eb.maxY, r, pageHeight);
  }

  /** One axis of `GrownPixelBoxInFractions`. */
  lemma AxisFraction(px: real, lo: real, hi: real, r: real, w: real)
    requires 0.0 < w && lo * w - r <= px * w && px * w <= hi * w + r
    ensures lo - r / w <= px && px <= hi + r / w
  {
    FractionBounds(px, lo, hi, r, w);
  }

  /** A sample within the radius of one eraser segment lies in the grown eraser box. */
  lemma NearSegmentInGrownBox(m: MathLib, point: Point, eraser: seq<Point>, i: int, eb: Bounds,
                              radiusPx: real, pageWidth: real, pageHeight: real)
    requires HypotDominates(m) && 0.0 < pageWidth && 0.0 < pageHeight
    requires 0 <= i < |eraser| - 1
    requires Contains(eb, eraser[i].x, eraser[i].y) && Contains(eb, eraser[i + 1].x, eraser[i + 1].y)
    requires SegmentDistance(m, point, eraser, i, pageWidth, pageHeight) <= radiusPx
    ensures Contains(Grow(eb, radiusPx / pageWidth, radiusPx / pageHeight), point.x, point.y)
  {
    StrokeBoundsPxContainsImage(eb, eraser[i], pageWidth, pageHeight);
    StrokeBoundsPxContainsImage(eb, eraser[i + 1], pageWidth, pageHeight);
    var cx, cy := CanvasSegmentWitness(m, ToCanvasPoint(point, pageWidth, pageHeight),
                                       ToCanvasPoint(eraser[i], pageWidth, pageHeight),
                                       ToCanvasPoint(eraser[i + 1], pageWidth, pageHeight),
                                       StrokeBoundsPx(eb, pageWidth, pageHeight));
    CloseToBox(m, ToCanvasPoint(point, pageWidth, pageHeight).x, ToCanvasPoint(point, pageWidth, pageHeight).y,
               cx, cy, StrokeBoundsPx(eb, pageWidth, pageHeight), radiusPx);
    GrownPixelBoxInFractions(point, eb, radiusPx, pageWidth, pageHeight);
  }

  /** A sample near the eraser path lies in the eraser box grown by the radius. */
  lemma NearIsInGrownBox(m: MathLib, point: Point, eraser: seq<Point>, eb: Bounds,
                         radiusPx: real, pageWidth: real, pageHeight: real)
    requires HypotDominates(m) && 0.0 < pageWidth && 0.0 < pageHeight
    requires BoxHolds(eb, eraser)
    requires IsPointNearEraser(m, point, eraser, radiusPx, pageWidth, pageHeight)
    ensures Contains(Grow(eb, radiusPx / pageWidth, radiusPx / pageHeight), point.x, point.y)
  {
    var i :| 0 <= i < |eraser| - 1 && SegmentDistance(m, point, eraser, i, pageWidth, pageHeight) <= radiusPx;
    assert eraser[i] in eraser && eraser[i + 1] in eraser;
    NearSegmentInGrownBox(m, point, eraser, i, eb, radiusPx, pageWidth, pageHeight);
  }

  /** The pre-test never skips a stroke that has a sample near the eraser path, as long as
      each box holds its stroke's samples. */
  lemma BoxTestIsSound(m: MathLib, s: Stroke, eraser: Stroke, radiusPx: real,
                       pageWidth: real, pageHeight: real, p: Point)
    requires HypotDominates(m) && 0.0 < pageWidth && 0.0 < pageHeight
    requires BoxHolds(s.bounds, s.points) && BoxHolds(eraser.bounds, eraser.points)
    requires p in s.points && IsPointNearEraser(m, p, eraser.points, radiusPx, pageWidth, pageHeight)
    ensures EraserBoundsIntersect(s.bounds, eraser.bounds, radiusPx, pageWidth, pageHeight)
  {
    NearIsInGrownBox(m, p, eraser.points, eraser.bounds, radiusPx, pageWidth, pageHeight);
    EraserBoundsIntersectIsOverlap(s.bounds, eraser.bounds, radiusPx, pageWidth, pageHeight);
    assert Contains(s.bounds, p.x, p.y);
  }

  // ---------------------------------------------------------------------------
  // Hits along a stroke

  /** The scan over the samples from `i` on, stopping at the first one near the eraser. */
  function AnyNearFrom(m: MathLib, pts: seq<Point>, eraser: seq<Point>, radiusPx: real,
                       pageWidth: real, pageHeight: real, i: nat): (r: bool)
    ensures r <==> exists k :: i <= k < |pts| && IsPointNearEraser(m, pts[k], eraser, radiusPx, pageWidth, pageHeight)
    decreases |pts| - i
  {
    if i >= |pts| then false
    else if IsPointNearEraser(m, pts[i], eraser, radiusPx, pageWidth, pageHeight) then true
    else AnyNearFrom(m, pts, eraser, radiusPx, pageWidth, pageHeight, i + 1)
  }

  /** Some sample of `pts` is near the eraser path (the stroke-mode `hit` flag). */
  function AnyNear(m: MathLib, pts: seq<Point>, eraser: seq<Point>, radiusPx: real,
                   pageWidth: real, pageHeight: real): (r: bool)
    ensures r <==> exists p :: p in pts && IsPointNearEraser(m, p, eraser, radiusPx, pageWidth, pageHeight)
  {
    AnyNearFrom(m, pts, eraser, radiusPx, pageWidth, pageHeight, 0)
  }

  /** Which samples of `pts` are near the eraser path. */
  function HitMask(m: MathLib, pts: seq<Point>, eraser: seq<Point>, radiusPx: real,
                   pageWidth: real, pageHeight: real): (h: seq<bool>)
    ensures |h| == |pts|
    ensures forall k :: 0 <= k < |pts| ==> h[k] == IsPointNearEraser(m, pts[k], eraser, radiusPx, pageWidth, pageHeight)
  {
    seq(|pts|, k requires 0 <= k < |pts| => IsPointNearEraser(m, pts[k], eraser, radiusPx, pageWidth, pageHeight))
  }

  // ---------------------------------------------------------------------------
  // Cutting a stroke at its hit samples

  /** `[a, b)` is a maximal non-empty stretch of samples none of which is hit. */
  ghost predicate IsRun(hit: seq<bool>, a: int, b: int)
  {
    0 <= a < b <= |hit|
    && (forall k :: a <= k < b ==> !hit[k])
    && (a == 0 || hit[a - 1])
    && (b == |hit| || hit[b])
  }

  /** Each run ends strictly before the next one starts. */
  predicate Separated(runs: seq<(int, int)>)
  {
    forall j, k :: 0 <= j < k < |runs| ==> runs[j].1 < runs[k].0
  }

  /** The pending run `[start, i)`, if it holds any sample. */
  function Close(start: int, i: int): seq<(int, int)>
  {
    if start < i then [(start, i)] else []
  }

  /** The partial-mode loop from sample `i` on, with the current segment starting at
      `start`: a hit closes the segment, the end of the stroke closes the last one. */
  function RunsFrom(hit: seq<bool>, start: nat, i: nat): seq<(int, int)>
    requires start <= i <= |hit|
    decreases |hit| - i
  {
    if i == |hit| then Close(start, i)
    else if hit[i] then Close(start, i) + RunsFrom(hit, i + 1, i + 1)
    else RunsFrom(hit, start, i + 1)
  }

  lemma {:induction false} RunsFromFacts(hit: seq<bool>, start: nat, i: nat)
    requires start <= i <= |hit|
    requires forall k :: start <= k < i ==> !hit[k]
    requires start == 0 || hit[start - 1]
    ensures forall a, b :: (a, b) in RunsFrom(hit, start, i) <==> IsRun(hit, a, b) && start <= a
    ensures forall j :: 0 <= j < |RunsFrom(hit, start, i)| ==> start <= RunsFrom(hit, start, i)[j].0
    ensures Separated(RunsFrom(hit, start, i))
    decreases |hit| - i
  {
    if i == |hit| {
    } else if hit[i] {
      RunsFromFacts(hit, i + 1, i + 1);
      CloseAtHit(hit, start, i, RunsFrom(hit, i + 1, i + 1));
    } else {
      RunsFromFacts(hit, start, i + 1);
    }
  }

  /** A hit at `i` closes the segment begun at `start`: prefixing that segment to the runs
      found after `i` gives the runs from `start` on. */
  lemma CloseAtHit(hit: seq<bool>, start: nat, i: nat, rest: seq<(int, int)>)
    requires start <= i < |hit| && hit[i]
    requires forall k :: start <= k < i ==> !hit[k]
    requires start == 0 || hit[start - 1]
    requires forall a, b :: (a, b) in rest <==> IsRun(hit, a, b) && i + 1 <= a
    requires forall j :: 0 <= j < |rest| ==> i + 1 <= rest[j].0
    requires Separated(rest)
    ensures forall a, b :: (a, b) in Close(start, i) + rest <==> IsRun(hit, a, b) && start <= a
    ensures forall j :: 0 <= j < |Close(start, i) + rest| ==> start <= (Close(start, i) + rest)[j].0
    ensures Separated(Close(start, i) + rest)
  {
    var r := Close(start, i) + rest;
    forall a, b | (a, b) in r ensures IsRun(hit, a, b) && start <= a {
      if (a, b) !in rest { assert (a, b) == (start, i); }
    }
  }

  /** The segments of the partial-mode loop, as index ranges into the stroke's samples. */
  function Runs(hit: seq<bool>): (r: seq<(int, int)>)
    ensures forall a, b :: (a, b) in r <==> IsRun(hit, a, b)
    ensures Separated(r)
  {
    RunsFromFacts(hit, 0, 0);
    RunsFrom(hit, 0, 0)
  }

  /** The runs of more than one sample, in order: single samples do not make a stroke. */
  function LongRuns(runs: seq<(int, int)>): (r: seq<(int, int)>)
    ensures forall q :: q in r <==> q in runs && q.1 - q.0 > 1
    ensures Separated(runs) ==> Separated(r)
  {
    if |runs| == 0 then []
    else if runs[0].1 - runs[0].0 > 1 then [runs[0]] + LongRuns(runs[1..])
    else LongRuns(runs[1..])
  }

  /** The new stroke made from samples `[a, b)` of `s`: a fresh id, the samples, their box,
      and everything else copied from `s`. */
  function Piece(s: Stroke, a: int, b: int, id: int): Stroke
    requires 0 <= a <= b <= |s.points|
  {
    s.(strokeId := id, points := s.points[a..b], bounds := StrokeNormalizer.CalculateBounds(s.points[a..b]))
  }

  /** `t` is a piece of `s`: same tool, colour and width, the samples of a stretch of `s`
      longer than one, and the box of those samples. */
  ghost predicate PieceOf(t: Stroke, s: Stroke)
  {
    t.tool == s.tool && t.colorRGBA == s.colorRGBA && t.baseWidth == s.baseWidth
    && (exists a, b :: 0 <= a && b - a > 1 && b <= |s.points| && t.points == s.points[a..b])
    && t.bounds == StrokeNormalizer.CalculateBounds(t.points)
  }

  /** One new stroke per run, with ids counting up from `nextId`. */
  function Fragments(s: Stroke, runs: seq<(int, int)>, nextId: int): (r: seq<Stroke>)
    requires forall q :: q in runs ==> 0 <= q.0 && q.1 - q.0 > 1 && q.1 <= |s.points|
    ensures |r| == |runs|
    ensures forall j :: 0 <= j < |r| ==> r[j].strokeId == nextId + j && PieceOf(r[j], s)
  {
    seq(|runs|, j requires 0 <= j < |runs| => Piece(s, runs[j].0, runs[j].1, nextId + j))
  }

  /** The stroke passes the box pre-test and has a sample near the eraser path: exactly
      the strokes the pass changes. */
  predicate Touched(m: MathLib, s: Stroke, eraser: Stroke, radiusPx: real, pageWidth: real, pageHeight: real)
    requires pageWidth != 0.0 && pageHeight != 0.0
  {
    EraserBoundsIntersect(s.bounds, eraser.bounds, radiusPx, pageWidth, pageHeight)
    && AnyNear(m, s.points, eraser.points, radiusPx, pageWidth, pageHeight)
  }

  /** What the pass does to one stroke. */
  function EraseOne(m: MathLib, mode: EraserMode, s: Stroke, eraser: Stroke, radiusPx: real,
                    pageWidth: real, pageHeight: real, nextId: int): (r: EraseResult)
    requires pageWidth != 0.0 && pageHeight != 0.0
    ensures r.changed <==> Touched(m, s, eraser, radiusPx, pageWidth, pageHeight)
    ensures !r.changed ==> r.nextStrokes == [s] && r.nextId == nextId
    ensures nextId <= r.nextId
    ensures forall t :: t in r.nextStrokes ==> t == s || (nextId <= t.strokeId < r.nextId && PieceOf(t, s))
    ensures UniqueIds(r.nextStrokes)
  {
    if !EraserBoundsIntersect(s.bounds, eraser.bounds, radiusPx, pageWidth, pageHeight) then
      EraseResult(false, [s], nextId)
    else if !AnyNear(m, s.points, eraser.points, radiusPx, pageWidth, pageHeight) then
      EraseResult(false, [s], nextId)
    else if mode == StrokeMode then
      EraseResult(true, [], nextId)
    else
      var pieces := Fragments(s, LongRuns(Runs(HitMask(m, s.points, eraser.points, radiusPx,
                                                       pageWidth, pageHeight))), nextId);
      EraseResult(true, pieces, nextId + |pieces|)
  }

  /** The loop over the strokes, in order. */
  function EraseAll(m: MathLib, mode: EraserMode, strokes: seq<Stroke>, eraser: Stroke, radiusPx: real,
                    pageWidth: real, pageHeight: real, nextId: int): (r: EraseResult)
    requires pageWidth != 0.0 && pageHeight != 0.0
    ensures r.changed <==> exists s :: s in strokes && Touched(m, s, eraser, radiusPx, pageWidth, pageHeight)
    ensures nextId <= r.nextId
    ensures forall t :: t in r.nextStrokes ==>
              t in strokes || (nextId <= t.strokeId < r.nextId && exists s :: s in strokes && PieceOf(t, s))
    ensures IsSubsequence(Kept(m, strokes, eraser, radiusPx, pageWidth, pageHeight), r.nextStrokes)
    ensures forall s :: s in strokes && !Touched(m, s, eraser, radiusPx, pageWidth, pageHeight) ==> s in r.nextStrokes
  {
    if |strokes| == 0 then EraseResult(false, [], nextId)
    else
      var head := EraseOne(m, mode, strokes[0], eraser, radiusPx, pageWidth, pageHeight, nextId);
      var tail := EraseAll(m, mode, strokes[1..], eraser, radiusPx, pageWidth, pageHeight, head.nextId);
      KeptStep(m, strokes, eraser, radiusPx, pageWidth, pageHeight, head.nextStrokes, tail.nextStrokes);
      SubsequenceMembers(Kept(m, strokes, eraser, radiusPx, pageWidth, pageHeight),
                         head.nextStrokes + tail.nextStrokes);
      EraseResult(head.changed || tail.changed, head.nextStrokes + tail.nextStrokes, tail.nextId)
  }

  /** The strokes the pass leaves alone, in order: those failing the box pre-test or with
      no sample near the path. */
  function Kept(m: MathLib, strokes: seq<Stroke>, eraser: Stroke, radiusPx: real,
                pageWidth: real, pageHeight: real): (r: seq<Stroke>)
    requires pageWidth != 0.0 && pageHeight != 0.0
    ensures forall t :: t in r <==> t in strokes && !Touched(m, t, eraser, radiusPx, pageWidth, pageHeight)
  {
    if |strokes| == 0 then []
    else if Touched(m, strokes[0], eraser, radiusPx, pageWidth, pageHeight)
    then Kept(m, strokes[1..], eraser, radiusPx, pageWidth, pageHeight)
    else [strokes[0]] + Kept(m, strokes[1..], eraser, radiusPx, pageWidth, pageHeight)
  }

  /** One step of the loop keeps the kept strokes in order: an untouched head is output as
      itself in front of the rest, a touched one only adds outputs in front. */
  lemma KeptStep(m: MathLib, strokes: seq<Stroke>, eraser: Stroke, radiusPx: real,
                 pageWidth: real, pageHeight: real, headOut: seq<Stroke>, tailOut: seq<Stroke>)
    requires pageWidth != 0.0 && pageHeight != 0.0 && |strokes| > 0
    requires !Touched(m, strokes[0], eraser, radiusPx, pageWidth, pageHeight) ==> headOut == [strokes[0]]
    requires IsSubsequence(Kept(m, strokes[1..], eraser, radiusPx, pageWidth, pageHeight), tailOut)
    ensures IsSubsequence(Kept(m, strokes, eraser, radiusPx, pageWidth, pageHeight), headOut + tailOut)
  {
    var rest := Kept(m, strokes[1..], eraser, radiusPx, pageWidth, pageHeight);
    if Touched(m, strokes[0], eraser, radiusPx, pageWidth, pageHeight) {
      SubsequencePrefix(rest, tailOut, headOut);
    } else {
      var k := [strokes[0]] + rest;
      assert k[1..] == rest && (headOut + tailOut)[1..] == tailOut;
    }
  }

  /** Filtering keeps order: the kept strokes are a sub-list of the input. */
  lemma {:induction false} KeptIsSubsequence(m: MathLib, strokes: seq<Stroke>, eraser: Stroke, radiusPx: real,
                                             pageWidth: real, pageHeight: real)
    requires pageWidth != 0.0 && pageHeight != 0.0
    ensures IsSubsequence(Kept(m, strokes, eraser, radiusPx, pageWidth, pageHeight), strokes)
  {
    if |strokes| > 0 {
      KeptIsSubsequence(m, strokes[1..], eraser, radiusPx, pageWidth, pageHeight);
      KeptStep(m, strokes, eraser, radiusPx, pageWidth, pageHeight, [strokes[0]], strokes[1..]);
      assert [strokes[0]] + strokes[1..] == strokes;
    }
  }

  /** One eraser pass over a layer's strokes. Fresh ids for the pieces of cut strokes are
      drawn from the counter `nextId`. */
  function EraseStrokes(m: MathLib, strokes: seq<Stroke>, eraser: Stroke, mode: EraserMode, radiusPx: real,
                        pageWidth: real, pageHeight: real, nextId: int): (r: EraseResult)
    requires pageWidth != 0.0 && pageHeight != 0.0
    ensures |eraser.points| < 2 ==> r == EraseResult(false, strokes, nextId)
    ensures r.changed <==> |eraser.points| >= 2
                           && exists s :: s in strokes && Touched(m, s, eraser, radiusPx, pageWidth, pageHeight)
    ensures nextId <= r.nextId
    ensures forall t :: t in r.nextStrokes ==>
              t in strokes || (nextId <= t.strokeId < r.nextId && exists s :: s in strokes && PieceOf(t, s))
    ensures IsSubsequence(Kept(m, strokes, eraser, radiusPx, pageWidth, pageHeight), r.nextStrokes)
    ensures forall s :: s in strokes && !Touched(m, s, eraser, radiusPx, pageWidth, pageHeight) ==> s in r.nextStrokes
  {
    if |eraser.points| < 2 then
      KeptIsSubsequence(m, strokes, eraser, radiusPx, pageWidth, pageHeight);
      EraseResult(false, strokes, nextId)
    else EraseAll(m, mode, strokes, eraser, radiusPx, pageWidth, pageHeight, nextId)
  }

  // ---------------------------------------------------------------------------
  // Properties of the pass

  /** The strokes without a sample near the eraser path, in order. */
  function Untouched(m: MathLib, strokes: seq<Stroke>, eraser: Stroke, radiusPx: real,
                     pageWidth: real, pageHeight: real): (r: seq<Stroke>)
    ensures forall t :: t in r <==> t in strokes && !AnyNear(m, t.points, eraser.points, radiusPx, pageWidth, pageHeight)
  {
    if |strokes| == 0 then []
    else if AnyNear(m, strokes[0].points, eraser.points, radiusPx, pageWidth, pageHeight)
    then Untouched(m, strokes[1..], eraser, radiusPx, pageWidth, pageHeight)
    else [strokes[0]] + Untouched(m, strokes[1..], eraser, radiusPx, pageWidth, pageHeight)
  }

  /** Every stroke's box holds its samples, and so does the eraser's. */
  ghost predicate BoxesHold(strokes: seq<Stroke>, eraser: Stroke)
  {
    BoxHolds(eraser.bounds, eraser.points) && forall s :: s in strokes ==> BoxHolds(s.bounds, s.points)
  }

  /** With honest boxes the pre-test only skips strokes that have no sample near the path,
      so a stroke is touched exactly when it has such a sample. */
  lemma TouchedIsNear(m: MathLib, s: Stroke, eraser: Stroke, radiusPx: real, pageWidth: real, pageHeight: real)
    requires HypotDominates(m) && 0.0 < pageWidth && 0.0 < pageHeight
    requires BoxHolds(s.bounds, s.points) && BoxHolds(eraser.bounds, eraser.points)
    ensures Touched(m, s, eraser, radiusPx, pageWidth, pageHeight)
            <==> AnyNear(m, s.points, eraser.points, radiusPx, pageWidth, pageHeight)
  {
    if AnyNear(m, s.points, eraser.points, radiusPx, pageWidth, pageHeight) {
      var p :| p in s.points && IsPointNearEraser(m, p, eraser.points, radiusPx, pageWidth, pageHeight);
      BoxTestIsSound(m, s, eraser, radiusPx, pageWidth, pageHeight, p);
    }
  }

  /** A sample taken from a run is an unhit sample of the stroke. */
  lemma RunSampleUnhit(h: seq<bool>, pts: seq<Point>, a: int, b: int, p: Point)
    requires |h| == |pts| && IsRun(h, a, b) && p in pts[a..b]
    ensures exists k :: 0 <= k < |h| && pts[k] == p && !h[k]
  {
    var k :| 0 <= k < b - a && pts[a..b][k] == p;
    assert pts[a + k] == p && !h[a + k];
  }

  /** Piece `j` holds the samples of run `j`. */
  lemma FragmentSamples(s: Stroke, runs: seq<(int, int)>, nextId: int, j: int)
    requires forall q :: q in runs ==> 0 <= q.0 && q.1 - q.0 > 1 && q.1 <= |s.points|
    requires 0 <= j < |runs|
    ensures runs[j] in runs
    ensures Fragments(s, runs, nextId)[j].points == s.points[runs[j].0..runs[j].1]
  {
    assert runs[j] in runs;
  }

  /** Each long run is a run of `h`. */
  lemma LongRunIsRun(h: seq<bool>, j: int)
    requires 0 <= j < |LongRuns(Runs(h))|
    ensures IsRun(h, LongRuns(Runs(h))[j].0, LongRuns(Runs(h))[j].1)
  {
    var all := Runs(h);
    var q := LongRuns(all)[j];
    assert q in LongRuns(all);
    assert q == (q.0, q.1) && (q.0, q.1) in all;
  }

  /** The samples of piece `j` are unhit samples of the stroke. */
  lemma PieceSamplesUnhit(s: Stroke, h: seq<bool>, nextId: int, j: int)
    requires |h| == |s.points| && 0 <= j < |LongRuns(Runs(h))|
    ensures forall p :: p in Fragments(s, LongRuns(Runs(h)), nextId)[j].points
              ==> exists k :: 0 <= k < |h| && s.points[k] == p && !h[k]
  {
    var runs := LongRuns(Runs(h));
    var a, b := runs[j].0, runs[j].1;
    LongRunIsRun(h, j);
    FragmentSamples(s, runs, nextId, j);
    forall p | p in s.points[a..b] ensures exists k :: 0 <= k < |h| && s.points[k] == p && !h[k] {
      RunSampleUnhit(h, s.points, a, b, p);
    }
  }

  /** Every sample of a piece cut at the hits `h` is an unhit sample of the stroke. */
  lemma PiecesAvoidHits(s: Stroke, h: seq<bool>, nextId: int)
    requires |h| == |s.points|
    ensures forall t, p :: t in Fragments(s, LongRuns(Runs(h)), nextId) && p in t.points
              ==> exists k :: 0 <= k < |h| && s.points[k] == p && !h[k]
  {
    var pieces := Fragments(s, LongRuns(Runs(h)), nextId);
    forall t, p | t in pieces && p in t.points
      ensures exists k :: 0 <= k < |h| && s.points[k] == p && !h[k]
    {
      var j :| 0 <= j < |pieces| && pieces[j] == t;
      PieceSamplesUnhit(s, h, nextId, j);
    }
  }

  /** The samples of the pieces cut from a stroke are none of them near the eraser path. */
  lemma PiecesAvoidEraser(m: MathLib, s: Stroke, eraser: Stroke, radiusPx: real,
                          pageWidth: real, pageHeight: real, nextId: int)
    ensures forall t, p :: t in Fragments(s, LongRuns(Runs(HitMask(m, s.points, eraser.points, radiusPx,
                                                                   pageWidth, pageHeight))), nextId)
              && p in t.points
              ==> !IsPointNearEraser(m, p, eraser.points, radiusPx, pageWidth, pageHeight)
  {
    PiecesAvoidHits(s, HitMask(m, s.points, eraser.points, radiusPx, pageWidth, pageHeight), nextId);
  }

  /** The pieces cut at the hits `h`: one per maximal stretch of unhit samples longer than
      one sample, in stroke order, with consecutive ids from `nextId`. */
  lemma PiecesAreLongRuns(s: Stroke, h: seq<bool>, nextId: int)
    requires |h| == |s.points|
    ensures exists runs: seq<(int, int)> :: Separated(runs)
              && (forall a, b :: (a, b) in runs <==> IsRun(h, a, b) && b - a > 1)
              && |Fragments(s, LongRuns(Runs(h)), nextId)| == |runs|
              && forall j :: 0 <= j < |runs| ==>
                   Fragments(s, LongRuns(Runs(h)), nextId)[j] == Piece(s, runs[j].0, runs[j].1, nextId + j)
  {
    var runs := LongRuns(Runs(h));
    var f := Fragments(s, runs, nextId);
    forall j | 0 <= j < |runs| ensures f[j] == Piece(s, runs[j].0, runs[j].1, nextId + j) {
    }
    assert forall a, b :: (a, b) in runs <==> IsRun(h, a, b) && b - a > 1;
    assert Separated(runs) && |f| == |runs|;
  }

  /** In partial mode a touched stroke is replaced by the pieces cut at its hit samples
      (characterised by `PiecesAreLongRuns`), and the counter advances by their number. */
  lemma PartialModeCutsAtHits(m: MathLib, s: Stroke, eraser: Stroke, radiusPx: real,
                              pageWidth: real, pageHeight: real, nextId: int)
    requires pageWidth != 0.0 && pageHeight != 0.0
    requires Touched(m, s, eraser, radiusPx, pageWidth, pageHeight)
    ensures var r := EraseOne(m, PartialMode, s, eraser, radiusPx, pageWidth, pageHeight, nextId);
            r.changed
            && r.nextStrokes == Fragments(s, LongRuns(Runs(HitMask(m, s.points, eraser.points, radiusPx,
                                                                   pageWidth, pageHeight))), nextId)
            && r.nextId == nextId + |r.nextStrokes|
  {
  }

  /** A long run of `h` is the sample stretch of one of the pieces cut at `h`. */
  lemma RunPieceInFragments(s: Stroke, h: seq<bool>, nextId: int, a: int, b: int) returns (t: Stroke)
    requires |h| == |s.points| && (a, b) in LongRuns(Runs(h)) && 0 <= a <= b <= |s.points|
    ensures t in Fragments(s, LongRuns(Runs(h)), nextId) && PieceOf(t, s) && t.points == s.points[a..b]
  {
    var runs := LongRuns(Runs(h));
    var j :| 0 <= j < |runs| && runs[j] == (a, b);
    FragmentSamples(s, runs, nextId, j);
    var f := Fragments(s, runs, nextId);
    t := f[j];
  }

  /** Each piece cut at `h` holds the samples of a long run of `h`. */
  lemma FragmentIsRunPiece(s: Stroke, h: seq<bool>, nextId: int, t: Stroke)
    requires |h| == |s.points| && t in Fragments(s, LongRuns(Runs(h)), nextId)
    ensures exists a, b :: IsRun(h, a, b) && b - a > 1 && PieceOf(t, s) && t.points == s.points[a..b]
  {
    var runs := LongRuns(Runs(h));
    var f := Fragments(s, runs, nextId);
    var j :| 0 <= j < |f| && f[j] == t;
    LongRunIsRun(h, j);
    FragmentSamples(s, runs, nextId, j);
  }

  /** One long unhit run of one touched stroke comes out of the pass as a piece. */
  lemma {:induction false} EraseAllRunPiece(m: MathLib, strokes: seq<Stroke>, eraser: Stroke, radiusPx: real,
                                            pageWidth: real, pageHeight: real, nextId: int, s: Stroke, a: int, b: int)
    returns (t: Stroke)
    requires pageWidth != 0.0 && pageHeight != 0.0
    requires s in strokes && Touched(m, s, eraser, radiusPx, pageWidth, pageHeight)
    requires (a, b) in LongRuns(Runs(HitMask(m, s.points, eraser.points, radiusPx, pageWidth, pageHeight)))
    requires 0 <= a <= b <= |s.points|
    ensures t in EraseAll(m, PartialMode, strokes, eraser, radiusPx, pageWidth, pageHeight, nextId).nextStrokes
    ensures PieceOf(t, s) && t.points == s.points[a..b]
  {
    var head := EraseOne(m, PartialMode, strokes[0], eraser, radiusPx, pageWidth, pageHeight, nextId);
    var tail := EraseAll(m, PartialMode, strokes[1..], eraser, radiusPx, pageWidth, pageHeight, head.nextId);
    var r := EraseAll(m, PartialMode, strokes, eraser, radiusPx, pageWidth, pageHeight, nextId);
    assert r.nextStrokes == head.nextStrokes + tail.nextStrokes;
    if s == strokes[0] {
      PartialModeCutsAtHits(m, s, eraser, radiusPx, pageWidth, pageHeight, nextId);
      t := RunPieceInFragments(s, HitMask(m, s.points, eraser.points, radiusPx, pageWidth, pageHeight), nextId, a, b);
    } else {
      InTail(strokes, s);
      t := EraseAllRunPiece(m, strokes[1..], eraser, radiusPx, pageWidth, pageHeight, head.nextId, s, a, b);
    }
  }

  /** In partial mode every long unhit run of every touched stroke comes out of the pass as
      a piece holding exactly that run's samples. */
  lemma EraseAllPartialPieces(m: MathLib, strokes: seq<Stroke>, eraser: Stroke, radiusPx: real,
                              pageWidth: real, pageHeight: real, nextId: int)
    requires pageWidth != 0.0 && pageHeight != 0.0
    ensures forall s, a, b :: s in strokes && Touched(m, s, eraser, radiusPx, pageWidth, pageHeight)
              && IsRun(HitMask(m, s.points, eraser.points, radiusPx, pageWidth, pageHeight), a, b) && b - a > 1
              ==> exists t :: t in EraseAll(m, PartialMode, strokes, eraser, radiusPx, pageWidth, pageHeight, nextId).nextStrokes
                              && PieceOf(t, s) && t.points == s.points[a..b]
  {
    forall s, a, b | s in strokes && Touched(m, s, eraser, radiusPx, pageWidth, pageHeight)
        && IsRun(HitMask(m, s.points, eraser.points, radiusPx, pageWidth, pageHeight), a, b) && b - a > 1
      ensures exists t :: t in EraseAll(m, PartialMode, strokes, eraser, radiusPx, pageWidth, pageHeight, nextId).nextStrokes
                          && PieceOf(t, s) && t.points == s.points[a..b]
    {
      var h := HitMask(m, s.points, eraser.points, radiusPx, pageWidth, pageHeight);
      assert (a, b) in Runs(h);
      var t := EraseAllRunPiece(m, strokes, eraser, radiusPx, pageWidth, pageHeight, nextId, s, a, b);
    }
  }

  /** An untouched input stroke, or the piece holding a long unhit run of a touched one. */
  ghost predicate PartialOutput(m: MathLib, strokes: seq<Stroke>, eraser: Stroke, radiusPx: real,
                                pageWidth: real, pageHeight: real, t: Stroke)
    requires pageWidth != 0.0 && pageHeight != 0.0
  {
    (t in strokes && !Touched(m, t, eraser, radiusPx, pageWidth, pageHeight))
    || exists s, a, b :: s in strokes && Touched(m, s, eraser, radiusPx, pageWidth, pageHeight)
         && IsRun(HitMask(m, s.points, eraser.points, radiusPx, pageWidth, pageHeight), a, b)
         && b - a > 1 && PieceOf(t, s) && t.points == s.points[a..b]
  }

  /** One stroke out of the pass in partial mode is a `PartialOutput` of the input. */
  lemma {:induction false} EraseAllOutputIsPartial(m: MathLib, strokes: seq<Stroke>, eraser: Stroke, radiusPx: real,
                                                   pageWidth: real, pageHeight: real, nextId: int, t: Stroke)
    requires pageWidth != 0.0 && pageHeight != 0.0
    requires t in EraseAll(m, PartialMode, strokes, eraser, radiusPx, pageWidth, pageHeight, nextId).nextStrokes
    ensures PartialOutput(m, strokes, eraser, radiusPx, pageWidth, pageHeight, t)
  {
    var s0 := strokes[0];
    assert s0 in strokes;
    var head := EraseOne(m, PartialMode, s0, eraser, radiusPx, pageWidth, pageHeight, nextId);
    var tail := EraseAll(m, PartialMode, strokes[1..], eraser, radiusPx, pageWidth, pageHeight, head.nextId);
    var r := EraseAll(m, PartialMode, strokes, eraser, radiusPx, pageWidth, pageHeight, nextId);
    assert r.nextStrokes == head.nextStrokes + tail.nextStrokes;
    if t in head.nextStrokes {
      if head.changed {
        PartialModeCutsAtHits(m, s0, eraser, radiusPx, pageWidth, pageHeight, nextId);
        FragmentIsRunPiece(s0, HitMask(m, s0.points, eraser.points, radiusPx, pageWidth, pageHeight), nextId, t);
      }
    } else {
      EraseAllOutputIsPartial(m, strokes[1..], eraser, radiusPx, pageWidth, pageHeight, head.nextId, t);
      PartialOutputGrows(m, strokes, eraser, radiusPx, pageWidth, pageHeight, t);
    }
  }

  /** A `PartialOutput` of the strokes after the first is one of all the strokes. */
  lemma PartialOutputGrows(m: MathLib, strokes: seq<Stroke>, eraser: Stroke, radiusPx: real,
                           pageWidth: real, pageHeight: real, t: Stroke)
    requires pageWidth != 0.0 && pageHeight != 0.0 && |strokes| > 0
    requires PartialOutput(m, strokes[1..], eraser, radiusPx, pageWidth, pageHeight, t)
    ensures PartialOutput(m, strokes, eraser, radiusPx, pageWidth, pageHeight, t)
  {
    if !(t in strokes[1..] && !Touched(m, t, eraser, radiusPx, pageWidth, pageHeight)) {
      var s, a, b :| s in strokes[1..] && Touched(m, s, eraser, radiusPx, pageWidth, pageHeight)
                     && IsRun(HitMask(m, s.points, eraser.points, radiusPx, pageWidth, pageHeight), a, b)
                     && b - a > 1 && PieceOf(t, s) && t.points == s.points[a..b];
      assert s in strokes;
    }
  }

  /** In partial mode every stroke out of the pass is an untouched input stroke, or the
      piece holding the samples of a long unhit run of a touched one. */
  lemma EraseAllPartialOutputs(m: MathLib, strokes: seq<Stroke>, eraser: Stroke, radiusPx: real,
                               pageWidth: real, pageHeight: real, nextId: int)
    requires pageWidth != 0.0 && pageHeight != 0.0
    ensures forall t :: t in EraseAll(m, PartialMode, strokes, eraser, radiusPx, pageWidth, pageHeight, nextId).nextStrokes
              ==> PartialOutput(m, strokes, eraser, radiusPx, pageWidth, pageHeight, t)
  {
    forall t | t in EraseAll(m, PartialMode, strokes, eraser, radiusPx, pageWidth, pageHeight, nextId).nextStrokes
      ensures PartialOutput(m, strokes, eraser, radiusPx, pageWidth, pageHeight, t)
    {
      EraseAllOutputIsPartial(m, strokes, eraser, radiusPx, pageWidth, pageHeight, nextId, t);
    }
  }

  /** The partial-mode result of the exported entry point: each long unhit run of a
      touched stroke comes out as a piece, and every stroke out is an untouched input
      stroke or such a piece. */
  lemma EraseStrokesPartialMode(m: MathLib, strokes: seq<Stroke>, eraser: Stroke, radiusPx: real,
                                pageWidth: real, pageHeight: real, nextId: int)
    requires pageWidth != 0.0 && pageHeight != 0.0
    ensures forall s, a, b :: s in strokes && Touched(m, s, eraser, radiusPx, pageWidth, pageHeight)
              && IsRun(HitMask(m, s.points, eraser.points, radiusPx, pageWidth, pageHeight), a, b) && b - a > 1
              ==> exists t :: t in EraseStrokes(m, strokes, eraser, PartialMode, radiusPx, pageWidth, pageHeight, nextId).nextStrokes
                              && PieceOf(t, s) && t.points == s.points[a..b]
    ensures forall t :: t in EraseStrokes(m, strokes, eraser, PartialMode, radiusPx, pageWidth, pageHeight, nextId).nextStrokes
              ==> PartialOutput(m, strokes, eraser, radiusPx, pageWidth, pageHeight, t)
  {
    if |eraser.points| >= 2 {
      EraseAllPartialPieces(m, strokes, eraser, radiusPx, pageWidth, pageHeight, nextId);
      EraseAllPartialOutputs(m, strokes, eraser, radiusPx, pageWidth, pageHeight, nextId);
    }
  }

  /** With honest boxes, one stroke: changed exactly when it has a sample near the path,
      dropped whole in stroke mode, and nothing near the path survives in either mode. */
  lemma EraseOneWithHonestBoxes(m: MathLib, mode: EraserMode, s: Stroke, eraser: Stroke, radiusPx: real,
                                pageWidth: real, pageHeight: real, nextId: int)
    requires HypotDominates(m) && 0.0 < pageWidth && 0.0 < pageHeight
    requires BoxHolds(s.bounds, s.points) && BoxHolds(eraser.bounds, eraser.points)
    ensures var r := EraseOne(m, mode, s, eraser, radiusPx, pageWidth, pageHeight, nextId);
            r.changed <==> AnyNear(m, s.points, eraser.points, radiusPx, pageWidth, pageHeight)
    ensures mode == StrokeMode ==>
              EraseOne(m, mode, s, eraser, radiusPx, pageWidth, pageHeight, nextId)
              == EraseResult(AnyNear(m, s.points, eraser.points, radiusPx, pageWidth, pageHeight),
                             Untouched(m, [s], eraser, radiusPx, pageWidth, pageHeight), nextId)
    ensures forall t, p :: t in EraseOne(m, mode, s, eraser, radiusPx, pageWidth, pageHeight, nextId).nextStrokes && p in t.points
              ==> !IsPointNearEraser(m, p, eraser.points, radiusPx, pageWidth, pageHeight)
  {
    TouchedIsNear(m, s, eraser, radiusPx, pageWidth, pageHeight);
    PiecesAvoidEraser(m, s, eraser, radiusPx, pageWidth, pageHeight, nextId);
    assert [s][1..] == [];
  }

  /** The whole pass with honest boxes: it reports a change exactly when some sample of
      some stroke is near the eraser path; in stroke mode it keeps exactly the strokes with
      no such sample, in order, and draws no ids; and in either mode no sample near the path
      survives. */
  lemma {:induction false} EraseAllWithHonestBoxes(m: MathLib, mode: EraserMode, strokes: seq<Stroke>, eraser: Stroke,
                                                   radiusPx: real, pageWidth: real, pageHeight: real, nextId: int)
    requires HypotDominates(m) && 0.0 < pageWidth && 0.0 < pageHeight
    requires BoxesHold(strokes, eraser)
    ensures var r := EraseAll(m, mode, strokes, eraser, radiusPx, pageWidth, pageHeight, nextId);
            r.changed <==> exists s :: s in strokes && AnyNear(m, s.points, eraser.points, radiusPx, pageWidth, pageHeight)
    ensures mode == StrokeMode ==>
              EraseAll(m, mode, strokes, eraser, radiusPx, pageWidth, pageHeight, nextId).nextStrokes
              == Untouched(m, strokes, eraser, radiusPx, pageWidth, pageHeight)
    ensures mode == StrokeMode ==> EraseAll(m, mode, strokes, eraser, radiusPx, pageWidth, pageHeight, nextId).nextId == nextId
    ensures forall t, p :: t in EraseAll(m, mode, strokes, eraser, radiusPx, pageWidth, pageHeight, nextId).nextStrokes && p in t.points
              ==> !IsPointNearEraser(m, p, eraser.points, radiusPx, pageWidth, pageHeight)
  {
    if |strokes| > 0 {
      var s := strokes[0];
      assert s in strokes;
      var head := EraseOne(m, mode, s, eraser, radiusPx, pageWidth, pageHeight, nextId);
      EraseOneWithHonestBoxes(m, mode, s, eraser, radiusPx, pageWidth, pageHeight, nextId);
      assert BoxesHold(strokes[1..], eraser) by {
        forall t | t in strokes[1..] ensures BoxHolds(t.bounds, t.points) { assert t in strokes; }
      }
      EraseAllWithHonestBoxes(m, mode, strokes[1..], eraser, radiusPx, pageWidth, pageHeight, head.nextId);
      var tail := EraseAll(m, mode, strokes[1..], eraser, radiusPx, pageWidth, pageHeight, head.nextId);
      var r := EraseAll(m, mode, strokes, eraser, radiusPx, pageWidth, pageHeight, nextId);
      assert r == EraseResult(head.changed || tail.changed, head.nextStrokes + tail.nextStrokes, tail.nextId);
      forall t | t in strokes && AnyNear(m, t.points, eraser.points, radiusPx, pageWidth, pageHeight)
        ensures t == s || t in strokes[1..]
      {
        assert t in [s] + strokes[1..];
      }
      UntouchedStep(m, strokes, eraser, radiusPx, pageWidth, pageHeight);
    }
  }

  /** `Untouched` splits at the first stroke. */
  lemma UntouchedStep(m: MathLib, strokes: seq<Stroke>, eraser: Stroke, radiusPx: real, pageWidth: real, pageHeight: real)
    requires |strokes| > 0
    ensures Untouched(m, strokes, eraser, radiusPx, pageWidth, pageHeight)
            == Untouched(m, [strokes[0]], eraser, radiusPx, pageWidth, pageHeight)
               + Untouched(m, strokes[1..], eraser, radiusPx, pageWidth, pageHeight)
  {
    UntouchedSingle(m, strokes[0], eraser, radiusPx, pageWidth, pageHeight);
  }

  /** `Untouched` of one stroke keeps it exactly when no sample is near the path. */
  lemma UntouchedSingle(m: MathLib, s: Stroke, eraser: Stroke, radiusPx: real, pageWidth: real, pageHeight: real)
    ensures Untouched(m, [s], eraser, radiusPx, pageWidth, pageHeight)
            == if AnyNear(m, s.points, eraser.points, radiusPx, pageWidth, pageHeight) then [] else [s]
  {
    var none: seq<Stroke> := [];
    assert [s][1..] == none;
  }

  /** The same for the exported entry point, once the eraser path has a segment. */
  lemma EraseStrokesWithHonestBoxes(m: MathLib, mode: EraserMode, strokes: seq<Stroke>, eraser: Stroke,
                                    radiusPx: real, pageWidth: real, pageHeight: real, nextId: int)
    requires HypotDominates(m) && 0.0 < pageWidth && 0.0 < pageHeight
    requires BoxesHold(strokes, eraser) && |eraser.points| >= 2
    ensures var r := EraseStrokes(m, strokes, eraser, mode, radiusPx, pageWidth, pageHeight, nextId);
            (r.changed <==> exists s, p :: s in strokes && p in s.points
                              && IsPointNearEraser(m, p, eraser.points, radiusPx, pageWidth, pageHeight))
            && (mode == StrokeMode ==> r.nextStrokes == Untouched(m, strokes, eraser, radiusPx, pageWidth, pageHeight))
            && (forall t, p :: t in r.nextStrokes && p in t.points
                  ==> !IsPointNearEraser(m, p, eraser.points, radiusPx, pageWidth, pageHeight))
  {
    EraseAllWithHonestBoxes(m, mode, strokes, eraser, radiusPx, pageWidth, pageHeight, nextId);
  }

  /** Two id-unique lists whose ids never meet concatenate to an id-unique list. */
  lemma UniqueIdsAppend(a: seq<Stroke>, b: seq<Stroke>)
    requires UniqueIds(a) && UniqueIds(b)
    requires forall x, y :: x in a && y in b ==> x.strokeId != y.strokeId
    ensures UniqueIds(a + b)
  {
    forall i, j | 0 <= i < j < |a + b| ensures (a + b)[i].strokeId != (a + b)[j].strokeId {
      if j >= |a| && i < |a| {
        assert (a + b)[i] in a && (a + b)[j] in b;
      }
    }
  }

  /** Fresh ids above every existing one keep ids unique: the pass never produces two
      strokes with the same id. */
  lemma {:induction false} EraseAllKeepsIdsUnique(m: MathLib, mode: EraserMode, strokes: seq<Stroke>, eraser: Stroke,
                                                  radiusPx: real, pageWidth: real, pageHeight: real, nextId: int)
    requires pageWidth != 0.0 && pageHeight != 0.0
    requires UniqueIds(strokes) && forall s :: s in strokes ==> s.strokeId < nextId
    ensures var r := EraseAll(m, mode, strokes, eraser, radiusPx, pageWidth, pageHeight, nextId);
            UniqueIds(r.nextStrokes) && forall t :: t in r.nextStrokes ==> t.strokeId < r.nextId
  {
    if |strokes| > 0 {
      var s := strokes[0];
      var head := EraseOne(m, mode, s, eraser, radiusPx, pageWidth, pageHeight, nextId);
      UniqueIdsTail(strokes, nextId);
      EraseAllKeepsIdsUnique(m, mode, strokes[1..], eraser, radiusPx, pageWidth, pageHeight, head.nextId);
      var tail := EraseAll(m, mode, strokes[1..], eraser, radiusPx, pageWidth, pageHeight, head.nextId);
      FreshIdsApart(head.nextStrokes, tail.nextStrokes, strokes[1..], nextId, head.nextId, tail.nextId);
      UniqueIdsAppend(head.nextStrokes, tail.nextStrokes);
    }
  }

  /** Dropping the first stroke keeps ids unique and below the bound, and none of the rest
      shares the first stroke's id. */
  lemma UniqueIdsTail(strokes: seq<Stroke>, nextId: int)
    requires |strokes| > 0 && UniqueIds(strokes) && forall s :: s in strokes ==> s.strokeId < nextId
    ensures strokes[0].strokeId < nextId
    ensures UniqueIds(strokes[1..])
    ensures forall u :: u in strokes[1..] ==> u.strokeId != strokes[0].strokeId && u.strokeId < nextId
  {
    assert strokes[0] in strokes;
    forall u | u in strokes[1..] ensures u in strokes && u.strokeId != strokes[0].strokeId {
      var k :| 0 <= k < |strokes[1..]| && strokes[1..][k] == u;
      assert strokes[k + 1] == u;
    }
  }

  /** Ids below `nextId` or in `[nextId, mid)` never meet ids of `rest` or in `[mid, last)`,
      provided `rest` avoids every id the first part can hold below `nextId`. */
  lemma FreshIdsApart(first: seq<Stroke>, second: seq<Stroke>, rest: seq<Stroke>, nextId: int, mid: int, last: int)
    requires forall x :: x in first ==> x.strokeId < mid
    requires forall x, u :: x in first && u in rest ==> x.strokeId != u.strokeId
    requires forall y :: y in second ==> y in rest || mid <= y.strokeId
    ensures forall x, y :: x in first && y in second ==> x.strokeId != y.strokeId
  {
  }

  lemma EraseStrokesKeepsIdsUnique(m: MathLib, mode: EraserMode, strokes: seq<Stroke>, eraser: Stroke,
                                   radiusPx: real, pageWidth: real, pageHeight: real, nextId: int)
    requires pageWidth != 0.0 && pageHeight != 0.0
    requires UniqueIds(strokes) && forall s :: s in strokes ==> s.strokeId < nextId
    ensures var r := EraseStrokes(m, strokes, eraser, mode, radiusPx, pageWidth, pageHeight, nextId);
            UniqueIds(r.nextStrokes) && forall t :: t in r.nextStrokes ==> t.strokeId < r.nextId
  {
    if |eraser.points| >= 2 {
      EraseAllKeepsIdsUnique(m, mode, strokes, eraser, radiusPx, pageWidth, pageHeight, nextId);
    }
  }
}

=== FILE: intersection.dfy ===
/** The box test around an eraser sample and the point-to-segment distance
    (geometry/intersection.ts). */
module Intersection {
  import opened StrokeTypes
  import opened Numerics

  /** Two closed boxes share at least one point (for well-formed boxes). */
  predicate Overlap(a: Bounds, b: Bounds)
  {
    a.minX <= b.maxX && b.minX <= a.maxX && a.minY <= b.maxY && b.minY <= a.maxY
  }

  /** `b` grown by `rX` horizontally and `rY` vertically on every side. */
  function Grow(b: Bounds, rX: real, rY: real): Bounds
  {
    Bounds(b.minX - rX, b.minY - rY, b.maxX + rX, b.maxY + rY)
  }

  lemma OverlapIffCommonPoint(a: Bounds, b: Bounds)
    requires WellFormed(a) && WellFormed(b)
    ensures Overlap(a, b) <==> exists x, y :: Contains(a, x, y) && Contains(b, x, y)
  {
    if Overlap(a, b) {
      var x := Max(a.minX, b.minX);
      var y := Max(a.minY, b.minY);
      assert Contains(a, x, y) && Contains(b, x, y);
    }
  }

  function BoundsIntersect(bounds: Bounds, center: Point, radiusPx: real,
                           pageWidth: real, pageHeight: real): bool
    requires pageWidth != 0.0 && pageHeight != 0.0
  {
    var rX := radiusPx / pageWidth;
    var rY := radiusPx / pageHeight;
    !(center.x + rX < bounds.minX || center.x - rX > bounds.maxX
      || center.y + rY < bounds.minY || center.y - rY > bounds.maxY)
  }

  /** The test is a box overlap against the centre's point box grown by the radius
      converted to page fractions on each axis (not a circle test). */
  lemma BoundsIntersectIsBoxOverlap(bounds: Bounds, center: Point, radiusPx: real,
                                    pageWidth: real, pageHeight: real)
    requires pageWidth != 0.0 && pageHeight != 0.0
    ensures BoundsIntersect(bounds, center, radiusPx, pageWidth, pageHeight)
        <==> Overlap(bounds, Grow(Bounds(center.x, center.y, center.x, center.y),
                                  radiusPx / pageWidth, radiusPx / pageHeight))
  {
  }

  lemma CenterInsideIntersects(bounds: Bounds, center: Point, radiusPx: real,
                               pageWidth: real, pageHeight: real)
    requires 0.0 < pageWidth && 0.0 < pageHeight && 0.0 <= radiusPx
    requires Contains(bounds, center.x, center.y)
    ensures BoundsIntersect(bounds, center, radiusPx, pageWidth, pageHeight)
  {
    assert 0.0 <= radiusPx / pageWidth && 0.0 <= radiusPx / pageHeight;
  }

  function Clamp01(t: real): (r: real)
    ensures 0.0 <= r <= 1.0
    ensures 0.0 <= t <= 1.0 ==> r == t
  {
    Max(0.0, Min(1.0, t))
  }

  /** Position along the segment of the point nearest to p, as a fraction of the segment:
      the projection of `ap` onto `ab`, clamped onto [0, 1]. */
  function ProjectionParam(apx: real, apy: real, abx: real, aby: real): (t: real)
    requires abx * abx + aby * aby != 0.0
    ensures 0.0 <= t <= 1.0
  {
    Clamp01((apx * abx + apy * aby) / (abx * abx + aby * aby))
  }

  function DistancePointToSegment(m: MathLib, px: real, py: real,
                                  sx: real, sy: real, ex: real, ey: real): real
  {
    var abx := ex - sx;
    var aby := ey - sy;
    var apx := px - sx;
    var apy := py - sy;
    var abLenSq := abx * abx + aby * aby;
    if abLenSq == 0.0 then m.hypot(px - sx, py - sy)
    else
      var t := ProjectionParam(apx, apy, abx, aby);
      var cx := sx + t * abx;
      var cy := sy + t * aby;
      m.hypot(px - cx, py - cy)
  }

  lemma DistanceNonNegative(m: MathLib, px: real, py: real,
                            sx: real, sy: real, ex: real, ey: real)
    requires Sound(m)
    ensures 0.0 <= DistancePointToSegment(m, px, py, sx, sy, ex, ey)
  {
    var abx, aby := ex - sx, ey - sy;
    if abx * abx + aby * aby == 0.0 {
      HypotNonNegative(m, px - sx, py - sy);
    } else {
      var t := ProjectionParam(px - sx, py - sy, abx, aby);
      HypotNonNegative(m, px - (sx + t * abx), py - (sy + t * aby));
    }
  }

  lemma DivSelf(L: real)
    requires L != 0.0
    ensures L / L == 1.0
  {
  }

  lemma DistanceAtStart(m: MathLib, sx: real, sy: real, ex: real, ey: real)
    ensures DistancePointToSegment(m, sx, sy, sx, sy, ex, ey) == m.hypot(0.0, 0.0)
  {
    var abx, aby := ex - sx, ey - sy;
    if abx * abx + aby * aby != 0.0 {
      assert 0.0 * abx + 0.0 * aby == 0.0;
      assert ProjectionParam(0.0, 0.0, abx, aby) == 0.0;
    }
  }

  lemma DistanceAtEnd(m: MathLib, sx: real, sy: real, ex: real, ey: real)
    requires (ex - sx) * (ex - sx) + (ey - sy) * (ey - sy) != 0.0
    ensures DistancePointToSegment(m, ex, ey, sx, sy, ex, ey) == m.hypot(0.0, 0.0)
  {
    var abx, aby := ex - sx, ey - sy;
    var L := abx * abx + aby * aby;
    DistanceAtProjection(m, ex, ey, sx, sy, ex, ey);
    DivSelf(L);
    var t := ProjectionParam(abx, aby, abx, aby);
    assert t == 1.0;
    assert abx - t * abx == 0.0 && aby - t * aby == 0.0;
  }

  lemma HypotOfZeroLength(m: MathLib, a: real, b: real)
    requires Sound(m)
    requires a * a + b * b == 0.0
    ensures m.hypot(a, b) == 0.0
  {
    assert m.hypot(a, b) == m.sqrt(a * a + b * b);
  }

  /** The distance vanishes at both endpoints. */
  lemma DistanceZeroAtEndpoints(m: MathLib, sx: real, sy: real, ex: real, ey: real)
    requires Sound(m)
    ensures DistancePointToSegment(m, sx, sy, sx, sy, ex, ey) == 0.0
    ensures DistancePointToSegment(m, ex, ey, sx, sy, ex, ey) == 0.0
  {
    HypotZero(m);
    DistanceAtStart(m, sx, sy, ex, ey);
    if (ex - sx) * (ex - sx) + (ey - sy) * (ey - sy) != 0.0 {
      DistanceAtEnd(m, sx, sy, ex, ey);
    } else {
      HypotOfZeroLength(m, ex - sx, ey - sy);
    }
  }

  function Quad(A: real, w: real, L: real, q: real): real
  {
    A - 2.0 * q * w + q * q * L
  }
  /** Squared distance from p to the point at parameter q of the segment, as a quadratic in q. */
  lemma SqLenAlong(apx: real, apy: real, abx: real, aby: real, q: real)
    ensures SqLen(apx - q * abx, apy - q * aby)
         == Quad(SqLen(apx, apy), apx * abx + apy * aby, SqLen(abx, aby), q)
  {
    assert (apx - q * abx) * (apx - q * abx) == apx * apx - 2.0 * q * (apx * abx) + q * q * (abx * abx);
    assert (apy - q * aby) * (apy - q * aby) == apy * apy - 2.0 * q * (apy * aby) + q * q * (aby * aby);
  }
  /** The clamped minimiser t of the quadratic over [0, 1] is no worse than any s in [0, 1]. */
  lemma ClampedMinimiser(A: real, w: real, L: real, s: real, t: real)
    requires 0.0 < L && 0.0 <= s <= 1.0 && t == Clamp01(w / L)
    ensures Quad(A, w, L, t) <= Quad(A, w, L, s)
  {
    var u := w / L;
    assert w == u * L;
    var gap := (s - t) * (L * (s + t) - 2.0 * w);
    assert (A - 2.0 * s * w + s * s * L) - (A - 2.0 * t * w + t * t * L) == gap;
    if 0.0 <= u <= 1.0 {
      assert L * (s + t) - 2.0 * w == L * (s - t);
      assert gap == L * ((s - t) * (s - t));
      assert 0.0 <= (s - t) * (s - t);
      assert 0.0 <= L * ((s - t) * (s - t));
    } else if u < 0.0 {
      assert t == 0.0;
      MulNegativePositive(u, L);
      MulNonNegative(L, s);
      assert gap == s * (L * s - 2.0 * w);
      MulNonNegative(s, L * s - 2.0 * w);
    } else {
      assert t == 1.0;
      MulAboveOne(u, L);
      MulAtMostOne(L, s);
      assert L * (s + 1.0) == L * s + L;
      assert gap == (s - 1.0) * (L * (s + 1.0) - 2.0 * w);
      MulNonPositive(s - 1.0, L * (s + 1.0) - 2.0 * w);
    }
  }
  lemma ProjectionParamUnfold(apx: real, apy: real, abx: real, aby: real)
    requires abx * abx + aby * aby != 0.0
    ensures 0.0 < SqLen(abx, aby)
    ensures ProjectionParam(apx, apy, abx, aby) == Clamp01((apx * abx + apy * aby) / SqLen(abx, aby))
  {
  }
  /** The clamped projection is the point of the segment nearest to p: no parameter s in
      [0, 1] gives a smaller squared distance. */
  lemma ProjectionIsNearest(apx: real, apy: real, abx: real, aby: real, s: real)
    requires abx * abx + aby * aby != 0.0
    requires 0.0 <= s <= 1.0
    ensures var t := ProjectionParam(apx, apy, abx, aby);
            SqLen(apx - t * abx, apy - t * aby) <= SqLen(apx - s * abx, apy - s * aby)
  {
    var t := ProjectionParam(apx, apy, abx, aby);
    ProjectionParamUnfold(apx, apy, abx, aby);
    SqLenAlong(apx, apy, abx, aby, t);
    SqLenAlong(apx, apy, abx, aby, s);
    ClampedMinimiser(SqLen(apx, apy), apx * abx + apy * aby, SqLen(abx, aby), s, t);
  }

  /** Away from the degenerate case the distance is the length of `ap - t * ab`. */
  lemma DistanceAtProjection(m: MathLib, px: real, py: real,
                             sx: real, sy: real, ex: real, ey: real)
    requires (ex - sx) * (ex - sx) + (ey - sy) * (ey - sy) != 0.0
    ensures var t := ProjectionParam(px - sx, py - sy, ex - sx, ey - sy);
            DistancePointToSegment(m, px, py, sx, sy, ex, ey)
              == m.hypot((px - sx) - t * (ex - sx), (py - sy) - t * (ey - sy))
  {
    var t := ProjectionParam(px - sx, py - sy, ex - sx, ey - sy);
    assert px - (sx + t * (ex - sx)) == (px - sx) - t * (ex - sx);
    assert py - (sy + t * (ey - sy)) == (py - sy) - t * (ey - sy);
  }

  /** In `hypot` terms: the length of `ap - t * ab` at the clamped projection t is at most
      its length at any s in [0, 1]; with `DistanceAtProjection` this makes the measured
      distance the minimum over the segment. */
  lemma ProjectionMinimisesHypot(m: MathLib, apx: real, apy: real, abx: real, aby: real, s: real, t: real)
    requires HypotOrdered(m)
    requires 0.0 <= s <= 1.0
    requires abx * abx + aby * aby != 0.0
    requires t == ProjectionParam(apx, apy, abx, aby)
    ensures m.hypot(apx - t * abx, apy - t * aby) <= m.hypot(apx - s * abx, apy - s * aby)
  {
    ProjectionIsNearest(apx, apy, abx, aby, s);
  }

  lemma MulNonNegative(a: real, b: real)
    requires 0.0 <= a && 0.0 <= b
    ensures 0.0 <= a * b
  {
  }

  lemma MulNonPositive(a: real, b: real)
    requires a <= 0.0 && b <= 0.0
    ensures 0.0 <= a * b
  {
    assert a * b == (-a) * (-b);
    MulNonNegative(-a, -b);
  }

  lemma MulNegativePositive(u: real, L: real)
    requires u < 0.0 && 0.0 < L
    ensures u * L < 0.0
  {
  }

  lemma MulAboveOne(u: real, L: real)
    requires 1.0 < u && 0.0 < L
    ensures L < u * L
  {
    assert u * L - L == (u - 1.0) * L;
  }

  lemma MulAtMostOne(L: real, s: real)
    requires 0.0 <= L && s <= 1.0
    ensures L * s <= L
  {
    assert L - L * s == L * (1.0 - s);
    MulNonNegative(L, 1.0 - s);
  }

  /** The coordinate at fraction t of the way from s to e. */
  function Along(s: real, e: real, t: real): real
  {
    s + t * (e - s)
  }

  /** A point at fraction t in [0, 1] of the way from s to e lies between them. */
  lemma BetweenEnds(s: real, e: real, t: real)
    requires 0.0 <= t <= 1.0
    ensures Min(s, e) <= Along(s, e, t) <= Max(s, e)
  {
    if s <= e {
      MulNonNegative(t, e - s);
      MulNonNegative(1.0 - t, e - s);
      assert (e - s) - t * (e - s) == (1.0 - t) * (e - s);
    } else {
      MulNonNegative(t, s - e);
      MulNonNegative(1.0 - t, s - e);
      assert t * (e - s) == -(t * (s - e));
      assert (s - e) - t * (s - e) == (1.0 - t) * (s - e);
    }
  }

  lemma OffsetAlong(p: real, s: real, e: real, t: real)
    ensures (p - s) - t * (e - s) == p - Along(s, e, t)
  {
  }

  /** A zero-length segment measures the distance to its start. */
  lemma DistanceDegenerate(m: MathLib, px: real, py: real, sx: real, sy: real, ex: real, ey: real)
    requires (ex - sx) * (ex - sx) + (ey - sy) * (ey - sy) == 0.0
    ensures DistancePointToSegment(m, px, py, sx, sy, ex, ey) == m.hypot(px - sx, py - sy)
  {
  }

  /** The distance is the `hypot` length from p to a point c of the segment; in particular
      c lies in every box that holds both endpoints. */
  lemma NearestPointOfSegment(m: MathLib, px: real, py: real,
                              sx: real, sy: real, ex: real, ey: real, box: Bounds) returns (cx: real, cy: real)
    requires Contains(box, sx, sy) && Contains(box, ex, ey)
    ensures Contains(box, cx, cy)
    ensures DistancePointToSegment(m, px, py, sx, sy, ex, ey) == m.hypot(px - cx, py - cy)
  {
    if (ex - sx) * (ex - sx) + (ey - sy) * (ey - sy) == 0.0 {
      DistanceDegenerate(m, px, py, sx, sy, ex, ey);
      cx, cy := sx, sy;
    } else {
      var t := ProjectionParam(px - sx, py - sy, ex - sx, ey - sy);
      DistanceAtProjection(m, px, py, sx, sy, ex, ey);
      BetweenEnds(sx, ex, t);
      BetweenEnds(sy, ey, t);
      OffsetAlong(px, sx, ex, t);
      OffsetAlong(py, sy, ey, t);
      cx, cy := Along(sx, ex, t), Along(sy, ey, t);
    }
  }
}

=== FILE: numerics.dfy ===
/** The three floating-point library functions the geometry calls (`Math.sqrt`,
    `Math.hypot`, `Math.pow`), passed around as values. Only the facts listed in
    `Sound` are assumed of them; everything else about them is left open. */
module Numerics {

  datatype MathLib = MathLib(
    sqrt: real -> real,
    hypot: (real, real) -> real,
    pow: (real, real) -> real)

  /** Facts that the real square root, hypotenuse and power functions satisfy. */
  ghost predicate Sound(m: MathLib)
  {
    && m.sqrt(0.0) == 0.0
    && (forall x :: 0.0 < x ==> 0.0 < m.sqrt(x))
    && (forall x :: 0.0 <= x ==> 0.0 <= m.sqrt(x))
    && (forall a, b :: m.hypot(a, b) == m.sqrt(a * a + b * b))
    && (forall x :: m.pow(x, 2.0) == x * x)
    && (forall x, g :: 0.0 <= x ==> 0.0 <= m.pow(x, g))
  }

  /** The real square root is monotone. Kept apart from `Sound` because a quantifier over
      pairs of arguments is costly for the solver wherever many roots are in view. */
  ghost predicate SqrtMonotone(m: MathLib)
  {
    forall x, y :: 0.0 <= x <= y ==> m.sqrt(x) <= m.sqrt(y)
  }

  /** Squared length of the vector (a, b). */
  function SqLen(a: real, b: real): real
  {
    a * a + b * b
  }

  /** `hypot` orders vectors as their squared lengths do. */
  ghost predicate HypotOrdered(m: MathLib)
  {
    forall a1, b1, a2, b2 :: SqLen(a1, b1) <= SqLen(a2, b2) ==> m.hypot(a1, b1) <= m.hypot(a2, b2)
  }

  lemma SoundHypotOrdered(m: MathLib)
    requires Sound(m) && SqrtMonotone(m)
    ensures HypotOrdered(m)
  {
    forall a1, b1, a2, b2 | SqLen(a1, b1) <= SqLen(a2, b2)
      ensures m.hypot(a1, b1) <= m.hypot(a2, b2)
    {
      assert 0.0 <= a1 * a1 + b1 * b1;
      assert m.hypot(a1, b1) == m.sqrt(a1 * a1 + b1 * b1);
      assert m.hypot(a2, b2) == m.sqrt(a2 * a2 + b2 * b2);
    }
  }

  lemma PosSq(a: real)
    requires a != 0.0
    ensures 0.0 < a * a
  {
    if a < 0.0 {
      assert (-a) * (-a) == a * a;
    }
  }

  lemma SqNonNegative(a: real)
    ensures 0.0 <= a * a
  {
    if a != 0.0 {
      PosSq(a);
    }
  }

  lemma SqZero(a: real)
    requires a == 0.0
    ensures a * a == 0.0
  {
  }

  /** A vector with a non-zero component has a positive squared length. */
  lemma PosSumSq(a: real, b: real)
    requires a != 0.0 || b != 0.0
    ensures 0.0 < a * a + b * b
  {
    if a != 0.0 {
      PosSq(a);
      SqNonNegative(b);
    } else {
      PosSq(b);
      SqZero(a);
    }
  }

  function Min(a: real, b: real): (r: real)
    ensures r <= a && r <= b && (r == a || r == b)
  {
    if a <= b then a else b
  }

  function Max(a: real, b: real): (r: real)
    ensures a <= r && b <= r && (r == a || r == b)
  {
    if a >= b then a else b
  }

  function Abs(a: real): (r: real)
    ensures 0.0 <= r && (r == a || r == -a)
  {
    if a < 0.0 then -a else a
  }

  lemma HypotNonNegative(m: MathLib, a: real, b: real)
    requires Sound(m)
    ensures 0.0 <= m.hypot(a, b)
  {
    assert 0.0 <= a * a + b * b;
  }

  lemma HypotZero(m: MathLib)
    requires Sound(m)
    ensures m.hypot(0.0, 0.0) == 0.0
  {
    assert m.hypot(0.0, 0.0) == m.sqrt(0.0 * 0.0 + 0.0 * 0.0);
  }

  /** A further fact of the real `hypot`, kept apart from `Sound` so that the proofs that
      do not need it do not see it: each component lies within the length on either side. */
  ghost predicate HypotDominates(m: MathLib)
  {
    forall a, b :: -m.hypot(a, b) <= a <= m.hypot(a, b) && -m.hypot(a, b) <= b <= m.hypot(a, b)
  }
}

=== FILE: pressure.dfy ===
/** Pressure handling for pen input (tools/pressure.ts). */
module Pressure {
  import opened Numerics

  /** Smallest pressure a non-zero reading is raised to. */
  const MinPressure: real := 0.1

  /** A reading of exactly 0 is what a mouse reports and counts as full pressure; every
      other reading is clamped into `[MinPressure, 1]`. */
  function NormalizePressure(p: real): (r: real)
    ensures MinPressure <= r <= 1.0
    ensures p == 0.0 ==> r == 1.0
    ensures MinPressure <= p <= 1.0 ==> r == p
    ensures p != 0.0 && p < MinPressure ==> r == MinPressure
    ensures 1.0 < p ==> r == 1.0
  {
    if p == 0.0 then 1.0 else Min(Max(p, MinPressure), 1.0)
  }

  /** Normalizing a normalized reading changes nothing. */
  lemma NormalizePressureIdempotent(p: real)
    ensures NormalizePressure(NormalizePressure(p)) == NormalizePressure(p)
  {
  }

  /** Gamma shaping of a pressure value: `Math.pow(p, gamma)`. */
  function PressureCurve(m: MathLib, p: real, gamma: real): real
  {
    m.pow(p, gamma)
  }

  /** Shaping never yields a negative value from a non-negative pressure, and a gamma of 2
      squares it. */
  lemma PressureCurveFacts(m: MathLib, p: real, gamma: real)
    requires Sound(m)
    ensures 0.0 <= p ==> 0.0 <= PressureCurve(m, p, gamma)
    ensures gamma == 2.0 ==> PressureCurve(m, p, gamma) == p * p
  {
  }

  /** Exponential smoothing: 70% of the previous pressure, 30% of the current one. */
  function SmoothPressure(prev: real, curr: real): (r: real)
    ensures Min(prev, curr) <= r <= Max(prev, curr)
    ensures r - prev == 0.3 * (curr - prev)
  {
    prev * 0.7 + curr * 0.3
  }

  /** A steady pressure is a fixed point of the smoothing, and smoothing two normalized
      pressures yields a normalized pressure. */
  lemma SmoothPressureSteady(prev: real, curr: real)
    ensures SmoothPressure(curr, curr) == curr
    ensures MinPressure <= prev <= 1.0 && MinPressure <= curr <= 1.0
            ==> MinPressure <= SmoothPressure(prev, curr) <= 1.0
  {
  }
}

=== FILE: rgba.dfy ===
/** Packing colour channels into one 32-bit RGBA word and back
    (the colour helpers of utils/strokeNormalizer.ts). */
module Rgba {

  /** A colour as four channel values. */
  datatype Channels = Channels(r: int, g: int, b: int, a: int)

  /** `v & 0xff` on an integer: the low eight bits of its two's-complement form, which is
      `v` modulo 256 (Dafny's `%` never yields a negative remainder). */
  function LowByte(v: int): bv8
  {
    (v % 256) as bv8
  }

  /** Four bytes in one word, the first in the top byte. */
  function PackBytes(hi: bv8, b2: bv8, b1: bv8, lo: bv8): bv32
  {
    ((hi as bv32) << 24) | ((b2 as bv32) << 16) | ((b1 as bv32) << 8) | (lo as bv32)
  }

  /** Red in the top byte, then green, blue and alpha, as an unsigned word. */
  function RgbToUint32(r: int, g: int, b: int, a: int): (w: bv32)
    ensures ((w >> 24) & 0xff) as int == r % 256 && ((w >> 16) & 0xff) as int == g % 256
            && ((w >> 8) & 0xff) as int == b % 256 && (w & 0xff) as int == a % 256
  {
    BytesOfPack(LowByte(r), LowByte(g), LowByte(b), LowByte(a));
    ByteValue(r);
    ByteValue(g);
    ByteValue(b);
    ByteValue(a);
    PackBytes(LowByte(r), LowByte(g), LowByte(b), LowByte(a))
  }

  /** The alpha `rgbToUint32` uses when none is given. */
  const DefaultAlpha := 255

  /** Packed with the default alpha, a colour is fully opaque. */
  lemma DefaultAlphaIsOpaque(r: int, g: int, b: int)
    ensures Uint32ToRgb(RgbToUint32(r, g, b, DefaultAlpha)) == Channels(r % 256, g % 256, b % 256, 255)
  {
    var a := DefaultAlpha;
    assert a % 256 == 255;
    UnpackPack(r, g, b, a);
  }

  /** The four bytes of a word, red first; each is in `0 .. 255`. */
  function Uint32ToRgb(w: bv32): (c: Channels)
    ensures 0 <= c.r < 256 && 0 <= c.g < 256 && 0 <= c.b < 256 && 0 <= c.a < 256
  {
    Channels(((w >> 24) & 0xff) as int, ((w >> 16) & 0xff) as int,
             ((w >> 8) & 0xff) as int, (w & 0xff) as int)
  }

  lemma BytesOfPack(hi: bv8, b2: bv8, b1: bv8, lo: bv8)
    ensures var w := PackBytes(hi, b2, b1, lo);
            (w >> 24) & 0xff == hi as bv32 && (w >> 16) & 0xff == b2 as bv32
            && (w >> 8) & 0xff == b1 as bv32 && w & 0xff == lo as bv32
  {
  }

  lemma PackOfBytes(w: bv32)
    ensures ((((w >> 24) & 0xff) << 24) | (((w >> 16) & 0xff) << 16)
            | (((w >> 8) & 0xff) << 8) | (w & 0xff)) == w
  {
  }

  lemma SmallIntByte(n: int)
    requires 0 <= n < 256
    ensures (n as bv8) as int == n
  {
    // The split keeps each solver query small.
    if n < 16 {
    } else if n < 32 {
    } else if n < 48 {
    } else if n < 64 {
    } else if n < 80 {
    } else if n < 96 {
    } else if n < 112 {
    } else if n < 128 {
    } else if n < 144 {
    } else if n < 160 {
    } else if n < 176 {
    } else if n < 192 {
    } else if n < 208 {
    } else if n < 224 {
    } else if n < 240 {
    } else {
    }
  }

  lemma WidenValue(b: bv8)
    ensures (b as bv32) as int == b as int
  {
  }

  lemma ByteValue(v: int)
    ensures (LowByte(v) as bv32) as int == v % 256
  {
    SmallIntByte(v % 256);
    WidenValue(LowByte(v));
  }

  lemma ByteRoundTrip(b: bv8)
    ensures LowByte(b as int) == b
  {
    var n := b as int;
    assert 0 <= n < 256;
    assert n % 256 == n;
    if b < 16 {
    } else if b < 64 {
    } else if b < 128 {
    } else {
    }
  }

  lemma ByteOfWord(x: bv32)
    requires x < 256
    ensures LowByte(x as int) as bv32 == x
  {
    var b := x as bv8;
    assert b as bv32 == x;
    WidenValue(b);
    ByteRoundTrip(b);
  }

  /** Unpacking a packed colour gives back each channel reduced to a byte. */
  lemma UnpackPack(r: int, g: int, b: int, a: int)
    ensures Uint32ToRgb(RgbToUint32(r, g, b, a)) == Channels(r % 256, g % 256, b % 256, a % 256)
  {
    BytesOfPack(LowByte(r), LowByte(g), LowByte(b), LowByte(a));
    ByteValue(r);
    ByteValue(g);
    ByteValue(b);
    ByteValue(a);
  }

  /** Packing the channels of a word gives back the word. */
  lemma PackUnpack(w: bv32)
    ensures var c := Uint32ToRgb(w); RgbToUint32(c.r, c.g, c.b, c.a) == w
  {
    ByteOfWord((w >> 24) & 0xff);
    ByteOfWord((w >> 16) & 0xff);
    ByteOfWord((w >> 8) & 0xff);
    ByteOfWord(w & 0xff);
    PackOfBytes(w);
  }

  // The source's expression as JavaScript evaluates it.

  /** JavaScript's bitwise operators yield signed 32-bit integers: the number a word
      denotes there. */
  function Signed(w: bv32): int
  {
    if w as int < 0x8000_0000 then w as int else w as int - 0x1_0000_0000
  }

  /** `>>>` first reads its operand as an unsigned 32-bit integer. */
  function ToUint32(v: int): bv32
  {
    (v % 0x1_0000_0000) as bv32
  }

  /** The number `rgbToUint32` returns as written: the `|` of the shifted channels, which
      is negative whenever red is 128 or more. */
  function RgbToNumberAsWritten(r: int, g: int, b: int, a: int): (n: int)
    ensures -0x8000_0000 <= n < 0x8000_0000
    ensures ToUint32(n) == RgbToUint32(r, g, b, a)
    ensures n < 0 <==> r % 256 >= 128
  {
    SignedToUint32(RgbToUint32(r, g, b, a));
    Signed(RgbToUint32(r, g, b, a))
  }

  /** Opaque red comes out as a negative number rather than the unsigned 0xFF0000FF. */
  lemma AsWrittenOpaqueRedIsNegative()
    ensures RgbToNumberAsWritten(255, 0, 0, 255) == -16776961
    ensures RgbToUint32(255, 0, 0, 255) == 0xFF0000FF
  {
    assert LowByte(255) == 0xff && LowByte(0) == 0;
    assert PackBytes(0xff, 0, 0, 0xff) == 0xFF0000FF;
  }

  /** Reading the signed result back through `>>>` still recovers the channels. */
  lemma AsWrittenStillUnpacks(r: int, g: int, b: int, a: int)
    ensures Uint32ToRgb(ToUint32(RgbToNumberAsWritten(r, g, b, a)))
         == Channels(r % 256, g % 256, b % 256, a % 256)
  {
    var w := RgbToUint32(r, g, b, a);
    SignedToUint32(w);
    UnpackPack(r, g, b, a);
  }

  lemma SignedToUint32(w: bv32)
    ensures ToUint32(Signed(w)) == w
  {
    var n := w as int;
    SignedMod(n);
    WordOfResidue(Signed(w), w);
  }

  /** An integer whose residue is a word's value reads back as that word. */
  lemma WordOfResidue(v: int, w: bv32)
    requires v % 0x1_0000_0000 == w as int
    ensures ToUint32(v) == w
  {
    ToUint32Of(v, w as int);
    IntOfWord(w);
  }

  lemma ToUint32Of(v: int, n: int)
    requires v % 0x1_0000_0000 == n
    ensures ToUint32(v) == n as bv32
  {
    assert 0 <= n < 0x1_0000_0000;
    assert ToUint32(v) == (v % 0x1_0000_0000) as bv32;
  }

  lemma SignedMod(n: int)
    requires 0 <= n < 0x1_0000_0000
    ensures (if n < 0x8000_0000 then n else n - 0x1_0000_0000) % 0x1_0000_0000 == n
  {
  }

  lemma IntOfWord(w: bv32)
    ensures (w as int) as bv32 == w
  {
  }
}

=== FILE: seqs.dfy ===
/** Generic sequence vocabulary: concatenation of runs and order-preserving sub-lists. */
module Seqs {

  /** The concatenation of a list of lists, in order. */
  function Flatten<T>(ss: seq<seq<T>>): (r: seq<T>)
  {
    if |ss| == 0 then [] else ss[0] + Flatten(ss[1..])
  }

  lemma {:induction false} FlattenAppend<T>(a: seq<seq<T>>, b: seq<seq<T>>)
    ensures Flatten(a + b) == Flatten(a) + Flatten(b)
  {
    if |a| == 0 {
      assert a + b == b;
    } else {
      assert (a + b)[1..] == a[1..] + b;
      FlattenAppend(a[1..], b);
    }
  }

  /** `a` is obtained from `b` by deleting elements, keeping the order of the rest. */
  predicate IsSubsequence<T(==)>(a: seq<T>, b: seq<T>)
  {
    if |a| == 0 then true
    else if |b| == 0 then false
    else (a[0] == b[0] && IsSubsequence(a[1..], b[1..])) || IsSubsequence(a, b[1..])
  }

  lemma {:induction false} SubsequenceLength<T>(a: seq<T>, b: seq<T>)
    requires IsSubsequence(a, b)
    ensures |a| <= |b|
  {
    if |a| > 0 {
      if a[0] == b[0] && IsSubsequence(a[1..], b[1..]) {
        SubsequenceLength(a[1..], b[1..]);
      } else {
        SubsequenceLength(a, b[1..]);
      }
    }
  }

  lemma {:induction false} SubsequenceMembers<T>(a: seq<T>, b: seq<T>)
    requires IsSubsequence(a, b)
    ensures forall x :: x in a ==> x in b
  {
    if |a| > 0 {
      if a[0] == b[0] && IsSubsequence(a[1..], b[1..]) {
        SubsequenceMembers(a[1..], b[1..]);
        forall x | x in a ensures x in b {
          if x != a[0] { assert x in a[1..]; assert x in b[1..]; }
        }
      } else {
        SubsequenceMembers(a, b[1..]);
        forall x | x in a ensures x in b { assert x in b[1..]; }
      }
    }
  }

  lemma {:induction false} SubsequenceRefl<T>(a: seq<T>)
    ensures IsSubsequence(a, a)
  {
    if |a| > 0 {
      SubsequenceRefl(a[1..]);
    }
  }

  /** Deleting the head of the longer list keeps the relation. */
  lemma {:induction false} SubsequenceCons<T>(x: T, a: seq<T>, b: seq<T>)
    requires IsSubsequence(a, b)
    ensures IsSubsequence(a, [x] + b)
  {
    assert ([x] + b)[1..] == b;
  }

  lemma {:induction false} SubsequenceConcat<T>(a: seq<T>, b: seq<T>, c: seq<T>, d: seq<T>)
    requires IsSubsequence(a, b) && IsSubsequence(c, d)
    ensures IsSubsequence(a + c, b + d)
    decreases |b|
  {
    if |a| == 0 {
      assert a + c == c;
      SubsequencePrefix(c, d, b);
    } else if a[0] == b[0] && IsSubsequence(a[1..], b[1..]) {
      SubsequenceConcat(a[1..], b[1..], c, d);
      assert (a + c)[1..] == a[1..] + c;
      assert (b + d)[1..] == b[1..] + d;
    } else {
      SubsequenceConcat(a, b[1..], c, d);
      assert (b + d)[1..] == b[1..] + d;
      SubsequenceCons(b[0], a + c, b[1..] + d);
      assert [b[0]] + (b[1..] + d) == b + d;
    }
  }

  /** Extra elements in front of the longer list keep the relation. */
  lemma {:induction false} SubsequencePrefix<T>(c: seq<T>, d: seq<T>, b: seq<T>)
    requires IsSubsequence(c, d)
    ensures IsSubsequence(c, b + d)
    decreases |b|
  {
    if |b| == 0 {
      assert b + d == d;
    } else {
      SubsequencePrefix(c, d, b[1..]);
      SubsequenceCons(b[0], c, b[1..] + d);
      assert [b[0]] + (b[1..] + d) == b + d;
    }
  }

  /** Dropping the last element of both lists keeps the relation. */
  lemma {:induction false} SubsequenceDropLast<T>(a: seq<T>, b: seq<T>)
    requires |a| > 0 && IsSubsequence(a, b)
    ensures |b| > 0 && IsSubsequence(a[..|a| - 1], b[..|b| - 1])
    decreases |b|
  {
    SubsequenceLength(a, b);
    if a[0] == b[0] && IsSubsequence(a[1..], b[1..]) {
      if |a| == 1 {
        assert a[..0] == [];
      } else {
        SubsequenceDropLast(a[1..], b[1..]);
        assert a[1..][..|a| - 2] == a[..|a| - 1][1..];
        assert b[1..][..|b| - 2] == b[..|b| - 1][1..];
      }
    } else {
      SubsequenceDropLast(a, b[1..]);
      assert b[1..][..|b| - 2] == b[..|b| - 1][1..];
      SubsequenceCons(b[0], a[..|a| - 1], b[..|b| - 1][1..]);
      assert [b[0]] + b[..|b| - 1][1..] == b[..|b| - 1];
    }
  }

  /** A member of a non-empty list other than its head is a member of its tail. */
  lemma InTail<T>(s: seq<T>, x: T)
    requires x in s && x != s[0]
    ensures x in s[1..]
  {
    var k :| 0 <= k < |s| && s[k] == x;
    assert s[1..][k - 1] == x;
  }
}

=== FILE: serializer.dfy ===
/** The records a `.trilium-ink` container derives from its pages (utils/serializer.ts):
    the manifest, the page index, the stroke index, the name of each page file and the
    import side's choice and ordering of page files. The ZIP and JSON encodings are not
    modelled; the records and names are. */
module Serializer {
  import opened Wrappers
  import opened StrokeTypes

  // ---------------------------------------------------------------------------------
  // Decimal rendering of integers (template-literal interpolation of a page id)
  // ---------------------------------------------------------------------------------

  function DigitChar(d: nat): char
    requires d < 10
  {
    "0123456789"[d]
  }

  predicate IsDigit(c: char)
  {
    '0' <= c <= '9'
  }

  function DigitValue(c: char): nat
    requires IsDigit(c)
  {
    (c as int) - ('0' as int)
  }

  /** The shortest decimal numeral of `n`, most significant digit first. */
  function Digits(n: nat): (r: string)
    ensures |r| > 0 && (r[0] == '0' ==> n == 0)
    ensures forall i :: 0 <= i < |r| ==> IsDigit(r[i])
  {
    if n < 10 then [DigitChar(n)] else Digits(n / 10) + [DigitChar(n % 10)]
  }

  /** `String(n)` for an integral number: a minus sign before the digits of a negative. */
  function DecimalString(n: int): string
  {
    if n < 0 then "-" + Digits(-n) else Digits(n)
  }

  predicate AllDigits(s: string)
  {
    forall i :: 0 <= i < |s| ==> IsDigit(s[i])
  }

  /** The value of a string of decimal digits; leading zeros are allowed. */
  function DigitsValue(s: string): nat
    requires AllDigits(s)
  {
    if |s| == 0 then 0 else DigitsValue(s[..|s| - 1]) * 10 + DigitValue(s[|s| - 1])
  }

  /** Reads back a numeral written by `DecimalString`. */
  function ParseDecimal(s: string): Option<int>
  {
    if |s| > 0 && s[0] == '-' then
      (if |s| > 1 && AllDigits(s[1..]) then Some(-(DigitsValue(s[1..]) as int)) else None)
    else if |s| > 0 && AllDigits(s) then Some(DigitsValue(s) as int)
    else None
  }

  lemma {:induction false} DigitsValueOfDigits(n: nat)
    ensures DigitsValue(Digits(n)) == n
    decreases n
  {
    if n >= 10 {
      var s := Digits(n);
      assert s[..|s| - 1] == Digits(n / 10);
      DigitsValueOfDigits(n / 10);
    }
  }

  /** Every integer's numeral reads back as that integer. */
  lemma ParseDecimalString(n: int)
    ensures ParseDecimal(DecimalString(n)) == Some(n)
  {
    if n < 0 {
      ParseNegative(n);
    } else {
      ParseNatural(n);
    }
  }

  lemma ParseNatural(n: int)
    requires n >= 0
    ensures ParseDecimal(DecimalString(n)) == Some(n)
  {
    var str := DecimalString(n);
    assert str == Digits(n);
    assert IsDigit(str[0]) && AllDigits(str);
    DigitsValueOfDigits(n);
  }

  lemma ParseNegative(n: int)
    requires n < 0
    ensures ParseDecimal(DecimalString(n)) == Some(n)
  {
    var k: nat := -n;
    var d := Digits(k);
    assert DecimalString(n) == "-" + d;
    DigitsValueOfDigits(k);
    NegatedNumeral(d, k);
  }

  lemma NegatedNumeral(t: string, v: nat)
    requires |t| > 0 && AllDigits(t) && DigitsValue(t) == v
    ensures ParseDecimal("-" + t) == Some(-(v as int))
  {
    ParseSigned(t);
  }

  /** A minus sign before a non-empty run of digits reads as the negated value. */
  lemma ParseSigned(t: string)
    requires |t| > 0 && AllDigits(t)
    ensures ParseDecimal("-" + t) == Some(-(DigitsValue(t) as int))
  {
    assert ("-" + t)[1..] == t;
  }

  // ---------------------------------------------------------------------------------
  // Manifest and stroke counts
  // ---------------------------------------------------------------------------------

  const FormatVersion := 1
  const CreatedBy := "Trilium Notebook Addon v0.1"

  /** The inner `reduce`: strokes over the layers of one page, summed left to right. */
  function LayerStrokeCount(layers: seq<Layer>): nat
  {
    if |layers| == 0 then 0
    else LayerStrokeCount(layers[..|layers| - 1]) + |layers[|layers| - 1].strokes|
  }

  /** The outer `reduce`: strokes over all pages, summed left to right. */
  function TotalStrokes(pages: seq<Page>): nat
  {
    if |pages| == 0 then 0
    else TotalStrokes(pages[..|pages| - 1]) + LayerStrokeCount(pages[|pages| - 1].layers)
  }

  /** `createManifest`; the creation time, `Date.now()` in the source, is a parameter. */
  function CreateManifest(pages: seq<Page>, now: int): (r: Manifest)
    ensures r.version == 1 && r.pageCount == |pages| && r.createdTimestamp == now
    ensures r.createdBy == "Trilium Notebook Addon v0.1"
    ensures r.totalStrokes == |StrokeIndexOf(pages)|
  {
    StrokeIndexCountsStrokes(pages);
    Manifest(FormatVersion, CreatedBy, now, |pages|, TotalStrokes(pages))
  }

  // ---------------------------------------------------------------------------------
  // Page index
  // ---------------------------------------------------------------------------------

  const TitlePrefix := "Page "

  function PageTitle(pageId: int): string
  {
    TitlePrefix + DecimalString(pageId)
  }

  /** The page id a title names, if it is of the form "Page <numeral>". */
  function TitleId(title: string): Option<int>
  {
    if |title| >= |TitlePrefix| && title[..|TitlePrefix|] == TitlePrefix
    then ParseDecimal(title[|TitlePrefix|..])
    else None
  }

  lemma TitleNamesPage(pageId: int)
    ensures TitleId(PageTitle(pageId)) == Some(pageId)
  {
    assert PageTitle(pageId)[|TitlePrefix|..] == DecimalString(pageId);
    ParseDecimalString(pageId);
  }

  /** `createPageIndex`: one entry per page, in page order, titled "Page " and the page id's
      numeral, a title that names the page. */
  function CreatePageIndex(pages: seq<Page>): (r: seq<PageIndexEntry>)
    ensures |r| == |pages|
    ensures forall i :: 0 <= i < |pages| ==>
              r[i].pageId == pages[i].pageId
              && r[i].title == TitlePrefix + DecimalString(pages[i].pageId)
              && TitleId(r[i].title) == Some(pages[i].pageId)
              && r[i].createdTimestamp == pages[i].createdTimestamp
              && r[i].modifiedTimestamp == pages[i].modifiedTimestamp
  {
    forall i | 0 <= i < |pages| {
      TitleNamesPage(pages[i].pageId);
    }
    seq(|pages|, i requires 0 <= i < |pages| =>
      PageIndexEntry(pages[i].pageId, PageTitle(pages[i].pageId),
                     pages[i].createdTimestamp, pages[i].modifiedTimestamp))
  }

  // ---------------------------------------------------------------------------------
  // Stroke index
  // ---------------------------------------------------------------------------------

  function EntryFor(pageId: int, s: Stroke): StrokeIndexEntry
  {
    StrokeIndexEntry(s.strokeId, pageId, s.bounds)
  }

  /** The entries of one layer, in stroke order. */
  function LayerEntries(pageId: int, l: Layer): seq<StrokeIndexEntry>
  {
    seq(|l.strokes|, k requires 0 <= k < |l.strokes| => EntryFor(pageId, l.strokes[k]))
  }

  /** The entries of a page's layers, layer by layer. */
  function LayersEntries(pageId: int, layers: seq<Layer>): seq<StrokeIndexEntry>
  {
    if |layers| == 0 then []
    else LayersEntries(pageId, layers[..|layers| - 1]) + LayerEntries(pageId, layers[|layers| - 1])
  }

  /** The stroke index of a list of pages, page by page. */
  function StrokeIndexOf(pages: seq<Page>): seq<StrokeIndexEntry>
  {
    if |pages| == 0 then []
    else StrokeIndexOf(pages[..|pages| - 1])
         + LayersEntries(pages[|pages| - 1].pageId, pages[|pages| - 1].layers)
  }

  lemma {:induction false} LayersEntriesCount(pageId: int, layers: seq<Layer>)
    ensures |LayersEntries(pageId, layers)| == LayerStrokeCount(layers)
  {
    if |layers| > 0 {
      LayersEntriesCount(pageId, layers[..|layers| - 1]);
    }
  }

  /** The stroke index has exactly as many entries as the manifest counts strokes. */
  lemma {:induction false} StrokeIndexCountsStrokes(pages: seq<Page>)
    ensures |StrokeIndexOf(pages)| == TotalStrokes(pages)
  {
    if |pages| > 0 {
      StrokeIndexCountsStrokes(pages[..|pages| - 1]);
      LayersEntriesCount(pages[|pages| - 1].pageId, pages[|pages| - 1].layers);
    }
  }

  /** The index of a concatenation is the concatenation of the indexes: entries follow the
      page order. */
  lemma {:induction false} StrokeIndexAppend(pages: seq<Page>, more: seq<Page>)
    ensures StrokeIndexOf(pages + more) == StrokeIndexOf(pages) + StrokeIndexOf(more)
    decreases |more|
  {
    if |more| == 0 {
      assert pages + more == pages;
    } else {
      var n := |more| - 1;
      var all := pages + more;
      var tail := LayersEntries(more[n].pageId, more[n].layers);
      assert all[..|all| - 1] == pages + more[..n];
      assert all[|all| - 1] == more[n];
      assert StrokeIndexOf(all) == StrokeIndexOf(pages + more[..n]) + tail;
      assert StrokeIndexOf(more) == StrokeIndexOf(more[..n]) + tail;
      StrokeIndexAppend(pages, more[..n]);
    }
  }

  /** An entry belongs to a page's layers exactly when it records one of their strokes. */
  lemma {:induction false} InLayersEntries(pageId: int, layers: seq<Layer>, e: StrokeIndexEntry)
    ensures e in LayersEntries(pageId, layers) <==>
            exists j, k :: 0 <= j < |layers| && 0 <= k < |layers[j].strokes|
                           && e == EntryFor(pageId, layers[j].strokes[k])
  {
    if |layers| > 0 {
      var n := |layers| - 1;
      InLayersEntries(pageId, layers[..n], e);
      if e in LayerEntries(pageId, layers[n]) {
        var k :| 0 <= k < |layers[n].strokes| && LayerEntries(pageId, layers[n])[k] == e;
        assert e == EntryFor(pageId, layers[n].strokes[k]);
      }
      if exists j, k :: 0 <= j < |layers| && 0 <= k < |layers[j].strokes|
                        && e == EntryFor(pageId, layers[j].strokes[k]) {
        var j, k :| 0 <= j < |layers| && 0 <= k < |layers[j].strokes|
                    && e == EntryFor(pageId, layers[j].strokes[k]);
        if j == n {
          assert LayerEntries(pageId, layers[n])[k] == e;
        } else {
          assert layers[..n][j] == layers[j];
        }
      }
    }
  }

  /** An entry is in the stroke index exactly when it records a stroke of some layer of
      some page, under that page's id. */
  lemma {:induction false} InStrokeIndex(pages: seq<Page>, e: StrokeIndexEntry)
    ensures e in StrokeIndexOf(pages) <==>
            exists i :: 0 <= i < |pages| && e in LayersEntries(pages[i].pageId, pages[i].layers)
  {
    if |pages| > 0 {
      var n := |pages| - 1;
      var front := pages[..n];
      var last := LayersEntries(pages[n].pageId, pages[n].layers);
      assert StrokeIndexOf(pages) == StrokeIndexOf(front) + last;
      InStrokeIndex(front, e);
      if e in StrokeIndexOf(front) {
        var i :| 0 <= i < |front| && e in LayersEntries(front[i].pageId, front[i].layers);
        assert front[i] == pages[i];
      }
      if exists i :: 0 <= i < |pages| && e in LayersEntries(pages[i].pageId, pages[i].layers) {
        var i :| 0 <= i < |pages| && e in LayersEntries(pages[i].pageId, pages[i].layers);
        if i < n {
          assert front[i] == pages[i];
        }
      }
    }
  }

  /** `createStrokeIndex`: the three nested loops over pages, layers and strokes. */
  method CreateStrokeIndex(pages: seq<Page>) returns (entries: seq<StrokeIndexEntry>)
    ensures entries == StrokeIndexOf(pages)
    ensures |entries| == TotalStrokes(pages)
  {
    entries := [];
    var i := 0;
    while i < |pages|
      invariant 0 <= i <= |pages|
      invariant entries == StrokeIndexOf(pages[..i])
    {
      var page := pages[i];
      var j := 0;
      while j < |page.layers|
        invariant 0 <= j <= |page.layers|
        invariant entries == StrokeIndexOf(pages[..i]) + LayersEntries(page.pageId, page.layers[..j])
      {
        var layer := page.layers[j];
        var k := 0;
        while k < |layer.strokes|
          invariant 0 <= k <= |layer.strokes|
          invariant entries == StrokeIndexOf(pages[..i]) + LayersEntries(page.pageId, page.layers[..j])
                               + LayerEntries(page.pageId, layer)[..k]
        {
          entries := entries + [EntryFor(page.pageId, layer.strokes[k])];
          k := k + 1;
        }
        assert LayerEntries(page.pageId, layer)[..k] == LayerEntries(page.pageId, layer);
        assert page.layers[..j + 1][..j] == page.layers[..j];
        j := j + 1;
      }
      assert page.layers[..j] == page.layers;
      assert pages[..i + 1][..i] == pages[..i];
      i := i + 1;
    }
    assert pages[..i] == pages;
    StrokeIndexCountsStrokes(pages);
  }

  // ---------------------------------------------------------------------------------
  // Page file names
  // ---------------------------------------------------------------------------------

  function Zeros(n: nat): (r: string)
    ensures |r| == n && forall i :: 0 <= i < n ==> r[i] == '0'
  {
    if n == 0 then [] else Zeros(n - 1) + "0"
  }

  /** `padStart(width, '0')`: zeros before `s` up to `width` characters, `s` itself when it
      is already that long. */
  function PadStart(s: string, width: nat): (r: string)
    ensures |s| >= width ==> r == s
    ensures |s| < width ==> |r| == width && r[width - |s|..] == s
                            && forall i :: 0 <= i < width - |s| ==> r[i] == '0'
  {
    if |s| >= width then s else Zeros(width - |s|) + s
  }

  const PageFilePrefix := "page-"
  const PageFileSuffix := ".pb"
  const PageIdWidth := 4

  /** The file name of a page inside the `pages` folder. */
  function PageFileName(pageId: int): string
  {
    PageFilePrefix + PadStart(DecimalString(pageId), PageIdWidth) + PageFileSuffix
  }

  /** The page id a file name carries, when the part between "page-" and ".pb" is a run of
      decimal digits (leading zeros allowed). */
  function ParsePageFileName(name: string): Option<int>
  {
    if |name| >= |PageFilePrefix| + |PageFileSuffix| + 1
       && name[..|PageFilePrefix|] == PageFilePrefix
       && name[|name| - |PageFileSuffix|..] == PageFileSuffix
       && AllDigits(name[|PageFilePrefix|..|name| - |PageFileSuffix|])
    then Some(DigitsValue(name[|PageFilePrefix|..|name| - |PageFileSuffix|]) as int)
    else None
  }

  lemma {:induction false} LeadingZerosIgnored(z: nat, s: string)
    requires AllDigits(s)
    ensures AllDigits(Zeros(z) + s) && DigitsValue(Zeros(z) + s) == DigitsValue(s)
    decreases |s|
  {
    if |s| == 0 {
      assert Zeros(z) + s == Zeros(z);
      ZerosValue(z);
    } else {
      var n := |s| - 1;
      assert (Zeros(z) + s)[..|Zeros(z) + s| - 1] == Zeros(z) + s[..n];
      LeadingZerosIgnored(z, s[..n]);
    }
  }

  lemma {:induction false} ZerosValue(z: nat)
    ensures AllDigits(Zeros(z)) && DigitsValue(Zeros(z)) == 0
  {
    if z > 0 {
      assert Zeros(z)[..z - 1] == Zeros(z - 1);
      ZerosValue(z - 1);
    }
  }

  /** The parts of a page file name: the prefix, the padded numeral and the suffix. */
  lemma PageFileNameParts(pageId: int)
    ensures |PageFileName(pageId)| >= |PageFilePrefix| + |PageFileSuffix| + 1
    ensures PageFileName(pageId)[..|PageFilePrefix|] == PageFilePrefix
    ensures PageFileName(pageId)[|PageFileName(pageId)| - |PageFileSuffix|..] == PageFileSuffix
    ensures PageFileName(pageId)[|PageFilePrefix|..|PageFileName(pageId)| - |PageFileSuffix|]
            == PadStart(DecimalString(pageId), PageIdWidth)
  {
    DecimalStringLeads(pageId);
  }

  /** A padded numeral is all digits and has the numeral's value. */
  lemma PaddedValue(n: nat)
    ensures AllDigits(PadStart(Digits(n), PageIdWidth))
    ensures DigitsValue(PadStart(Digits(n), PageIdWidth)) == n
  {
    var d := Digits(n);
    DigitsValueOfDigits(n);
    if |d| < PageIdWidth {
      assert PadStart(d, PageIdWidth) == Zeros(PageIdWidth - |d|) + d;
      LeadingZerosIgnored(PageIdWidth - |d|, d);
    }
  }

  /** A page with a non-negative id can be found again from its file name. */
  lemma PageFileNameParses(pageId: int)
    requires pageId >= 0
    ensures ParsePageFileName(PageFileName(pageId)) == Some(pageId)
  {
    PageFileNameParts(pageId);
    assert DecimalString(pageId) == Digits(pageId);
    PaddedValue(pageId);
  }

  /** Padding keeps numerals apart: two numerals that do not start with a zero (other than
      "0" itself) pad to the same string only if they are equal. */
  lemma PadStartInjective(s: string, t: string)
    requires |s| > 0 && (s[0] == '0' ==> s == "0")
    requires |t| > 0 && (t[0] == '0' ==> t == "0")
    requires PadStart(s, PageIdWidth) == PadStart(t, PageIdWidth)
    ensures s == t
  {
    var p := PadStart(s, PageIdWidth);
    if |s| == |t| && |s| < PageIdWidth {
      assert s == p[PageIdWidth - |s|..] == t;
    }
  }

  lemma DecimalStringLeads(n: int)
    ensures |DecimalString(n)| > 0
    ensures DecimalString(n)[0] == '0' ==> DecimalString(n) == "0"
  {
    if n == 0 {
      assert DecimalString(n) == "0";
    }
  }

  /** Distinct pages are written to distinct files, whatever their ids. */
  lemma PageFileNameInjective(a: int, b: int)
    requires PageFileName(a) == PageFileName(b)
    ensures a == b
  {
    PageFileNameParts(a);
    PageFileNameParts(b);
    DecimalStringLeads(a);
    DecimalStringLeads(b);
    PadStartInjective(DecimalString(a), DecimalString(b));
    ParseDecimalString(a);
    ParseDecimalString(b);
  }

  // ---------------------------------------------------------------------------------
  // Import: which entries are pages, and in what order they come back
  // ---------------------------------------------------------------------------------

  const PagesFolder := "pages/"
  const PageEntryPrefix := "pages/page-"

  predicate StartsWith(s: string, prefix: string)
  {
    |prefix| <= |s| && s[..|prefix|] == prefix
  }

  /** The full name under which a page is stored in the container. */
  function PageEntryName(pageId: int): string
  {
    PagesFolder + PageFileName(pageId)
  }

  /** The import filter accepts every page file the export writes. */
  lemma PageEntriesPassFilter(pageId: int)
    ensures StartsWith(PageEntryName(pageId), PageEntryPrefix)
  {
    assert PageEntryName(pageId)[..|PageEntryPrefix|] == PageEntryPrefix;
  }

  /** The other entries the export writes: the manifest, the folders and the two indexes. */
  const OtherEntryNames: seq<string> :=
    ["manifest.pb", "pages/", "indexes/", "indexes/page-index.pb",
     "indexes/stroke-index.pb", "thumbs/"]

  /** The import filter rejects every entry of the container that is not a page file. */
  lemma OtherEntriesFailFilter()
    ensures forall n :: n in OtherEntryNames ==> !StartsWith(n, PageEntryPrefix)
  {
    forall n | n in OtherEntryNames ensures !StartsWith(n, PageEntryPrefix) {
      if |PageEntryPrefix| <= |n| {
        assert n[..|PageEntryPrefix|][0] == n[0] != PageEntryPrefix[0];
      }
    }
  }

  /** The filter over the container's entry names, keeping their order. */
  function PageEntries(entries: seq<(string, Page)>): (r: seq<(string, Page)>)
    ensures forall e :: e in r <==> e in entries && StartsWith(e.0, PageEntryPrefix)
    ensures |r| <= |entries|
  {
    if |entries| == 0 then []
    else if StartsWith(entries[0].0, PageEntryPrefix) then [entries[0]] + PageEntries(entries[1..])
    else PageEntries(entries[1..])
  }

  predicate SortedById(pages: seq<Page>)
  {
    forall i, j :: 0 <= i < j < |pages| ==> pages[i].pageId <= pages[j].pageId
  }

  /** The pages of a list that carry a given id, in list order. */
  function WithId(pages: seq<Page>, id: int): seq<Page>
  {
    if |pages| == 0 then []
    else if pages[0].pageId == id then [pages[0]] + WithId(pages[1..], id)
    else WithId(pages[1..], id)
  }

  /** Puts `p` before the first page whose id is not smaller. */
  function Insert(p: Page, pages: seq<Page>): (r: seq<Page>)
    ensures multiset(r) == multiset{p} + multiset(pages)
  {
    if |pages| == 0 then [p]
    else if p.pageId <= pages[0].pageId then [p] + pages
    else
      assert pages == [pages[0]] + pages[1..];
      [pages[0]] + Insert(p, pages[1..])
  }

  /** `pages.sort((a, b) => a.pageId - b.pageId)`: a stable sort by page id, written as an
      insertion sort. */
  function SortById(pages: seq<Page>): (r: seq<Page>)
    ensures multiset(r) == multiset(pages)
  {
    if |pages| == 0 then []
    else
      assert pages == [pages[0]] + pages[1..];
      Insert(pages[0], SortById(pages[1..]))
  }

  /** Insertion adds `p` and nothing else. */
  lemma {:induction false} InsertMembers(p: Page, pages: seq<Page>, q: Page)
    requires q in Insert(p, pages)
    ensures q == p || q in pages
  {
    if |pages| > 0 && p.pageId > pages[0].pageId && q != pages[0] {
      assert q in Insert(p, pages[1..]);
      InsertMembers(p, pages[1..], q);
    }
  }

  lemma {:induction false} InsertSorted(p: Page, pages: seq<Page>)
    requires SortedById(pages)
    ensures SortedById(Insert(p, pages))
  {
    if |pages| > 0 && p.pageId > pages[0].pageId {
      var rest := Insert(p, pages[1..]);
      InsertSorted(p, pages[1..]);
      forall j | 0 <= j < |rest| ensures pages[0].pageId <= rest[j].pageId {
        InsertMembers(p, pages[1..], rest[j]);
      }
      assert Insert(p, pages) == [pages[0]] + rest;
    }
  }

  lemma WithIdCons(x: Page, pages: seq<Page>, id: int)
    ensures WithId([x] + pages, id) == (if x.pageId == id then [x] else []) + WithId(pages, id)
  {
    assert ([x] + pages)[0] == x && ([x] + pages)[1..] == pages;
  }

  lemma {:induction false} InsertWithId(p: Page, pages: seq<Page>, id: int)
    ensures WithId(Insert(p, pages), id)
            == (if p.pageId == id then [p] else []) + WithId(pages, id)
  {
    if |pages| == 0 {
      WithIdCons(p, [], id);
      assert [p] + [] == [p];
    } else if p.pageId <= pages[0].pageId {
      WithIdCons(p, pages, id);
    } else {
      var rest := Insert(p, pages[1..]);
      InsertWithId(p, pages[1..], id);
      WithIdCons(pages[0], rest, id);
      WithIdCons(pages[0], pages[1..], id);
      assert [pages[0]] + pages[1..] == pages;
    }
  }

  /** The sort orders pages by id. */
  lemma {:induction false} SortByIdSorted(pages: seq<Page>)
    ensures SortedById(SortById(pages))
  {
    if |pages| > 0 {
      SortByIdSorted(pages[1..]);
      InsertSorted(pages[0], SortById(pages[1..]));
    }
  }

  /** The sort is stable: pages sharing an id keep their relative order. */
  lemma {:induction false} SortByIdStable(pages: seq<Page>, id: int)
    ensures WithId(SortById(pages), id) == WithId(pages, id)
  {
    if |pages| > 0 {
      SortByIdStable(pages[1..], id);
      InsertWithId(pages[0], SortById(pages[1..]), id);
    }
  }

  function Pages(entries: seq<(string, Page)>): (r: seq<Page>)
    ensures |r| == |entries| && forall i :: 0 <= i < |entries| ==> r[i] == entries[i].1
  {
    seq(|entries|, i requires 0 <= i < |entries| => entries[i].1)
  }

  /** `importFromFile` once every entry is decoded: the pages of the page-file entries,
      sorted by id; the decoder itself is not modelled, so each entry carries its page. */
  function ImportPages(entries: seq<(string, Page)>): (r: seq<Page>)
    ensures SortedById(r)
    ensures multiset(r) == multiset(Pages(PageEntries(entries)))
    ensures forall id :: WithId(r, id) == WithId(Pages(PageEntries(entries)), id)
  {
    var pages := Pages(PageEntries(entries));
    SortByIdSorted(pages);
    forall id ensures WithId(SortById(pages), id) == WithId(pages, id) {
      SortByIdStable(pages, id);
    }
    SortById(pages)
  }
}

=== FILE: stroke_normalizer.dfy ===
/** Turning a run of raw pointer samples into a stroke: time deltas, optional
    Douglas-Peucker simplification, bounding box and stroke id
    (utils/strokeNormalizer.ts). */
module StrokeNormalizer {
  import opened Wrappers
  import opened StrokeTypes
  import opened Numerics
  import opened Seqs
  import opened Coordinates
  import Intersection

  /** Why a run of samples could not be turned into a stroke. `SimplificationDiverges`
      stands for the case where the simplifier would recurse on its own input forever. */
  datatype NormalizeError = EmptyStroke | SimplificationDiverges

  // ---------------------------------------------------------------------------
  // Time deltas

  /** Milliseconds since the previous sample; 0 for the first one. */
  function TimeDelta(events: seq<RawPointerEvent>, i: int): real
    requires 0 <= i < |events|
  {
    if i == 0 then 0.0 else events[i].timestamp - events[i - 1].timestamp
  }

  /** The samples as stroke points: same position, pressure and tilt, with the
      timestamp replaced by the delta to the previous sample. */
  function TimedPoints(events: seq<RawPointerEvent>): (r: seq<Point>)
    ensures |r| == |events|
    ensures forall i :: 0 <= i < |events| ==>
              r[i].x == events[i].x && r[i].y == events[i].y
              && r[i].pressure == events[i].pressure
              && r[i].tiltX == events[i].tiltX && r[i].tiltY == events[i].tiltY
    ensures |events| > 0 ==> r[0].dt == 0.0
    ensures forall i :: 0 < i < |events| ==> r[i].dt == events[i].timestamp - events[i - 1].timestamp
  {
    seq(|events|, i requires 0 <= i < |events| =>
      Point(events[i].x, events[i].y, events[i].pressure, TimeDelta(events, i),
            events[i].tiltX, events[i].tiltY))
  }

  /** Total of the time deltas of a list of points. */
  function SumDt(ps: seq<Point>): real
  {
    if |ps| == 0 then 0.0 else SumDt(ps[..|ps| - 1]) + ps[|ps| - 1].dt
  }

  /** The deltas add up to the elapsed time: summing them up to sample i recovers
      sample i's timestamp relative to the first one. */
  lemma {:induction false} ElapsedTime(events: seq<RawPointerEvent>, i: int)
    requires 0 <= i < |events|
    ensures SumDt(TimedPoints(events)[..i + 1]) == events[i].timestamp - events[0].timestamp
  {
    var ps := TimedPoints(events);
    if i == 0 {
      assert ps[..1][..0] == [];
    } else {
      ElapsedTime(events, i - 1);
      assert ps[..i + 1][..i] == ps[..i];
    }
  }

  // ---------------------------------------------------------------------------
  // Bounding box

  /** The box grown over every point of `ps`, in order. */
  function BoundsFold(b: Bounds, ps: seq<Point>): Bounds
    decreases |ps|
  {
    if |ps| == 0 then b else BoundsFold(ExpandBounds(b, ps[0]), ps[1..])
  }

  /** Every side of the folded box is the starting box's side or a coordinate of one of
      the points, and the folded box holds the starting box and every point. */
  lemma {:induction false} BoundsFoldFacts(b: Bounds, ps: seq<Point>)
    ensures var r := BoundsFold(b, ps);
            Within(b, r) && (forall p :: p in ps ==> Contains(r, p.x, p.y))
    ensures var r := BoundsFold(b, ps);
            (r.minX == b.minX || exists p :: p in ps && r.minX == p.x)
            && (r.minY == b.minY || exists p :: p in ps && r.minY == p.y)
            && (r.maxX == b.maxX || exists p :: p in ps && r.maxX == p.x)
            && (r.maxY == b.maxY || exists p :: p in ps && r.maxY == p.y)
    decreases |ps|
  {
    if |ps| > 0 {
      var b1 := ExpandBounds(b, ps[0]);
      BoundsFoldFacts(b1, ps[1..]);
      var r := BoundsFold(b1, ps[1..]);
      forall p | p in ps ensures Contains(r, p.x, p.y) {
        if p != ps[0] {
          assert p in ps[1..];
        }
      }
      forall p | p in ps[1..] ensures p in ps { }
    }
  }

  /** The folded box lies inside every box that holds the starting box and the points. */
  lemma {:induction false} BoundsFoldSmallest(b: Bounds, ps: seq<Point>, o: Bounds)
    requires Within(b, o)
    requires forall p :: p in ps ==> Contains(o, p.x, p.y)
    ensures Within(BoundsFold(b, ps), o)
    decreases |ps|
  {
    if |ps| > 0 {
      ExpandBoundsIsSmallest(b, ps[0], o);
      BoundsFoldSmallest(ExpandBounds(b, ps[0]), ps[1..], o);
    }
  }

  /** The box of the points; the zero box for no points. */
  function CalculateBounds(points: seq<Point>): (r: Bounds)
    ensures |points| == 0 ==> r == Bounds(0.0, 0.0, 0.0, 0.0)
  {
    if |points| == 0 then Bounds(0.0, 0.0, 0.0, 0.0)
    else BoundsFold(CreateBoundsFromPoint(points[0]), points)
  }

  /** For a non-empty list the box holds every point, each side is attained by a point,
      and it lies inside every box holding all the points. */
  lemma CalculateBoundsIsTight(points: seq<Point>, o: Bounds)
    requires |points| > 0
    ensures var r := CalculateBounds(points);
            WellFormed(r) && forall p :: p in points ==> Contains(r, p.x, p.y)
    ensures var r := CalculateBounds(points);
            (exists p :: p in points && r.minX == p.x) && (exists p :: p in points && r.minY == p.y)
            && (exists p :: p in points && r.maxX == p.x) && (exists p :: p in points && r.maxY == p.y)
    ensures (forall p :: p in points ==> Contains(o, p.x, p.y)) ==> Within(CalculateBounds(points), o)
  {
    var b0 := CreateBoundsFromPoint(points[0]);
    BoundsFoldFacts(b0, points);
    assert points[0] in points;
    if forall p :: p in points ==> Contains(o, p.x, p.y) {
      CreateBoundsFromPointIsSmallest(points[0], o);
      BoundsFoldSmallest(b0, points, o);
    }
  }

  // ---------------------------------------------------------------------------
  // Stroke ids

  /** Ids are the clock in ms times one million plus a per-session counter. */
  function StrokeIdFor(now: int, counter: int): int
  {
    now * 1000000 + counter
  }

  /** With a clock that never goes back and a counter that increases on every call,
      later strokes get strictly larger ids; within the counter's six digits, distinct
      (clock, counter) pairs never share an id. */
  lemma StrokeIdsIncrease(now1: int, c1: int, now2: int, c2: int)
    ensures now1 <= now2 && c1 < c2 ==> StrokeIdFor(now1, c1) < StrokeIdFor(now2, c2)
    ensures 0 <= c1 < 1000000 && 0 <= c2 < 1000000 && (now1 != now2 || c1 != c2)
            ==> StrokeIdFor(now1, c1) != StrokeIdFor(now2, c2)
  {
  }

  // ---------------------------------------------------------------------------
  // Perpendicular distance

  /** Signed area term of `p` against the line through `a` and `b`: zero exactly when the
      three are collinear. */
  function Cross(p: Point, a: Point, b: Point): real
  {
    (b.y - a.y) * p.x - (b.x - a.x) * p.y + b.x * a.y - b.y * a.x
  }

  /** Length of the vector `(dx, dy)` as the library square root computes it. */
  function LineLength(m: MathLib, dx: real, dy: real): real
  {
    m.sqrt(dx * dx + dy * dy)
  }

  /** Distance from `p` to the infinite line through `a` and `b`, or to `a` itself when
      the two coincide. The source divides unconditionally; the model's guard on a zero
      denominator only keeps the function total and is never taken when `m.sqrt` is the
      real square root, which the second ensures states. */
  function PerpendicularDistance(m: MathLib, p: Point, a: Point, b: Point): (r: real)
    ensures Sound(m) && (b.x - a.x == 0.0 && b.y - a.y == 0.0)
            ==> r == m.sqrt((p.x - a.x) * (p.x - a.x) + (p.y - a.y) * (p.y - a.y))
    ensures Sound(m) && !(b.x - a.x == 0.0 && b.y - a.y == 0.0)
            ==> LineLength(m, b.x - a.x, b.y - a.y) != 0.0
                && r * LineLength(m, b.x - a.x, b.y - a.y) == Abs(Cross(p, a, b))
  {
    LineLengthNonZero(m, b.x - a.x, b.y - a.y);
    var dx := b.x - a.x;
    var dy := b.y - a.y;
    if dx == 0.0 && dy == 0.0 then
      m.sqrt(m.pow(p.x - a.x, 2.0) + m.pow(p.y - a.y, 2.0))
    else
      var numerator := Abs(Cross(p, a, b));
      var denominator := LineLength(m, dx, dy);
      if denominator == 0.0 then 0.0 else numerator / denominator
  }

  /** The line's own endpoints lie on it. */
  lemma CrossVanishesAtEnds(a: Point, b: Point)
    ensures Cross(a, a, b) == 0.0 && Cross(b, a, b) == 0.0
  {
  }

  lemma LineLengthNonZero(m: MathLib, dx: real, dy: real)
    ensures Sound(m) && !(dx == 0.0 && dy == 0.0) ==> LineLength(m, dx, dy) != 0.0
  {
    if Sound(m) && !(dx == 0.0 && dy == 0.0) {
      LineLengthFacts(m, dx, dy);
    }
  }

  lemma LineLengthFacts(m: MathLib, dx: real, dy: real)
    requires Sound(m)
    ensures 0.0 <= LineLength(m, dx, dy)
    ensures dx != 0.0 || dy != 0.0 ==> 0.0 < LineLength(m, dx, dy)
  {
    if dx != 0.0 || dy != 0.0 {
      PosSumSq(dx, dy);
    } else {
      SqZero(dx);
      SqZero(dy);
    }
  }

  lemma QuotientNonNegative(n: real, d: real)
    requires 0.0 <= n && 0.0 < d
    ensures 0.0 <= n / d
  {
  }

  lemma SqrtOfSquaresNonNegative(m: MathLib, u: real, v: real)
    requires Sound(m)
    ensures 0.0 <= m.sqrt(m.pow(u, 2.0) + m.pow(v, 2.0))
  {
    SqNonNegative(u);
    SqNonNegative(v);
  }

  lemma SqrtOfZeroSquares(m: MathLib)
    requires Sound(m)
    ensures m.sqrt(m.pow(0.0, 2.0) + m.pow(0.0, 2.0)) == 0.0
  {
    assert m.pow(0.0, 2.0) == 0.0 * 0.0;
  }

  /** The distance is never negative, the denominator is positive away from the
      degenerate case, and both endpoints are at distance 0. */
  lemma PerpendicularDistanceFacts(m: MathLib, p: Point, a: Point, b: Point)
    requires Sound(m)
    ensures 0.0 <= PerpendicularDistance(m, p, a, b)
    ensures !(b.x - a.x == 0.0 && b.y - a.y == 0.0) ==> 0.0 < LineLength(m, b.x - a.x, b.y - a.y)
    ensures PerpendicularDistance(m, a, a, b) == 0.0 && PerpendicularDistance(m, b, a, b) == 0.0
  {
    if b.x - a.x == 0.0 && b.y - a.y == 0.0 {
      SqrtOfSquaresNonNegative(m, p.x - a.x, p.y - a.y);
      SqrtOfZeroSquares(m);
    } else {
      LineLengthFacts(m, b.x - a.x, b.y - a.y);
      CrossVanishesAtEnds(a, b);
      QuotientNonNegative(Abs(Cross(p, a, b)), LineLength(m, b.x - a.x, b.y - a.y));
    }
  }

  /** A chord whose ends coincide measures the Euclidean distance to that point, the
      value the segment distance of the eraser gives for a zero-length segment. */
  lemma PerpendicularDistanceDegenerate(m: MathLib, p: Point, a: Point)
    requires Sound(m)
    ensures PerpendicularDistance(m, p, a, a) == m.hypot(p.x - a.x, p.y - a.y)
    ensures PerpendicularDistance(m, p, a, a)
         == Intersection.DistancePointToSegment(m, p.x, p.y, a.x, a.y, a.x, a.y)
  {
  }

  /** Away from the degenerate case a point is at distance 0 exactly when it lies on the
      line through the chord. */
  lemma PerpendicularDistanceZeroOnLine(m: MathLib, p: Point, a: Point, b: Point)
    requires Sound(m) && !(b.x - a.x == 0.0 && b.y - a.y == 0.0)
    ensures PerpendicularDistance(m, p, a, b) == 0.0 <==> Cross(p, a, b) == 0.0
  {
    LineLengthFacts(m, b.x - a.x, b.y - a.y);
  }

  // ---------------------------------------------------------------------------
  // Douglas-Peucker

  /** Distance of a point from the chord through two others. */
  type Measure = (Point, Point, Point) -> real

  /** Distance of `pts[j]` from the chord between the first and the last point. */
  function ChordDistance(dist: Measure, pts: seq<Point>, j: int): real
    requires 0 <= j < |pts|
  {
    dist(pts[j], pts[0], pts[|pts| - 1])
  }

  /** The state of the source's scan after looking at the interior points `1 .. i - 1`:
      `(k, d)` is `(0, 0)` while no point was strictly farther than 0, and afterwards the
      first point that reached the largest distance seen, with that distance. */
  predicate MaxSoFar(dist: Measure, pts: seq<Point>, i: int, k: int, d: real)
    requires 1 <= i <= |pts|
  {
    if k == 0 then
      d == 0.0 && forall j :: 1 <= j < i ==> ChordDistance(dist, pts, j) <= 0.0
    else
      1 <= k < i && d == ChordDistance(dist, pts, k) && 0.0 < d
      && (forall j :: 1 <= j < i ==> ChordDistance(dist, pts, j) <= d)
      && (forall j :: 1 <= j < k ==> ChordDistance(dist, pts, j) < d)
  }

  /** The scan state is determined by the points scanned. */
  lemma MaxSoFarUnique(dist: Measure, pts: seq<Point>, i: int, k1: int, d1: real, k2: int, d2: real)
    requires 1 <= i <= |pts|
    requires MaxSoFar(dist, pts, i, k1, d1) && MaxSoFar(dist, pts, i, k2, d2)
    ensures k1 == k2 && d1 == d2
  {
  }

  /** The scan loop over the interior: a point replaces the current best only when it is
      strictly farther. */
  function ScanFrom(dist: Measure, pts: seq<Point>, i: int, k: int, d: real): (r: (int, real))
    requires 1 <= i <= |pts| - 1
    requires MaxSoFar(dist, pts, i, k, d)
    ensures MaxSoFar(dist, pts, |pts| - 1, r.0, r.1)
    decreases |pts| - i
  {
    if i == |pts| - 1 then (k, d)
    else
      var di := ChordDistance(dist, pts, i);
      if di > d then ScanFrom(dist, pts, i + 1, i, di)
      else ScanFrom(dist, pts, i + 1, k, d)
  }

  /** Index and distance of the farthest interior point, first one on ties;
      `(0, 0)` when no interior point is at a positive distance. */
  function Scan(dist: Measure, pts: seq<Point>): (r: (int, real))
    requires |pts| >= 2
    ensures MaxSoFar(dist, pts, |pts| - 1, r.0, r.1)
  {
    ScanFrom(dist, pts, 1, 0, 0.0)
  }

  /** The points strictly between the first and the last. */
  function Interior(s: seq<Point>): seq<Point>
    requires |s| >= 2
  {
    s[1..|s| - 1]
  }

  /** The two simplified halves share the split point: it is kept once. */
  function Join(left: Option<seq<Point>>, right: Option<seq<Point>>): Option<seq<Point>>
    requires left.Some? ==> |left.value| > 0
  {
    if left.Some? && right.Some? then Some(left.value[..|left.value| - 1] + right.value) else None
  }

  /** Douglas-Peucker: keep the endpoints; if the farthest interior point is farther than
      `epsilon` from the chord, split there and simplify both halves, otherwise drop the
      interior. `None` is the case where the source calls itself on the same list again
      without end: a split is asked for (`epsilon < 0`) but no interior point is at a
      positive distance, so the split index stays 0. */
  function DouglasPeucker(dist: Measure, pts: seq<Point>, epsilon: real): (r: Option<seq<Point>>)
    ensures r.Some? && |pts| <= 2 ==> r.value == pts
    ensures r.Some? && |pts| >= 2 ==>
              2 <= |r.value| <= |pts| && r.value[0] == pts[0]
              && r.value[|r.value| - 1] == pts[|pts| - 1]
    decreases |pts|
  {
    if |pts| <= 2 then Some(pts)
    else
      var k := Scan(dist, pts).0;
      if Scan(dist, pts).1 <= epsilon then Some([pts[0], pts[|pts| - 1]])
      else if k == 0 then None
      else
        Join(DouglasPeucker(dist, pts[..k + 1], epsilon), DouglasPeucker(dist, pts[k..], epsilon))
  }

  /** With a non-negative tolerance the simplifier always finishes. */
  lemma {:induction false} DouglasPeuckerTerminates(dist: Measure, pts: seq<Point>, epsilon: real)
    requires 0.0 <= epsilon
    ensures DouglasPeucker(dist, pts, epsilon).Some?
    decreases |pts|
  {
    if |pts| > 2 {
      var (k, d) := Scan(dist, pts);
      if d > epsilon {
        DouglasPeuckerTerminates(dist, pts[..k + 1], epsilon);
        DouglasPeuckerTerminates(dist, pts[k..], epsilon);
      }
    }
  }

  /** The split of a list at `k` as the source performs it: the interior of the whole
      is the interior of the left half, the split point, and the interior of the right. */
  lemma SplitInterior(pts: seq<Point>, k: int)
    requires 1 <= k < |pts| - 1
    ensures Interior(pts) == Interior(pts[..k + 1]) + [pts[k]] + Interior(pts[k..])
  {
    var n := |pts|;
    assert Interior(pts[..k + 1]) == pts[1..k];
    assert Interior(pts[k..]) == pts[k + 1..n - 1];
    assert pts[1..n - 1] == pts[1..k] + [pts[k]] + pts[k + 1..n - 1];
  }

  /** Joining two simplified halves that meet in one point. */
  lemma JoinInterior(l: seq<Point>, q: seq<Point>)
    requires |l| >= 2 && |q| >= 2 && l[|l| - 1] == q[0]
    ensures var r := l[..|l| - 1] + q;
            |r| >= 3 && Interior(r) == Interior(l) + [q[0]] + Interior(q)
            && r[..|l|] == l && r[|l| - 1..] == q
  {
  }

  /** Joining two halves whose interiors are selections from the input's halves gives
      a list whose interior is a selection from the input's interior. */
  lemma JoinKeepsInteriorOrder(pts: seq<Point>, k: int, l: seq<Point>, q: seq<Point>)
    requires 1 <= k < |pts| - 1
    requires |l| >= 2 && |q| >= 2 && l[|l| - 1] == pts[k] && q[0] == pts[k]
    requires IsSubsequence(Interior(l), Interior(pts[..k + 1]))
    requires IsSubsequence(Interior(q), Interior(pts[k..]))
    ensures IsSubsequence(Interior(l[..|l| - 1] + q), Interior(pts))
  {
    var left, right := pts[..k + 1], pts[k..];
    JoinInterior(l, q);
    SplitInterior(pts, k);
    assert IsSubsequence([pts[k]] + Interior(q), [pts[k]] + Interior(right)) by {
      assert ([pts[k]] + Interior(q))[1..] == Interior(q);
      assert ([pts[k]] + Interior(right))[1..] == Interior(right);
    }
    SubsequenceConcat(Interior(l), Interior(left), [pts[k]] + Interior(q), [pts[k]] + Interior(right));
    assert Interior(l) + ([pts[k]] + Interior(q)) == Interior(l[..|l| - 1] + q);
    assert Interior(left) + ([pts[k]] + Interior(right)) == Interior(pts);
  }

  /** The interior of the result is an order-preserving selection from the interior of
      the input: the simplifier only drops points, never invents or reorders them. */
  lemma {:induction false} DouglasPeuckerKeepsInteriorOrder(dist: Measure, pts: seq<Point>, epsilon: real)
    requires |pts| >= 2 && DouglasPeucker(dist, pts, epsilon).Some?
    ensures var r := DouglasPeucker(dist, pts, epsilon).value;
            IsSubsequence(Interior(r), Interior(pts))
    decreases |pts|
  {
    var r := DouglasPeucker(dist, pts, epsilon).value;
    if |pts| == 2 {
      assert Interior(r) == [];
    } else {
      var (k, d) := Scan(dist, pts);
      if d > epsilon {
        DouglasPeuckerSplitCase(dist, pts, epsilon, k);
        var l := DouglasPeucker(dist, pts[..k + 1], epsilon).value;
        var q := DouglasPeucker(dist, pts[k..], epsilon).value;
        DouglasPeuckerKeepsInteriorOrder(dist, pts[..k + 1], epsilon);
        DouglasPeuckerKeepsInteriorOrder(dist, pts[k..], epsilon);
        JoinKeepsInteriorOrder(pts, k, l, q);
      } else {
        assert Interior(r) == [];
      }
    }
  }

  /** A list that keeps the endpoints and selects from the interior is a selection from
      the whole list. */
  lemma SubsequenceWithEnds(r: seq<Point>, pts: seq<Point>)
    requires |r| >= 2 && |pts| >= 2 && r[0] == pts[0] && r[|r| - 1] == pts[|pts| - 1]
    requires IsSubsequence(Interior(r), Interior(pts))
    ensures IsSubsequence(r, pts)
  {
    SubsequenceRefl([pts[|pts| - 1]]);
    SubsequenceConcat(Interior(r), Interior(pts), [pts[|pts| - 1]], [pts[|pts| - 1]]);
    var tail := Interior(r) + [pts[|pts| - 1]];
    var ptail := Interior(pts) + [pts[|pts| - 1]];
    assert ([pts[0]] + tail)[1..] == tail;
    assert ([pts[0]] + ptail)[1..] == ptail;
    assert [pts[0]] + tail == r;
    assert [pts[0]] + ptail == pts;
  }

  /** Hence the result is a subsequence of the input with the same endpoints. */
  lemma DouglasPeuckerIsSubsequence(dist: Measure, pts: seq<Point>, epsilon: real)
    requires |pts| >= 2 && DouglasPeucker(dist, pts, epsilon).Some?
    ensures var r := DouglasPeucker(dist, pts, epsilon).value;
            IsSubsequence(r, pts) && r[0] == pts[0] && r[|r| - 1] == pts[|pts| - 1]
  {
    DouglasPeuckerKeepsInteriorOrder(dist, pts, epsilon);
    SubsequenceWithEnds(DouglasPeucker(dist, pts, epsilon).value, pts);
  }

  /** A list of three or more points collapses to its two endpoints exactly when no
      interior point is farther than `epsilon` from the chord. */
  lemma DouglasPeuckerCollapses(dist: Measure, pts: seq<Point>, epsilon: real)
    requires |pts| >= 3 && DouglasPeucker(dist, pts, epsilon).Some?
    ensures DouglasPeucker(dist, pts, epsilon).value == [pts[0], pts[|pts| - 1]]
            <==> forall j :: 1 <= j < |pts| - 1 ==> ChordDistance(dist, pts, j) <= epsilon
  {
    var (k, d) := Scan(dist, pts);
    if d > epsilon {
      var l := DouglasPeucker(dist, pts[..k + 1], epsilon).value;
      var q := DouglasPeucker(dist, pts[k..], epsilon).value;
      JoinInterior(l, q);
      assert ChordDistance(dist, pts, k) > epsilon;
    }
  }

  /** An interior point of a result is an interior point of the input. */
  lemma InteriorMember(dist: Measure, pts: seq<Point>, epsilon: real, x: Point)
    requires |pts| >= 2 && DouglasPeucker(dist, pts, epsilon).Some?
    requires x in Interior(DouglasPeucker(dist, pts, epsilon).value)
    ensures exists j :: 1 <= j < |pts| - 1 && pts[j] == x
  {
    DouglasPeuckerKeepsInteriorOrder(dist, pts, epsilon);
    SubsequenceMembers(Interior(DouglasPeucker(dist, pts, epsilon).value), Interior(pts));
    var j :| 0 <= j < |Interior(pts)| && Interior(pts)[j] == x;
    assert pts[j + 1] == x;
  }

  /** After a split at the input's first farthest point `k`, that point is also the
      first farthest interior point of the joined result. */
  lemma SplitPointStaysFirstMax(dist: Measure, pts: seq<Point>, k: int, d: real,
                                l: seq<Point>, q: seq<Point>)
    requires 1 <= k < |pts| - 1 && MaxSoFar(dist, pts, |pts| - 1, k, d)
    requires |l| >= 2 && |q| >= 2
    requires l[0] == pts[0] && l[|l| - 1] == pts[k] && q[0] == pts[k] && q[|q| - 1] == pts[|pts| - 1]
    requires IsSubsequence(Interior(l), Interior(pts[..k + 1]))
    requires IsSubsequence(Interior(q), Interior(pts[k..]))
    ensures var r := l[..|l| - 1] + q;
            MaxSoFar(dist, r, |r| - 1, |l| - 1, d)
  {
    var r := l[..|l| - 1] + q;
    var pos := |l| - 1;
    JoinInterior(l, q);
    SubsequenceMembers(Interior(l), Interior(pts[..k + 1]));
    SubsequenceMembers(Interior(q), Interior(pts[k..]));
    assert r[0] == pts[0] && r[|r| - 1] == pts[|pts| - 1];
    assert r[pos] == pts[k];
    forall j | 1 <= j < |r| - 1
      ensures ChordDistance(dist, r, j) <= d
      ensures j < pos ==> ChordDistance(dist, r, j) < d
    {
      if j < pos {
        var src := Interior(pts[..k + 1]);
        assert r[j] == Interior(l)[j - 1];
        assert r[j] in Interior(l);
        assert r[j] in src;
        var i :| 0 <= i < |src| && src[i] == r[j];
        assert r[j] == pts[i + 1];
        assert ChordDistance(dist, pts, i + 1) < d;
      } else if j > pos {
        var src := Interior(pts[k..]);
        assert r[j] == Interior(q)[j - pos - 1];
        assert r[j] in Interior(q);
        assert r[j] in src;
        var i :| 0 <= i < |src| && src[i] == r[j];
        assert r[j] == pts[k + i + 1];
        assert ChordDistance(dist, pts, k + i + 1) <= d;
      }
    }
  }

  /** The recursive case of the simplifier, one step unfolded. */
  lemma DouglasPeuckerSplitCase(dist: Measure, pts: seq<Point>, epsilon: real, k: int)
    requires |pts| > 2 && Scan(dist, pts).1 > epsilon && Scan(dist, pts).0 == k && k != 0
    ensures DouglasPeucker(dist, pts, epsilon)
              == Join(DouglasPeucker(dist, pts[..k + 1], epsilon), DouglasPeucker(dist, pts[k..], epsilon))
  {
  }

  /** Joining the two halves of a list cut at `pos` gives the list back. */
  lemma JoinHalves(r: seq<Point>, pos: int)
    requires 0 <= pos < |r|
    ensures Join(Some(r[..pos + 1]), Some(r[pos..])) == Some(r)
  {
    assert r[..pos + 1][..pos] == r[..pos];
    assert r[..pos] + r[pos..] == r;
  }

  /** After a split at the input's first farthest point, the joined result is split at
      the same point again. */
  lemma JoinedScan(dist: Measure, pts: seq<Point>, k: int, d: real, l: seq<Point>, q: seq<Point>)
    requires 1 <= k < |pts| - 1 && MaxSoFar(dist, pts, |pts| - 1, k, d)
    requires |l| >= 2 && |q| >= 2
    requires l[0] == pts[0] && l[|l| - 1] == pts[k] && q[0] == pts[k] && q[|q| - 1] == pts[|pts| - 1]
    requires IsSubsequence(Interior(l), Interior(pts[..k + 1]))
    requires IsSubsequence(Interior(q), Interior(pts[k..]))
    ensures var r := l[..|l| - 1] + q;
            |r| >= 3 && Scan(dist, r) == (|l| - 1, d)
  {
    var r := l[..|l| - 1] + q;
    SplitPointStaysFirstMax(dist, pts, k, d, l, q);
    MaxSoFarUnique(dist, r, |r| - 1, |l| - 1, d, Scan(dist, r).0, Scan(dist, r).1);
  }

  /** Two fixed points of the simplifier, joined where the joined list is split again,
      give a fixed point. */
  lemma RejoinAtSplit(dist: Measure, epsilon: real, l: seq<Point>, q: seq<Point>)
    requires |l| >= 2 && |q| >= 2 && l[|l| - 1] == q[0]
    requires Scan(dist, l[..|l| - 1] + q).0 == |l| - 1 && Scan(dist, l[..|l| - 1] + q).1 > epsilon
    requires DouglasPeucker(dist, l, epsilon) == Some(l) && DouglasPeucker(dist, q, epsilon) == Some(q)
    ensures DouglasPeucker(dist, l[..|l| - 1] + q, epsilon) == Some(l[..|l| - 1] + q)
  {
    var r := l[..|l| - 1] + q;
    var pos := |l| - 1;
    JoinInterior(l, q);
    assert r[..pos + 1] == l && r[pos..] == q;
    RejoinSlices(dist, r, epsilon, pos);
  }

  /** The same, stated on the slices of the joined list. */
  lemma RejoinSlices(dist: Measure, r: seq<Point>, epsilon: real, pos: int)
    requires 1 <= pos < |r| - 1
    requires Scan(dist, r).0 == pos && Scan(dist, r).1 > epsilon
    requires DouglasPeucker(dist, r[..pos + 1], epsilon) == Some(r[..pos + 1])
    requires DouglasPeucker(dist, r[pos..], epsilon) == Some(r[pos..])
    ensures DouglasPeucker(dist, r, epsilon) == Some(r)
  {
    DouglasPeuckerSplitCase(dist, r, epsilon, pos);
    JoinHalves(r, pos);
  }

  /** Simplifying a simplified list changes nothing. */
  lemma {:induction false} DouglasPeuckerIdempotent(dist: Measure, pts: seq<Point>, epsilon: real)
    requires DouglasPeucker(dist, pts, epsilon).Some?
    ensures var r := DouglasPeucker(dist, pts, epsilon).value;
            DouglasPeucker(dist, r, epsilon) == Some(r)
    decreases |pts|
  {
    if |pts| > 2 {
      var (k, d) := Scan(dist, pts);
      if d > epsilon {
        DouglasPeuckerSplitCase(dist, pts, epsilon, k);
        DouglasPeuckerIdempotent(dist, pts[..k + 1], epsilon);
        DouglasPeuckerIdempotent(dist, pts[k..], epsilon);
        DouglasPeuckerKeepsInteriorOrder(dist, pts[..k + 1], epsilon);
        DouglasPeuckerKeepsInteriorOrder(dist, pts[k..], epsilon);
        var l := DouglasPeucker(dist, pts[..k + 1], epsilon).value;
        var q := DouglasPeucker(dist, pts[k..], epsilon).value;
        JoinedScan(dist, pts, k, d, l, q);
        RejoinAtSplit(dist, epsilon, l, q);
      }
    }
  }

  /** With a negative tolerance and no interior point off the chord, the source's split
      index stays 0 and it calls itself on the same list again. */
  lemma DouglasPeuckerDivergence(dist: Measure, pts: seq<Point>, epsilon: real)
    requires |pts| >= 3 && epsilon < 0.0
    requires forall j :: 1 <= j < |pts| - 1 ==> ChordDistance(dist, pts, j) <= 0.0
    ensures DouglasPeucker(dist, pts, epsilon) == None
  {
    MaxSoFarUnique(dist, pts, |pts| - 1, 0, 0.0, Scan(dist, pts).0, Scan(dist, pts).1);
  }

  /** The perpendicular distance as a measure. */
  function PerpendicularMeasure(m: MathLib): Measure
  {
    (p: Point, a: Point, b: Point) => PerpendicularDistance(m, p, a, b)
  }

  /** Lists of at most two points are returned as they are; longer ones are simplified
      against the perpendicular distance. */
  function SimplifyPoints(m: MathLib, points: seq<Point>, epsilon: real): (r: Option<seq<Point>>)
    ensures |points| <= 2 ==> r == Some(points)
  {
    if |points| <= 2 then Some(points)
    else DouglasPeucker(PerpendicularMeasure(m), points, epsilon)
  }

  /** A run of samples becomes a stroke whose points are the timed samples, simplified
      when asked, whose box is the box of those points and whose id comes from the clock
      reading `now` and the session counter. No samples is an error. */
  function NormalizeStroke(m: MathLib, events: seq<RawPointerEvent>, tool: ToolType, colorRGBA: bv32,
                           baseWidth: real, simplify: bool, epsilon: real,
                           now: int, counter: int): (r: Result<Stroke, NormalizeError>)
    ensures |events| == 0 <==> r == Failure(EmptyStroke)
    ensures r.Success? ==>
              r.value.strokeId == StrokeIdFor(now, counter) && r.value.tool == tool
              && r.value.colorRGBA == colorRGBA && r.value.baseWidth == baseWidth
  {
    if |events| == 0 then Failure(EmptyStroke)
    else
      var points := TimedPoints(events);
      var finalPoints := if simplify then SimplifyPoints(m, points, epsilon) else Some(points);
      match finalPoints
      case None => Failure(SimplificationDiverges)
      case Some(fp) =>
        Success(Stroke(StrokeIdFor(now, counter), tool, colorRGBA, baseWidth, CalculateBounds(fp), fp))
  }

  /** The values `normalizeStroke` uses for its optional parameters. */
  const DefaultSimplify := true
  const DefaultEpsilon := 0.5

  /** Called with its defaults, normalization turns every non-empty run into a stroke
      whose points are the simplification of the timed samples at tolerance 0.5. */
  lemma NormalizeStrokeWithDefaults(m: MathLib, events: seq<RawPointerEvent>, tool: ToolType, colorRGBA: bv32,
                                    baseWidth: real, now: int, counter: int)
    requires |events| > 0
    ensures var r := NormalizeStroke(m, events, tool, colorRGBA, baseWidth, DefaultSimplify, DefaultEpsilon,
                                     now, counter);
            r.Success? && SimplifyPoints(m, TimedPoints(events), 0.5) == Some(r.value.points)
  {
    NormalizeStrokeSucceeds(m, events, tool, colorRGBA, baseWidth, DefaultSimplify, DefaultEpsilon, now, counter);
  }

  /** A non-empty run always yields a stroke when simplification is off or the tolerance is
      non-negative. */
  lemma NormalizeStrokeSucceeds(m: MathLib, events: seq<RawPointerEvent>, tool: ToolType, colorRGBA: bv32,
                                baseWidth: real, simplify: bool, epsilon: real, now: int, counter: int)
    requires |events| > 0 && (!simplify || 0.0 <= epsilon)
    ensures NormalizeStroke(m, events, tool, colorRGBA, baseWidth, simplify, epsilon, now, counter).Success?
  {
    var timed := TimedPoints(events);
    if simplify && |timed| > 2 {
      DouglasPeuckerTerminates(PerpendicularMeasure(m), timed, epsilon);
    }
  }

  /** The points handed to the stroke are a subsequence of the samples with the same first
      and last sample, and all of them when simplification is off. */
  lemma SimplifiedPointsFacts(m: MathLib, timed: seq<Point>, simplify: bool, epsilon: real)
    requires |timed| > 0
    ensures var fp := if simplify then SimplifyPoints(m, timed, epsilon) else Some(timed);
            fp.Some? ==>
              |fp.value| > 0 && IsSubsequence(fp.value, timed)
              && fp.value[0] == timed[0] && fp.value[|fp.value| - 1] == timed[|timed| - 1]
              && (!simplify ==> fp.value == timed)
  {
    var fp := if simplify then SimplifyPoints(m, timed, epsilon) else Some(timed);
    if fp.Some? {
      if simplify && |timed| > 2 {
        DouglasPeuckerIsSubsequence(PerpendicularMeasure(m), timed, epsilon);
      } else {
        SubsequenceRefl(timed);
      }
    }
  }

  /** The stroke's points are a subsequence of the timed samples with the same first and
      last sample (all of them when simplification is off), and its box is the tight box
      of its points. */
  lemma NormalizeStrokeFacts(m: MathLib, events: seq<RawPointerEvent>, tool: ToolType, colorRGBA: bv32,
                             baseWidth: real, simplify: bool, epsilon: real,
                             now: int, counter: int, o: Bounds)
    ensures var r := NormalizeStroke(m, events, tool, colorRGBA, baseWidth, simplify, epsilon, now, counter);
            var timed := TimedPoints(events);
            r.Success? ==>
              |r.value.points| > 0 && IsSubsequence(r.value.points, timed)
              && r.value.points[0] == timed[0]
              && r.value.points[|r.value.points| - 1] == timed[|timed| - 1]
              && (!simplify ==> r.value.points == timed)
              && (forall p :: p in r.value.points ==> Contains(r.value.bounds, p.x, p.y))
              && ((forall p :: p in r.value.points ==> Contains(o, p.x, p.y)) ==> Within(r.value.bounds, o))
  {
    var r := NormalizeStroke(m, events, tool, colorRGBA, baseWidth, simplify, epsilon, now, counter);
    if r.Success? {
      var timed := TimedPoints(events);
      SimplifiedPointsFacts(m, timed, simplify, epsilon);
      var fp := if simplify then SimplifyPoints(m, timed, epsilon) else Some(timed);
      assert r.value.points == fp.value;
      CalculateBoundsIsTight(fp.value, o);
    }
  }
}

=== FILE: stroke_renderer.dfy ===
/** What drawing a stroke puts on the canvas: per-segment width and opacity, the
    compositing mode, and the lines and quadratic curves issued
    (rendering/strokeRenderer.ts). */
module StrokeRenderer {
  import opened Wrappers
  import opened StrokeTypes
  import opened Numerics
  import opened Coordinates
  import opened ToolSettings
  import opened Velocity
  import opened Pressure

  /** Speed factor `1 / (1 + v * K)` when the tool uses speed, else 1. The guard on a zero
      divisor is never taken when `m` is the real math library (`SpeedFactorInUnitRange`). */
  function SpeedFactor(m: MathLib, s: Settings, prev: Point, curr: Point,
                       pageWidth: real, pageHeight: real): real
  {
    var velocity := if s.useVelocity then GetVelocity(m, prev, curr, pageWidth, pageHeight) else 0.0;
    var divisor := 1.0 + velocity * s.velocityK;
    if s.useVelocity then (if divisor == 0.0 then 0.0 else 1.0 / divisor) else 1.0
  }

  /** Shaped smoothed pressure when the tool uses pressure, else 1. */
  function PressureFactor(m: MathLib, s: Settings, prev: Point, curr: Point): real
  {
    var p := SmoothPressure(prev.pressure, curr.pressure);
    if s.usePressureForWidth then PressureCurve(m, p, s.pressureGamma) else 1.0
  }

  /** Line width for the segment that starts at `prev`: the base width scaled by the
      tool factor, the pressure factor and the speed factor. */
  function GetRenderWidth(m: MathLib, stroke: Stroke, prev: Point, curr: Point,
                          pageWidth: real, pageHeight: real): real
  {
    var s := GetToolSettings(stroke.tool);
    stroke.baseWidth * s.toolFactor * PressureFactor(m, s, prev, curr)
      * SpeedFactor(m, s, prev, curr, pageWidth, pageHeight)
  }

  /** The highlighter draws at its base width whatever the pressure and speed. */
  lemma HighlighterWidthIsBaseWidth(m: MathLib, stroke: Stroke, prev: Point, curr: Point,
                                    pageWidth: real, pageHeight: real)
    requires stroke.tool == Highlighter
    ensures GetRenderWidth(m, stroke, prev, curr, pageWidth, pageHeight) == stroke.baseWidth
  {
  }

  lemma ReciprocalInUnitRange(v: real, k: real)
    requires 0.0 <= v && 0.0 <= k
    ensures 1.0 <= 1.0 + v * k
    ensures 0.0 < 1.0 / (1.0 + v * k) <= 1.0
  {
    assert 0.0 <= v * k;
  }

  /** With real math the speed factor lies in `(0, 1]`: speed only ever thins the line. */
  lemma SpeedFactorInUnitRange(m: MathLib, tool: ToolType, prev: Point, curr: Point,
                               pageWidth: real, pageHeight: real)
    requires Sound(m)
    ensures 0.0 < SpeedFactor(m, GetToolSettings(tool), prev, curr, pageWidth, pageHeight) <= 1.0
  {
    var s := GetToolSettings(tool);
    ToolSettingsInRange(tool);
    if s.useVelocity {
      VelocityNonNegative(m, prev, curr, pageWidth, pageHeight);
      ReciprocalInUnitRange(GetVelocity(m, prev, curr, pageWidth, pageHeight), s.velocityK);
    }
  }

  lemma PressureFactorNonNegative(m: MathLib, tool: ToolType, prev: Point, curr: Point)
    requires Sound(m)
    requires 0.0 <= prev.pressure && 0.0 <= curr.pressure
    ensures 0.0 <= PressureFactor(m, GetToolSettings(tool), prev, curr)
  {
    var s := GetToolSettings(tool);
    PressureCurveFacts(m, SmoothPressure(prev.pressure, curr.pressure), s.pressureGamma);
  }

  lemma ScaledProduct(w: real, f: real, pf: real, vf: real)
    requires 0.0 <= w && 0.0 < f && 0.0 <= pf && 0.0 <= vf <= 1.0
    ensures 0.0 <= w * f * pf * vf <= w * f * pf
  {
    assert 0.0 <= w * f;
    assert 0.0 <= w * f * pf;
  }

  /** The width is the product of the four factors, so it is bounded by the speed-free width
      once the factors are in range. */
  lemma WidthFromFactors(m: MathLib, stroke: Stroke, prev: Point, curr: Point,
                         pageWidth: real, pageHeight: real)
    requires var s := GetToolSettings(stroke.tool);
             && 0.0 <= stroke.baseWidth
             && 0.0 <= PressureFactor(m, s, prev, curr)
             && 0.0 <= SpeedFactor(m, s, prev, curr, pageWidth, pageHeight) <= 1.0
    ensures var s := GetToolSettings(stroke.tool);
            0.0 <= GetRenderWidth(m, stroke, prev, curr, pageWidth, pageHeight)
                <= stroke.baseWidth * s.toolFactor * PressureFactor(m, s, prev, curr)
  {
    var s := GetToolSettings(stroke.tool);
    var pf := PressureFactor(m, s, prev, curr);
    var vf := SpeedFactor(m, s, prev, curr, pageWidth, pageHeight);
    ToolSettingsInRange(stroke.tool);
    assert GetRenderWidth(m, stroke, prev, curr, pageWidth, pageHeight) == stroke.baseWidth * s.toolFactor * pf * vf;
    ScaledProduct(stroke.baseWidth, s.toolFactor, pf, vf);
  }

  /** With real math and non-negative base width and pressures, the width is never
      negative and never exceeds the width the same segment would have at zero speed. */
  lemma RenderWidthBounds(m: MathLib, stroke: Stroke, prev: Point, curr: Point,
                          pageWidth: real, pageHeight: real)
    requires Sound(m)
    requires 0.0 <= stroke.baseWidth && 0.0 <= prev.pressure && 0.0 <= curr.pressure
    ensures var s := GetToolSettings(stroke.tool);
            0.0 <= GetRenderWidth(m, stroke, prev, curr, pageWidth, pageHeight)
                <= stroke.baseWidth * s.toolFactor * PressureFactor(m, s, prev, curr)
  {
    SpeedFactorInUnitRange(m, stroke.tool, prev, curr, pageWidth, pageHeight);
    PressureFactorNonNegative(m, stroke.tool, prev, curr);
    WidthFromFactors(m, stroke, prev, curr, pageWidth, pageHeight);
  }

  /** Opacity for the segment that starts at `prev`: 1 except for the highlighter, whose
      opacity follows the smoothed pressure, clamped to `[0.3, 1]`. */
  function GetRenderAlpha(stroke: Stroke, prev: Point, curr: Point): (r: real)
    ensures 0.3 <= r <= 1.0
    ensures stroke.tool != Highlighter ==> r == 1.0
  {
    if stroke.tool != Highlighter then 1.0
    else
      var p := SmoothPressure(prev.pressure, curr.pressure);
      Min(1.0, Max(0.3, 0.3 + p * 0.4))
  }

  /** For normalized pressures the clamp is inactive: highlighter opacity is
      `0.3 + 0.4 p` and grows with the smoothed pressure. */
  lemma HighlighterAlphaFollowsPressure(stroke: Stroke, prev: Point, curr: Point, prev2: Point, curr2: Point)
    requires stroke.tool == Highlighter
    requires MinPressure <= prev.pressure <= 1.0 && MinPressure <= curr.pressure <= 1.0
    ensures GetRenderAlpha(stroke, prev, curr)
         == 0.3 + 0.4 * SmoothPressure(prev.pressure, curr.pressure)
    ensures SmoothPressure(prev.pressure, curr.pressure) <= SmoothPressure(prev2.pressure, curr2.pressure)
            ==> GetRenderAlpha(stroke, prev, curr) <= GetRenderAlpha(stroke, prev2, curr2)
  {
    SmoothPressureSteady(prev.pressure, curr.pressure);
  }

  /** How new pixels combine with the canvas: the eraser cuts them out, every other tool
      paints over in the stroke's colour word. */
  datatype Composite = DestinationOut | SourceOver(color: bv32)

  /** One `stroke()` call: a straight line, or a quadratic curve from `start` to `end`
      pulled towards `control`, with the width and opacity set just before it. */
  datatype Segment =
    | Line(from: XY, to: XY, width: real, alpha: real)
    | Curve(start: XY, control: XY, end: XY, width: real, alpha: real)
  {
    function Start(): XY
    {
      match this
      case Line(from, _, _, _) => from
      case Curve(start, _, _, _, _) => start
    }

    function End(): XY
    {
      match this
      case Line(_, to, _, _) => to
      case Curve(_, _, end, _, _) => end
    }
  }

  /** The compositing mode left on the context and the segments drawn. */
  datatype DrawPlan = DrawPlan(composite: Composite, segments: seq<Segment>)

  function CompositeFor(stroke: Stroke): (c: Composite)
    ensures c == DestinationOut <==> stroke.tool == Eraser
    ensures c.SourceOver? ==> c.color == stroke.colorRGBA
  {
    if stroke.tool == Eraser then DestinationOut else SourceOver(stroke.colorRGBA)
  }

  /** The straight segment used for a two-point stroke. */
  function LineSegment(m: MathLib, stroke: Stroke, pageWidth: real, pageHeight: real): Segment
    requires |stroke.points| >= 2
  {
    var p0 := stroke.points[0];
    var p1 := stroke.points[1];
    Line(ToCanvasPoint(p0, pageWidth, pageHeight), ToCanvasPoint(p1, pageWidth, pageHeight),
         GetRenderWidth(m, stroke, p0, p1, pageWidth, pageHeight), GetRenderAlpha(stroke, p0, p1))
  }

  /** The curve for point `i` (at least 2): from the midpoint of points `i - 2` and `i - 1`
      to the midpoint of points `i - 1` and `i`, controlled by point `i - 1`, styled by
      the pair `i - 2`, `i - 1`. */
  function CurveSegment(m: MathLib, stroke: Stroke, i: int, pageWidth: real, pageHeight: real): Segment
    requires 2 <= i < |stroke.points|
  {
    var p0 := stroke.points[i - 2];
    var p1 := stroke.points[i - 1];
    var p2 := stroke.points[i];
    Curve(MidpointCanvas(p0, p1, pageWidth, pageHeight), ToCanvasPoint(p1, pageWidth, pageHeight),
          MidpointCanvas(p1, p2, pageWidth, pageHeight),
          GetRenderWidth(m, stroke, p0, p1, pageWidth, pageHeight), GetRenderAlpha(stroke, p0, p1))
  }

  /** A full redraw of a stroke. The compositing mode is set even when the stroke has
      fewer than two points and nothing is drawn. */
  function DrawStroke(m: MathLib, stroke: Stroke, pageWidth: real, pageHeight: real): (r: DrawPlan)
    ensures r.composite == CompositeFor(stroke)
  {
    var n := |stroke.points|;
    var segments :=
      if n < 2 then []
      else if n == 2 then [LineSegment(m, stroke, pageWidth, pageHeight)]
      else seq(n - 2, j requires 0 <= j < n - 2 => CurveSegment(m, stroke, j + 2, pageWidth, pageHeight));
    DrawPlan(CompositeFor(stroke), segments)
  }

  /** Nothing is drawn for fewer than two points, one line for two, and one curve per
      point from the third on; consecutive curves join, the first starting halfway
      between the first two points and the last ending halfway between the last two. */
  lemma DrawStrokeShape(m: MathLib, stroke: Stroke, pageWidth: real, pageHeight: real)
    ensures var n := |stroke.points|;
            var segs := DrawStroke(m, stroke, pageWidth, pageHeight).segments;
            |segs| == (if n < 2 then 0 else if n == 2 then 1 else n - 2)
    ensures var n := |stroke.points|;
            var segs := DrawStroke(m, stroke, pageWidth, pageHeight).segments;
            n >= 3 ==>
              (forall j :: 0 <= j < |segs| - 1 ==> segs[j].End() == segs[j + 1].Start())
              && segs[0].Start() == MidpointCanvas(stroke.points[0], stroke.points[1], pageWidth, pageHeight)
              && segs[|segs| - 1].End()
                 == MidpointCanvas(stroke.points[n - 2], stroke.points[n - 1], pageWidth, pageHeight)
    ensures |stroke.points| == 2 ==>
              var segs := DrawStroke(m, stroke, pageWidth, pageHeight).segments;
              segs[0].Start() == ToCanvasPoint(stroke.points[0], pageWidth, pageHeight)
              && segs[0].End() == ToCanvasPoint(stroke.points[1], pageWidth, pageHeight)
              && segs[0].width == GetRenderWidth(m, stroke, stroke.points[0], stroke.points[1], pageWidth, pageHeight)
              && segs[0].alpha == GetRenderAlpha(stroke, stroke.points[0], stroke.points[1])
  {
  }

  /** Every curve of a stroke with three or more points is pulled towards the middle point
      of its triple and styled by the first two points of the triple. */
  lemma CurvesStyledByLeadingPair(m: MathLib, stroke: Stroke, pageWidth: real, pageHeight: real)
    requires |stroke.points| >= 3
    ensures var segs := DrawStroke(m, stroke, pageWidth, pageHeight).segments;
            forall j :: 0 <= j < |stroke.points| - 2 ==>
              segs[j].Curve?
              && segs[j].control == ToCanvasPoint(stroke.points[j + 1], pageWidth, pageHeight)
              && segs[j].width == GetRenderWidth(m, stroke, stroke.points[j], stroke.points[j + 1], pageWidth, pageHeight)
              && segs[j].alpha == GetRenderAlpha(stroke, stroke.points[j], stroke.points[j + 1])
  {
    var segs := DrawStroke(m, stroke, pageWidth, pageHeight).segments;
    forall j | 0 <= j < |stroke.points| - 2
      ensures segs[j] == CurveSegment(m, stroke, j + 2, pageWidth, pageHeight)
    {
    }
  }

  /** The incremental draw while the pen is down: nothing (not even the compositing
      mode) for fewer than two points, the line for two, otherwise only the curve of the
      newest point. */
  function DrawLiveSegment(m: MathLib, stroke: Stroke, pageWidth: real, pageHeight: real): (r: Option<DrawPlan>)
    ensures r.None? <==> |stroke.points| < 2
  {
    var n := |stroke.points|;
    if n < 2 then None
    else if n == 2 then Some(DrawPlan(CompositeFor(stroke), [LineSegment(m, stroke, pageWidth, pageHeight)]))
    else Some(DrawPlan(CompositeFor(stroke), [CurveSegment(m, stroke, n - 1, pageWidth, pageHeight)]))
  }

  /** The live draw is exactly the last segment of a full redraw. */
  lemma LiveSegmentIsLastOfRedraw(m: MathLib, stroke: Stroke, pageWidth: real, pageHeight: real)
    requires |stroke.points| >= 2
    ensures var full := DrawStroke(m, stroke, pageWidth, pageHeight);
            DrawLiveSegment(m, stroke, pageWidth, pageHeight)
              == Some(DrawPlan(full.composite, [full.segments[|full.segments| - 1]]))
  {
  }

  /** Appending a point leaves the curves of the earlier points as they were. */
  lemma CurveSegmentOfExtension(m: MathLib, stroke: Stroke, p: Point, i: int,
                                pageWidth: real, pageHeight: real)
    requires 2 <= i < |stroke.points|
    ensures var longer := stroke.(points := stroke.points + [p]);
            CurveSegment(m, longer, i, pageWidth, pageHeight) == CurveSegment(m, stroke, i, pageWidth, pageHeight)
  {
    var longer := stroke.(points := stroke.points + [p]);
    assert longer.points[i - 2] == stroke.points[i - 2];
    assert longer.points[i - 1] == stroke.points[i - 1];
    assert longer.points[i] == stroke.points[i];
    assert longer.tool == stroke.tool && longer.baseWidth == stroke.baseWidth;
  }

  /** Once a stroke has three points, drawing each new point live adds exactly what a
      full redraw of the longer stroke adds. */
  lemma LiveDrawingMatchesRedraw(m: MathLib, stroke: Stroke, p: Point, pageWidth: real, pageHeight: real)
    requires |stroke.points| >= 3
    ensures var longer := stroke.(points := stroke.points + [p]);
            DrawStroke(m, longer, pageWidth, pageHeight).segments
              == DrawStroke(m, stroke, pageWidth, pageHeight).segments
                 + DrawLiveSegment(m, longer, pageWidth, pageHeight).value.segments
  {
    var longer := stroke.(points := stroke.points + [p]);
    var a := DrawStroke(m, longer, pageWidth, pageHeight).segments;
    var b := DrawStroke(m, stroke, pageWidth, pageHeight).segments;
    var live := DrawLiveSegment(m, longer, pageWidth, pageHeight).value.segments;
    assert |a| == |b| + 1;
    forall j | 0 <= j < |b|
      ensures a[j] == b[j]
    {
      CurveSegmentOfExtension(m, stroke, p, j + 2, pageWidth, pageHeight);
    }
    assert a[|b|] == live[0];
    assert a == b + live;
  }
}

=== FILE: stroke_types.dfy ===
/** The notebook's persisted entities: points, bounding boxes, strokes, layers, pages,
    raw pointer samples and the records of the container's indexes. */
module StrokeTypes {
  import opened Wrappers

  /** A sample in normalized page-fraction coordinates. `dt` is the time in ms since
      the previous sample of the same stroke. */
  datatype Point = Point(
    x: real,
    y: real,
    pressure: real,
    dt: real,
    tiltX: Option<real>,
    tiltY: Option<real>)

  /** An axis-aligned box `[minX, maxX] x [minY, maxY]`. */
  datatype Bounds = Bounds(minX: real, minY: real, maxX: real, maxY: real)

  datatype ToolType = Pen | Highlighter | Eraser | Marker

  datatype Stroke = Stroke(
    strokeId: int,
    tool: ToolType,
    colorRGBA: bv32,
    baseWidth: real,
    bounds: Bounds,
    points: seq<Point>)

  datatype Layer = Layer(layerId: int, name: string, strokes: seq<Stroke>, visible: bool)

  datatype PaperStyle = Blank | Lined | Grid | Dots

  datatype Page = Page(
    pageId: int,
    width: real,
    height: real,
    layers: seq<Layer>,
    paperStyle: Option<PaperStyle>,
    createdTimestamp: int,
    modifiedTimestamp: int)

  /** A pointer sample as delivered by the input device, before normalization. */
  datatype RawPointerEvent = RawPointerEvent(
    x: real,
    y: real,
    pressure: real,
    timestamp: real,
    tiltX: Option<real>,
    tiltY: Option<real>)

  datatype StrokeIndexEntry = StrokeIndexEntry(strokeId: int, pageId: int, bounds: Bounds)

  datatype PageIndexEntry = PageIndexEntry(
    pageId: int,
    title: string,
    createdTimestamp: int,
    modifiedTimestamp: int)

  datatype Manifest = Manifest(
    version: int,
    createdBy: string,
    createdTimestamp: int,
    pageCount: int,
    totalStrokes: int)

  /** The point lies in the closed box. */
  predicate Contains(b: Bounds, x: real, y: real)
  {
    b.minX <= x <= b.maxX && b.minY <= y <= b.maxY
  }

  /** `inner` lies inside `outer`. */
  predicate Within(inner: Bounds, outer: Bounds)
  {
    outer.minX <= inner.minX && inner.maxX <= outer.maxX
    && outer.minY <= inner.minY && inner.maxY <= outer.maxY
  }

  predicate WellFormed(b: Bounds)
  {
    b.minX <= b.maxX && b.minY <= b.maxY
  }

  /** No two strokes of the list share an id. */
  predicate UniqueIds(strokes: seq<Stroke>)
  {
    forall i, j :: 0 <= i < j < |strokes| ==> strokes[i].strokeId != strokes[j].strokeId
  }

  function Ids(strokes: seq<Stroke>): set<int>
  {
    set s | s in strokes :: s.strokeId
  }
}

=== FILE: tile_cache.dfy ===
/** The tile cache of the page renderer (rendering/tileCache.ts): the page is cut into
    square tiles of `tileSize` pixels; an index maps each tile to the ids of the strokes
    whose pixel box reaches it, and each tile carries a dirty flag telling the renderer
    to redraw it. The tile canvases themselves are not modelled. */
module TileCache {
  import opened StrokeTypes
  import opened Coordinates

  /** The tile in column `x` and row `y`; stands for the string key "x,y". */
  datatype TileKey = TileKey(x: int, y: int)

  // ---------------------------------------------------------------------------
  // Tile geometry

  /** `a` comes before `b` when rows are walked top to bottom and each row left to right. */
  predicate RowMajorBefore(a: TileKey, b: TileKey)
  {
    a.y < b.y || (a.y == b.y && a.x < b.x)
  }

  /** Strictly increasing in row-major order: hence also free of repeats. */
  predicate RowMajor(ks: seq<TileKey>)
  {
    forall i, j :: 0 <= i < j < |ks| ==> RowMajorBefore(ks[i], ks[j])
  }

  /** Columns `x..endX` of row `y`. */
  function Row(y: int, x: int, endX: int): (r: seq<TileKey>)
    ensures forall k :: k in r <==> k.y == y && x <= k.x <= endX
    ensures RowMajor(r)
    decreases endX - x
  {
    if x > endX then [] else [TileKey(x, y)] + Row(y, x + 1, endX)
  }

  /** Rows `y..endY`, each from column `startX` to `endX`. */
  function Grid(y: int, endY: int, startX: int, endX: int): (r: seq<TileKey>)
    ensures forall k :: k in r <==> y <= k.y <= endY && startX <= k.x <= endX
    ensures RowMajor(r)
    decreases endY - y
  {
    if y > endY then []
    else
      var row := Row(y, startX, endX);
      var rest := Grid(y + 1, endY, startX, endX);
      assert forall i :: 0 <= i < |rest| ==> rest[i] in rest;
      row + rest
  }

  /** The tiles a pixel box touches: every column from the one holding `minX` to the one
      holding `maxX`, and likewise for rows; each once, row by row. */
  function TilesForBounds(boundsPx: Bounds, tileSize: real): (r: seq<TileKey>)
    requires 0.0 < tileSize
    ensures forall k :: k in r <==>
              (boundsPx.minX / tileSize).Floor <= k.x <= (boundsPx.maxX / tileSize).Floor
              && (boundsPx.minY / tileSize).Floor <= k.y <= (boundsPx.maxY / tileSize).Floor
    ensures RowMajor(r)
  {
    Grid((boundsPx.minY / tileSize).Floor, (boundsPx.maxY / tileSize).Floor,
         (boundsPx.minX / tileSize).Floor, (boundsPx.maxX / tileSize).Floor)
  }

  /** The pixel square a tile covers. */
  function TileBoundsPx(tileX: int, tileY: int, tileSize: real): (b: Bounds)
    ensures b.maxX - b.minX == tileSize && b.maxY - b.minY == tileSize
  {
    Bounds(tileX as real * tileSize, tileY as real * tileSize,
           (tileX + 1) as real * tileSize, (tileY + 1) as real * tileSize)
  }

  lemma DivideMonotone(a: real, b: real, t: real)
    requires 0.0 < t && a <= b
    ensures a / t <= b / t
  {
    assert b / t - a / t == (b - a) / t;
  }

  /** The tile column `floor(v / t)` spans the pixel `v`. */
  lemma FloorSpans(v: real, t: real)
    requires 0.0 < t
    ensures (v / t).Floor as real * t <= v
    ensures v < ((v / t).Floor + 1) as real * t
  {
    FloorSpansBelow(v, t);
    FloorSpansAbove(v, t);
  }

  lemma FloorSpansBelow(v: real, t: real)
    requires 0.0 < t
    ensures (v / t).Floor as real * t <= v
  {
    FloorBounds(v / t);
    QuotientTimes(v, t);
    MultiplyMonotone((v / t).Floor as real, v / t, t);
  }

  lemma FloorSpansAbove(v: real, t: real)
    requires 0.0 < t
    ensures v < ((v / t).Floor + 1) as real * t
  {
    FloorBounds(v / t);
    QuotientTimes(v, t);
    MultiplyStrict(v / t, ((v / t).Floor + 1) as real, t);
  }

  lemma FloorBounds(q: real)
    ensures q.Floor as real <= q < (q.Floor + 1) as real
  {
  }

  lemma QuotientTimes(v: real, t: real)
    requires 0.0 < t
    ensures (v / t) * t == v
  {
  }

  lemma MultiplyMonotone(a: real, b: real, t: real)
    requires 0.0 < t && a <= b
    ensures a * t <= b * t
  {
    assert b * t - a * t == (b - a) * t;
  }

  lemma MultiplyStrict(a: real, b: real, t: real)
    requires 0.0 < t && a < b
    ensures a * t < b * t
  {
    assert b * t - a * t == (b - a) * t;
  }

  /** Every pixel of a box lies in the square of one of the box's tiles: the tile whose
      column and row are the pixel's coordinates divided by the tile size, rounded down. */
  lemma TilesCoverBounds(boundsPx: Bounds, tileSize: real, px: real, py: real)
    requires 0.0 < tileSize && Contains(boundsPx, px, py)
    ensures TileKey((px / tileSize).Floor, (py / tileSize).Floor) in TilesForBounds(boundsPx, tileSize)
    ensures Contains(TileBoundsPx((px / tileSize).Floor, (py / tileSize).Floor, tileSize), px, py)
  {
    DivideMonotone(boundsPx.minX, px, tileSize);
    DivideMonotone(px, boundsPx.maxX, tileSize);
    DivideMonotone(boundsPx.minY, py, tileSize);
    DivideMonotone(py, boundsPx.maxY, tileSize);
    FloorSpans(px, tileSize);
    FloorSpans(py, tileSize);
  }

  // ---------------------------------------------------------------------------
  // The cache state

  /** The tile size in pixels and the page size footprints are computed with. */
  datatype Geometry = Geometry(tileSize: real, pageWidth: real, pageHeight: real)

  /** The tiles present with their dirty flags, the tile index, the strokes by id, and the
      geometry. */
  datatype Cache = Cache(
    tiles: map<TileKey, bool>,
    tileIndex: map<TileKey, set<int>>,
    strokeMap: map<int, Stroke>,
    geometry: Geometry)

  /** A cache with the same geometry and nothing in it. */
  function Cleared(c: Cache): Cache
  {
    Cache(map[], map[], map[], c.geometry)
  }

  /** The ids indexed under `k`; a missing entry reads as no ids. */
  function IdsAt(index: map<TileKey, set<int>>, k: TileKey): set<int>
  {
    if k in index then index[k] else {}
  }

  /** Every entry of the index holds at least one id. */
  predicate NoEmptyEntries(index: map<TileKey, set<int>>)
  {
    forall k :: k in index ==> index[k] != {}
  }

  /** Two indexes without empty entries that agree on every tile's ids are the same map. */
  lemma IndexExtensional(i1: map<TileKey, set<int>>, i2: map<TileKey, set<int>>)
    requires NoEmptyEntries(i1) && NoEmptyEntries(i2)
    requires forall k :: IdsAt(i1, k) == IdsAt(i2, k)
    ensures i1 == i2
  {
    forall k | k in i1 ensures k in i2 && i1[k] == i2[k] {
      assert IdsAt(i1, k) == IdsAt(i2, k);
    }
    forall k | k in i2 ensures k in i1 {
      assert IdsAt(i1, k) == IdsAt(i2, k);
    }
  }

  /** The tiles a stroke box reaches in this cache's geometry. */
  function Footprint(g: Geometry, b: Bounds): seq<TileKey>
    requires 0.0 < g.tileSize
  {
    TilesForBounds(StrokeBoundsPx(b, g.pageWidth, g.pageHeight), g.tileSize)
  }

  // ---------------------------------------------------------------------------
  // Tiles and dirty flags

  /** `ensureTile`: the tile map afterwards and the flag of the tile returned. A tile that
      exists is returned as it is; a missing one is created dirty. */
  function EnsureTile(tiles: map<TileKey, bool>, k: TileKey): (r: (map<TileKey, bool>, bool))
    ensures r.0.Keys == tiles.Keys + {k}
    ensures forall j :: j in tiles ==> r.0[j] == tiles[j]
    ensures r.0[k] == r.1 && (r.1 <==> k !in tiles || tiles[k])
  {
    if k in tiles then (tiles, tiles[k]) else (tiles[k := true], true)
  }

  lemma EnsureTileIdempotent(tiles: map<TileKey, bool>, k: TileKey)
    ensures EnsureTile(EnsureTile(tiles, k).0, k) == EnsureTile(tiles, k)
  {
  }

  /** `ensureTile(x, y).dirty = true` for each key in turn. */
  function MarkDirty(tiles: map<TileKey, bool>, keys: seq<TileKey>): (r: map<TileKey, bool>)
    decreases |keys|
    ensures forall k :: k in r <==> k in tiles || k in keys
    ensures forall k :: k in r ==> r[k] == (k in keys || tiles[k])
  {
    if |keys| == 0 then tiles
    else MarkDirty(EnsureTile(tiles, keys[0]).0[keys[0] := true], keys[1..])
  }

  /** `markTilesDirtyForBounds`. */
  function MarkTilesDirtyForBounds(c: Cache, b: Bounds): (r: Cache)
    requires 0.0 < c.geometry.tileSize
    ensures r.tileIndex == c.tileIndex && r.strokeMap == c.strokeMap
    ensures forall k :: k in Footprint(c.geometry, b) ==> k in r.tiles && r.tiles[k]
    ensures forall k :: k in c.tiles && k !in Footprint(c.geometry, b) ==> k in r.tiles && r.tiles[k] == c.tiles[k]
    ensures forall k :: k in r.tiles ==> k in c.tiles || k in Footprint(c.geometry, b)
  {
    c.(tiles := MarkDirty(c.tiles, Footprint(c.geometry, b)))
  }

  // ---------------------------------------------------------------------------
  // The tile index

  /** Adds `id` to the set of each key, creating sets as needed. */
  function AddId(index: map<TileKey, set<int>>, keys: seq<TileKey>, id: int): (r: map<TileKey, set<int>>)
    decreases |keys|
    ensures forall k :: IdsAt(r, k) == if k in keys then IdsAt(index, k) + {id} else IdsAt(index, k)
    ensures NoEmptyEntries(index) ==> NoEmptyEntries(r)
  {
    if |keys| == 0 then index
    else AddId(index[keys[0] := IdsAt(index, keys[0]) + {id}], keys[1..], id)
  }

  /** Deletes `id` from the set of each key, dropping sets that become empty. */
  function RemoveId(index: map<TileKey, set<int>>, keys: seq<TileKey>, id: int): (r: map<TileKey, set<int>>)
    decreases |keys|
    ensures forall k :: IdsAt(r, k) == if k in keys then IdsAt(index, k) - {id} else IdsAt(index, k)
    ensures NoEmptyEntries(index) ==> NoEmptyEntries(r)
  {
    if |keys| == 0 then index
    else if keys[0] in index then
      RemoveId(if index[keys[0]] - {id} == {} then index - {keys[0]} else index[keys[0] := index[keys[0]] - {id}],
               keys[1..], id)
    else RemoveId(index, keys[1..], id)
  }

  /** Indexes stroke `id` under every tile of box `b` and marks those tiles dirty. */
  function AddStroke(c: Cache, id: int, b: Bounds): (r: Cache)
    requires 0.0 < c.geometry.tileSize
    ensures r.geometry == c.geometry && r.strokeMap == c.strokeMap
    ensures forall k :: IdsAt(r.tileIndex, k)
                        == if k in Footprint(c.geometry, b) then IdsAt(c.tileIndex, k) + {id} else IdsAt(c.tileIndex, k)
    ensures NoEmptyEntries(c.tileIndex) ==> NoEmptyEntries(r.tileIndex)
    ensures forall k :: k in r.tiles <==> k in c.tiles || k in Footprint(c.geometry, b)
    ensures forall k :: k in r.tiles ==> r.tiles[k] == (k in Footprint(c.geometry, b) || c.tiles[k])
  {
    c.(tileIndex := AddId(c.tileIndex, Footprint(c.geometry, b), id), tiles := MarkDirty(c.tiles, Footprint(c.geometry, b)))
  }

  /** Unindexes stroke `id` from every tile of box `b` and marks those tiles dirty. */
  function RemoveStroke(c: Cache, id: int, b: Bounds): (r: Cache)
    requires 0.0 < c.geometry.tileSize
    ensures r.geometry == c.geometry && r.strokeMap == c.strokeMap
    ensures forall k :: IdsAt(r.tileIndex, k)
                        == if k in Footprint(c.geometry, b) then IdsAt(c.tileIndex, k) - {id} else IdsAt(c.tileIndex, k)
    ensures NoEmptyEntries(c.tileIndex) ==> NoEmptyEntries(r.tileIndex)
    ensures forall k :: k in r.tiles <==> k in c.tiles || k in Footprint(c.geometry, b)
    ensures forall k :: k in r.tiles ==> r.tiles[k] == (k in Footprint(c.geometry, b) || c.tiles[k])
  {
    c.(tileIndex := RemoveId(c.tileIndex, Footprint(c.geometry, b), id), tiles := MarkDirty(c.tiles, Footprint(c.geometry, b)))
  }

  // ---------------------------------------------------------------------------
  // Rebuilding from a stroke list

  /** Some stroke of `strokes` has `k` in its footprint. */
  predicate Reaches(g: Geometry, strokes: seq<Stroke>, k: TileKey)
    requires 0.0 < g.tileSize
  {
    exists s :: s in strokes && k in Footprint(g, s.bounds)
  }

  /** The ids of the strokes of `strokes` whose footprint holds `k`. */
  function IdsReaching(g: Geometry, strokes: seq<Stroke>, k: TileKey): set<int>
    requires 0.0 < g.tileSize
  {
    set s | s in strokes && k in Footprint(g, s.bounds) :: s.strokeId
  }

  /** Splitting off the last stroke of the list. */
  lemma ReachingSnoc(g: Geometry, strokes: seq<Stroke>, k: TileKey)
    requires 0.0 < g.tileSize && |strokes| > 0
    ensures IdsReaching(g, strokes, k)
            == IdsReaching(g, strokes[..|strokes| - 1], k)
               + (if k in Footprint(g, strokes[|strokes| - 1].bounds) then {strokes[|strokes| - 1].strokeId} else {})
    ensures Reaches(g, strokes, k)
            <==> Reaches(g, strokes[..|strokes| - 1], k) || k in Footprint(g, strokes[|strokes| - 1].bounds)
  {
    assert forall s :: s in strokes <==> s in strokes[..|strokes| - 1] || s == strokes[|strokes| - 1];
  }

  /** The strokes by id as `new Map(strokes.map(s => [s.strokeId, s]))` builds them: each
      stroke is set in turn, so a later stroke with the same id replaces an earlier one. */
  function MapOf(strokes: seq<Stroke>): (r: map<int, Stroke>)
    ensures forall s :: s in strokes ==> s.strokeId in r
    ensures forall id :: id in r ==> r[id] in strokes && r[id].strokeId == id
  {
    if |strokes| == 0 then map[]
    else
      var last := strokes[|strokes| - 1];
      assert forall s :: s in strokes <==> s in strokes[..|strokes| - 1] || s == last;
      MapOf(strokes[..|strokes| - 1])[last.strokeId := last]
  }

  /** With unique ids every stroke is the one its id maps to. */
  lemma {:induction false} MapOfUnique(strokes: seq<Stroke>)
    requires UniqueIds(strokes)
    ensures forall s :: s in strokes ==> MapOf(strokes)[s.strokeId] == s
  {
    if |strokes| > 0 {
      var n := |strokes| - 1;
      MapOfUnique(strokes[..n]);
      forall s | s in strokes ensures MapOf(strokes)[s.strokeId] == s {
        if s != strokes[n] {
          var j :| 0 <= j < |strokes| && strokes[j] == s;
          assert j < n && s in strokes[..n];
        }
      }
    }
  }

  /** One turn of the `rebuildFromStrokes` loop. */
  function RebuildStep(c: Cache, s: Stroke): (r: Cache)
    requires 0.0 < c.geometry.tileSize
    ensures r.geometry == c.geometry
  {
    AddStroke(c.(strokeMap := c.strokeMap[s.strokeId := s]), s.strokeId, s.bounds)
  }

  /** The loop of `rebuildFromStrokes` over `strokes`, on the cache as it stands. */
  function RebuildFrom(c: Cache, strokes: seq<Stroke>): (r: Cache)
    requires 0.0 < c.geometry.tileSize
    ensures r.geometry == c.geometry
  {
    if |strokes| == 0 then c
    else RebuildStep(RebuildFrom(c, strokes[..|strokes| - 1]), strokes[|strokes| - 1])
  }

  lemma {:induction false} RebuildFromStrokeMap(strokes: seq<Stroke>, g: Geometry)
    requires 0.0 < g.tileSize
    ensures RebuildFrom(Cache(map[], map[], map[], g), strokes).strokeMap == MapOf(strokes)
  {
    if |strokes| > 0 {
      RebuildFromStrokeMap(strokes[..|strokes| - 1], g);
    }
  }

  lemma {:induction false} RebuildFromIndex(c: Cache, strokes: seq<Stroke>)
    requires 0.0 < c.geometry.tileSize
    ensures forall k :: IdsAt(RebuildFrom(c, strokes).tileIndex, k)
                        == IdsAt(c.tileIndex, k) + IdsReaching(c.geometry, strokes, k)
    ensures NoEmptyEntries(c.tileIndex) ==> NoEmptyEntries(RebuildFrom(c, strokes).tileIndex)
  {
    if |strokes| > 0 {
      RebuildFromIndex(c, strokes[..|strokes| - 1]);
      forall k ensures IdsReaching(c.geometry, strokes, k)
                       == IdsReaching(c.geometry, strokes[..|strokes| - 1], k)
                          + (if k in Footprint(c.geometry, strokes[|strokes| - 1].bounds)
                             then {strokes[|strokes| - 1].strokeId} else {})
      {
        ReachingSnoc(c.geometry, strokes, k);
      }
    }
  }

  lemma {:induction false} RebuildFromTiles(c: Cache, strokes: seq<Stroke>)
    requires 0.0 < c.geometry.tileSize
    ensures forall k :: k in RebuildFrom(c, strokes).tiles <==> k in c.tiles || Reaches(c.geometry, strokes, k)
    ensures forall k :: k in RebuildFrom(c, strokes).tiles
              ==> RebuildFrom(c, strokes).tiles[k] == (Reaches(c.geometry, strokes, k) || c.tiles[k])
  {
    if |strokes| > 0 {
      RebuildFromTiles(c, strokes[..|strokes| - 1]);
      forall k ensures Reaches(c.geometry, strokes, k)
                       <==> Reaches(c.geometry, strokes[..|strokes| - 1], k)
                            || k in Footprint(c.geometry, strokes[|strokes| - 1].bounds)
      {
        ReachingSnoc(c.geometry, strokes, k);
      }
    }
  }

  /** `rebuildFromStrokes`: afterwards a tile's ids are exactly the strokes whose footprint
      holds it, the tiles are exactly those footprints and all are dirty, and the stroke
      map is the list keyed by id. */
  function RebuildFromStrokes(c: Cache, strokes: seq<Stroke>): (r: Cache)
    requires 0.0 < c.geometry.tileSize
    ensures r.geometry == c.geometry
    ensures r.strokeMap == MapOf(strokes)
    ensures forall k :: IdsAt(r.tileIndex, k) == IdsReaching(c.geometry, strokes, k)
    ensures NoEmptyEntries(r.tileIndex)
    ensures forall k :: k in r.tiles <==> Reaches(c.geometry, strokes, k)
    ensures forall k :: k in r.tiles ==> r.tiles[k]
  {
    RebuildFromStrokeMap(strokes, c.geometry);
    RebuildFromIndex(Cleared(c), strokes);
    RebuildFromTiles(Cleared(c), strokes);
    RebuildFrom(Cleared(c), strokes)
  }

  // ---------------------------------------------------------------------------
  // Applying a diff between two stroke lists

  /** The ids of `strokes` in order of first occurrence, each once: the key order of the
      Map built from the list. */
  function IdOrder(strokes: seq<Stroke>): (r: seq<int>)
    ensures forall id :: id in r <==> id in MapOf(strokes)
    ensures forall i, j :: 0 <= i < j < |r| ==> r[i] != r[j]
  {
    if |strokes| == 0 then []
    else
      var last := strokes[|strokes| - 1];
      var prefix := IdOrder(strokes[..|strokes| - 1]);
      if last.strokeId in prefix then prefix else prefix + [last.strokeId]
  }

  /** The ids among `ids` that are absent from `other` and whose stroke in `from` reaches `k`. */
  function Moved(g: Geometry, ids: seq<int>, from: map<int, Stroke>, other: map<int, Stroke>, k: TileKey): set<int>
    requires 0.0 < g.tileSize && forall id :: id in ids ==> id in from
  {
    set id | id in ids && id !in other && k in Footprint(g, from[id].bounds)
  }

  /** Some id among `ids` is absent from `other` and its stroke in `from` reaches `k`. */
  predicate MovedThrough(g: Geometry, ids: seq<int>, from: map<int, Stroke>, other: map<int, Stroke>, k: TileKey)
    requires 0.0 < g.tileSize && forall id :: id in ids ==> id in from
  {
    exists id :: id in ids && id !in other && k in Footprint(g, from[id].bounds)
  }

  lemma MovedCons(g: Geometry, ids: seq<int>, from: map<int, Stroke>, other: map<int, Stroke>, k: TileKey)
    requires 0.0 < g.tileSize && |ids| > 0 && forall id :: id in ids ==> id in from
    ensures Moved(g, ids, from, other, k)
            == (if ids[0] !in other && k in Footprint(g, from[ids[0]].bounds) then {ids[0]} else {})
               + Moved(g, ids[1..], from, other, k)
    ensures MovedThrough(g, ids, from, other, k)
            <==> (ids[0] !in other && k in Footprint(g, from[ids[0]].bounds)) || MovedThrough(g, ids[1..], from, other, k)
  {
    assert forall id :: id in ids <==> id == ids[0] || id in ids[1..];
  }

  /** The first loop of `applyStrokeDiff`: each id of `before` missing from `after` is
      unindexed from the tiles of its old stroke, and those tiles are marked dirty. */
  function RemoveAll(c: Cache, ids: seq<int>, before: map<int, Stroke>, after: map<int, Stroke>): (r: Cache)
    requires 0.0 < c.geometry.tileSize && forall id :: id in ids ==> id in before
    ensures r.geometry == c.geometry && r.strokeMap == c.strokeMap
    decreases |ids|
  {
    if |ids| == 0 then c
    else RemoveAll(if ids[0] in after then c else RemoveStroke(c, ids[0], before[ids[0]].bounds),
                   ids[1..], before, after)
  }

  /** The second loop of `applyStrokeDiff`: each id of `after` missing from `before` is
      indexed under the tiles of its new stroke, and those tiles are marked dirty. */
  function AddAll(c: Cache, ids: seq<int>, after: map<int, Stroke>, before: map<int, Stroke>): (r: Cache)
    requires 0.0 < c.geometry.tileSize && forall id :: id in ids ==> id in after
    ensures r.geometry == c.geometry && r.strokeMap == c.strokeMap
    decreases |ids|
  {
    if |ids| == 0 then c
    else AddAll(if ids[0] in before then c else AddStroke(c, ids[0], after[ids[0]].bounds),
                ids[1..], after, before)
  }

  lemma {:induction false} RemoveAllIndex(c: Cache, ids: seq<int>, before: map<int, Stroke>, after: map<int, Stroke>)
    requires 0.0 < c.geometry.tileSize && forall id :: id in ids ==> id in before
    ensures forall k :: IdsAt(RemoveAll(c, ids, before, after).tileIndex, k)
                        == IdsAt(c.tileIndex, k) - Moved(c.geometry, ids, before, after, k)
    ensures NoEmptyEntries(c.tileIndex) ==> NoEmptyEntries(RemoveAll(c, ids, before, after).tileIndex)
    decreases |ids|
  {
    if |ids| > 0 {
      var next := if ids[0] in after then c else RemoveStroke(c, ids[0], before[ids[0]].bounds);
      RemoveAllIndex(next, ids[1..], before, after);
      forall k ensures Moved(c.geometry, ids, before, after, k)
                       == (if ids[0] !in after && k in Footprint(c.geometry, before[ids[0]].bounds) then {ids[0]} else {})
                          + Moved(c.geometry, ids[1..], before, after, k)
      {
        MovedCons(c.geometry, ids, before, after, k);
      }
    }
  }

  lemma {:induction false} AddAllIndex(c: Cache, ids: seq<int>, after: map<int, Stroke>, before: map<int, Stroke>)
    requires 0.0 < c.geometry.tileSize && forall id :: id in ids ==> id in after
    ensures forall k :: IdsAt(AddAll(c, ids, after, before).tileIndex, k)
                        == IdsAt(c.tileIndex, k) + Moved(c.geometry, ids, after, before, k)
    ensures NoEmptyEntries(c.tileIndex) ==> NoEmptyEntries(AddAll(c, ids, after, before).tileIndex)
    decreases |ids|
  {
    if |ids| > 0 {
      var next := if ids[0] in before then c else AddStroke(c, ids[0], after[ids[0]].bounds);
      AddAllIndex(next, ids[1..], after, before);
      forall k ensures Moved(c.geometry, ids, after, before, k)
                       == (if ids[0] !in before && k in Footprint(c.geometry, after[ids[0]].bounds) then {ids[0]} else {})
                          + Moved(c.geometry, ids[1..], after, before, k)
      {
        MovedCons(c.geometry, ids, after, before, k);
      }
    }
  }

  lemma {:induction false} RemoveAllTiles(c: Cache, ids: seq<int>, before: map<int, Stroke>, after: map<int, Stroke>)
    requires 0.0 < c.geometry.tileSize && forall id :: id in ids ==> id in before
    ensures forall k :: k in RemoveAll(c, ids, before, after).tiles
                        <==> k in c.tiles || MovedThrough(c.geometry, ids, before, after, k)
    ensures forall k :: k in RemoveAll(c, ids, before, after).tiles
              ==> RemoveAll(c, ids, before, after).tiles[k] == (MovedThrough(c.geometry, ids, before, after, k) || c.tiles[k])
    decreases |ids|
  {
    if |ids| > 0 {
      var next := if ids[0] in after then c else RemoveStroke(c, ids[0], before[ids[0]].bounds);
      RemoveAllTiles(next, ids[1..], before, after);
      forall k ensures MovedThrough(c.geometry, ids, before, after, k)
                       <==> (ids[0] !in after && k in Footprint(c.geometry, before[ids[0]].bounds))
                            || MovedThrough(c.geometry, ids[1..], before, after, k)
      {
        MovedCons(c.geometry, ids, before, after, k);
      }
    }
  }

  lemma {:induction false} AddAllTiles(c: Cache, ids: seq<int>, after: map<int, Stroke>, before: map<int, Stroke>)
    requires 0.0 < c.geometry.tileSize && forall id :: id in ids ==> id in after
    ensures forall k :: k in AddAll(c, ids, after, before).tiles
                        <==> k in c.tiles || MovedThrough(c.geometry, ids, after, before, k)
    ensures forall k :: k in AddAll(c, ids, after, before).tiles
              ==> AddAll(c, ids, after, before).tiles[k] == (MovedThrough(c.geometry, ids, after, before, k) || c.tiles[k])
    decreases |ids|
  {
    if |ids| > 0 {
      var next := if ids[0] in before then c else AddStroke(c, ids[0], after[ids[0]].bounds);
      AddAllTiles(next, ids[1..], after, before);
      forall k ensures MovedThrough(c.geometry, ids, after, before, k)
                       <==> (ids[0] !in before && k in Footprint(c.geometry, after[ids[0]].bounds))
                            || MovedThrough(c.geometry, ids[1..], after, before, k)
      {
        MovedCons(c.geometry, ids, after, before, k);
      }
    }
  }

  /** `applyStrokeDiff`: strokes are matched by id only. */
  function ApplyStrokeDiff(c: Cache, before: seq<Stroke>, after: seq<Stroke>): (r: Cache)
    requires 0.0 < c.geometry.tileSize
    ensures r.geometry == c.geometry
  {
    var removed := RemoveAll(c, IdOrder(before), MapOf(before), MapOf(after));
    AddAll(removed, IdOrder(after), MapOf(after), MapOf(before)).(strokeMap := MapOf(after))
  }

  /** The ids of `from` absent from `other` whose stroke in `from` reaches `k`. */
  function Exclusive(g: Geometry, from: map<int, Stroke>, other: map<int, Stroke>, k: TileKey): set<int>
    requires 0.0 < g.tileSize
  {
    set id | id in from && id !in other && k in Footprint(g, from[id].bounds)
  }

  /** Some id of `from` absent from `other` has a stroke in `from` reaching `k`. */
  predicate ExclusiveReaches(g: Geometry, from: map<int, Stroke>, other: map<int, Stroke>, k: TileKey)
    requires 0.0 < g.tileSize
  {
    exists id :: id in from && id !in other && k in Footprint(g, from[id].bounds)
  }

  lemma MovedInIdOrder(g: Geometry, strokes: seq<Stroke>, other: map<int, Stroke>, k: TileKey)
    requires 0.0 < g.tileSize
    ensures Moved(g, IdOrder(strokes), MapOf(strokes), other, k) == Exclusive(g, MapOf(strokes), other, k)
    ensures MovedThrough(g, IdOrder(strokes), MapOf(strokes), other, k)
            <==> ExclusiveReaches(g, MapOf(strokes), other, k)
  {
  }

  /** After `applyStrokeDiff(before, after)` a tile's ids are its old ids, less the ids
      only in `before` whose old stroke reaches it, plus the ids only in `after` whose new
      stroke reaches it; the index keeps no empty entry; the stroke map is `after` by id. */
  lemma ApplyStrokeDiffIndex(c: Cache, before: seq<Stroke>, after: seq<Stroke>)
    requires 0.0 < c.geometry.tileSize
    ensures forall k :: IdsAt(ApplyStrokeDiff(c, before, after).tileIndex, k)
                        == (IdsAt(c.tileIndex, k) - Exclusive(c.geometry, MapOf(before), MapOf(after), k))
                           + Exclusive(c.geometry, MapOf(after), MapOf(before), k)
    ensures NoEmptyEntries(c.tileIndex) ==> NoEmptyEntries(ApplyStrokeDiff(c, before, after).tileIndex)
    ensures ApplyStrokeDiff(c, before, after).strokeMap == MapOf(after)
  {
    var bm, am := MapOf(before), MapOf(after);
    var removed := RemoveAll(c, IdOrder(before), bm, am);
    RemoveAllIndex(c, IdOrder(before), bm, am);
    AddAllIndex(removed, IdOrder(after), am, bm);
    forall k ensures Moved(c.geometry, IdOrder(before), bm, am, k) == Exclusive(c.geometry, bm, am, k)
             ensures Moved(c.geometry, IdOrder(after), am, bm, k) == Exclusive(c.geometry, am, bm, k)
    {
      MovedInIdOrder(c.geometry, before, am, k);
      MovedInIdOrder(c.geometry, after, bm, k);
    }
  }

  /** After `applyStrokeDiff` the tiles are the old ones plus every tile reached by a
      removed or added stroke; exactly those are newly dirty, the rest keep their flag. */
  lemma ApplyStrokeDiffTiles(c: Cache, before: seq<Stroke>, after: seq<Stroke>)
    requires 0.0 < c.geometry.tileSize
    ensures forall k :: k in ApplyStrokeDiff(c, before, after).tiles
              <==> k in c.tiles || ExclusiveReaches(c.geometry, MapOf(before), MapOf(after), k)
                   || ExclusiveReaches(c.geometry, MapOf(after), MapOf(before), k)
    ensures forall k :: k in ApplyStrokeDiff(c, before, after).tiles
              ==> ApplyStrokeDiff(c, before, after).tiles[k]
                  == (ExclusiveReaches(c.geometry, MapOf(before), MapOf(after), k)
                      || ExclusiveReaches(c.geometry, MapOf(after), MapOf(before), k) || c.tiles[k])
  {
    var bm, am := MapOf(before), MapOf(after);
    var removed := RemoveAll(c, IdOrder(before), bm, am);
    RemoveAllTiles(c, IdOrder(before), bm, am);
    AddAllTiles(removed, IdOrder(after), am, bm);
    forall k ensures MovedThrough(c.geometry, IdOrder(before), bm, am, k) <==> ExclusiveReaches(c.geometry, bm, am, k)
             ensures MovedThrough(c.geometry, IdOrder(after), am, bm, k) <==> ExclusiveReaches(c.geometry, am, bm, k)
    {
      MovedInIdOrder(c.geometry, before, am, k);
      MovedInIdOrder(c.geometry, after, bm, k);
    }
  }

  /** An id present in both lists is neither unindexed nor reindexed, even when its stroke
      changed shape between them. */
  lemma DiffLeavesCommonIds(c: Cache, before: seq<Stroke>, after: seq<Stroke>, id: int, k: TileKey)
    requires 0.0 < c.geometry.tileSize
    requires id in MapOf(before) && id in MapOf(after)
    ensures id in IdsAt(ApplyStrokeDiff(c, before, after).tileIndex, k) <==> id in IdsAt(c.tileIndex, k)
  {
    ApplyStrokeDiffIndex(c, before, after);
  }

  /** With unique ids, rebuilding from a list leaves the cache exactly as applying the diff
      from the empty list to it on a cleared cache does. */
  lemma RebuildIsDiffFromEmpty(c: Cache, strokes: seq<Stroke>)
    requires 0.0 < c.geometry.tileSize && UniqueIds(strokes)
    ensures RebuildFromStrokes(c, strokes) == ApplyStrokeDiff(Cleared(c), [], strokes)
  {
    MapOfUnique(strokes);
    RebuildDiffSameIndex(c, strokes);
    RebuildDiffSameTiles(c, strokes);
    ApplyStrokeDiffIndex(Cleared(c), [], strokes);
  }

  lemma RebuildDiffSameIndex(c: Cache, strokes: seq<Stroke>)
    requires 0.0 < c.geometry.tileSize && forall s :: s in strokes ==> MapOf(strokes)[s.strokeId] == s
    ensures RebuildFromStrokes(c, strokes).tileIndex == ApplyStrokeDiff(Cleared(c), [], strokes).tileIndex
  {
    ApplyStrokeDiffIndex(Cleared(c), [], strokes);
    assert MapOf([]) == map[];
    forall k ensures IdsReaching(c.geometry, strokes, k) == Exclusive(c.geometry, MapOf(strokes), map[], k) {
      SameReach(c.geometry, strokes, k);
    }
    IndexExtensional(RebuildFromStrokes(c, strokes).tileIndex, ApplyStrokeDiff(Cleared(c), [], strokes).tileIndex);
  }

  lemma RebuildDiffSameTiles(c: Cache, strokes: seq<Stroke>)
    requires 0.0 < c.geometry.tileSize && forall s :: s in strokes ==> MapOf(strokes)[s.strokeId] == s
    ensures RebuildFromStrokes(c, strokes).tiles == ApplyStrokeDiff(Cleared(c), [], strokes).tiles
  {
    var g, e := c.geometry, Cleared(c);
    var r, d := RebuildFromStrokes(c, strokes), ApplyStrokeDiff(e, [], strokes);
    DiffFromNothingTiles(e, strokes);
    forall k ensures k in r.tiles <==> k in d.tiles {
      SameReachTiles(g, strokes, k);
    }
    AllDirtyEqual(r.tiles, d.tiles);
  }

  /** Two tile maps that mark every present key dirty are equal once their keys agree. */
  lemma AllDirtyEqual(a: map<TileKey, bool>, b: map<TileKey, bool>)
    requires forall k :: k in a <==> k in b
    requires forall k :: k in a ==> a[k]
    requires forall k :: k in b ==> b[k]
    ensures a == b
  {
    assert a.Keys == b.Keys;
  }

  /** Diffing from no strokes onto an empty tile map marks exactly the tiles the new strokes reach. */
  lemma DiffFromNothingTiles(c: Cache, after: seq<Stroke>)
    requires 0.0 < c.geometry.tileSize && c.tiles == map[]
    ensures forall k :: k in ApplyStrokeDiff(c, [], after).tiles <==> ExclusiveReaches(c.geometry, MapOf(after), map[], k)
    ensures forall k :: k in ApplyStrokeDiff(c, [], after).tiles ==> ApplyStrokeDiff(c, [], after).tiles[k]
  {
    ApplyStrokeDiffTiles(c, [], after);
    var none: seq<Stroke> := [];
    assert MapOf(none) == map[];
  }

  lemma SameReach(g: Geometry, strokes: seq<Stroke>, k: TileKey)
    requires 0.0 < g.tileSize && forall s :: s in strokes ==> MapOf(strokes)[s.strokeId] == s
    ensures IdsReaching(g, strokes, k) == Exclusive(g, MapOf(strokes), map[], k)
    ensures Reaches(g, strokes, k) <==> ExclusiveReaches(g, MapOf(strokes), map[], k)
  {
    SameReachIds(g, strokes, k);
    SameReachTiles(g, strokes, k);
  }

  lemma SameReachIds(g: Geometry, strokes: seq<Stroke>, k: TileKey)
    requires 0.0 < g.tileSize && forall s :: s in strokes ==> MapOf(strokes)[s.strokeId] == s
    ensures IdsReaching(g, strokes, k) == Exclusive(g, MapOf(strokes), map[], k)
  {
    forall id | id in Exclusive(g, MapOf(strokes), map[], k) ensures id in IdsReaching(g, strokes, k) {
      assert MapOf(strokes)[id] in strokes;
    }
  }

  lemma SameReachTiles(g: Geometry, strokes: seq<Stroke>, k: TileKey)
    requires 0.0 < g.tileSize && forall s :: s in strokes ==> MapOf(strokes)[s.strokeId] == s
    ensures Reaches(g, strokes, k) <==> ExclusiveReaches(g, MapOf(strokes), map[], k)
  {
    if Reaches(g, strokes, k) {
      var s :| s in strokes && k in Footprint(g, s.bounds);
      assert MapOf(strokes)[s.strokeId] == s;
    }
    if ExclusiveReaches(g, MapOf(strokes), map[], k) {
      var id :| id in MapOf(strokes) && k in Footprint(g, MapOf(strokes)[id].bounds);
      assert MapOf(strokes)[id] in strokes;
    }
  }

  /** A stroke at box `b` with id 7: two of these with different boxes share an id. */
  function SameIdStroke(b: Bounds): Stroke
  {
    Stroke(7, Pen, 0, 1.0, b, [])
  }

  /** With a repeated id the two disagree: rebuilding indexes the footprint of every copy,
      the diff only that of the last copy. */
  lemma DuplicateIdsBreakRebuildAgreement()
    ensures RebuildFromStrokes(Cache(map[], map[], map[], Geometry(1.0, 1.0, 1.0)),
                               [SameIdStroke(Bounds(0.0, 0.0, 0.0, 0.0)), SameIdStroke(Bounds(5.0, 5.0, 5.0, 5.0))])
            != ApplyStrokeDiff(Cache(map[], map[], map[], Geometry(1.0, 1.0, 1.0)), [],
                               [SameIdStroke(Bounds(0.0, 0.0, 0.0, 0.0)), SameIdStroke(Bounds(5.0, 5.0, 5.0, 5.0))])
  {
    var g := Geometry(1.0, 1.0, 1.0);
    var c := Cache(map[], map[], map[], g);
    var s1, s2 := SameIdStroke(Bounds(0.0, 0.0, 0.0, 0.0)), SameIdStroke(Bounds(5.0, 5.0, 5.0, 5.0));
    var strokes := [s1, s2];
    assert TileKey(0, 0) in Footprint(g, s1.bounds);
    assert TileKey(0, 0) !in Footprint(g, s2.bounds);
    assert s1 in strokes;
    assert 7 in IdsReaching(g, strokes, TileKey(0, 0));
    ApplyStrokeDiffIndex(c, [], strokes);
    assert MapOf(strokes)[7] == s2;
    assert 7 !in Exclusive(g, MapOf(strokes), MapOf([]), TileKey(0, 0));
  }

  // ---------------------------------------------------------------------------
  // Redrawing

  /** `renderTile`, for the dirty flag: with a drawing context and at least one indexed
      stroke the tile is redrawn and becomes clean; otherwise it is left as it was. */
  function RenderTile(c: Cache, k: TileKey, hasContext: bool): (r: Cache)
    requires k in c.tiles
    ensures r.tileIndex == c.tileIndex && r.strokeMap == c.strokeMap && r.geometry == c.geometry
    ensures r.tiles.Keys == c.tiles.Keys
    ensures forall j :: j in c.tiles && j != k ==> r.tiles[j] == c.tiles[j]
    ensures !r.tiles[k] <==> !c.tiles[k] || (hasContext && IdsAt(c.tileIndex, k) != {})
  {
    if !hasContext then c
    else if IdsAt(c.tileIndex, k) == {} then c
    else c.(tiles := c.tiles[k := false])
  }

  /** The tile loop of `drawToCanvas` over the keys `order`: every dirty tile is rendered. */
  function DrawTiles(c: Cache, order: seq<TileKey>): (r: Cache)
    requires forall k :: k in order ==> k in c.tiles
    ensures r.tileIndex == c.tileIndex && r.strokeMap == c.strokeMap && r.geometry == c.geometry
    ensures r.tiles.Keys == c.tiles.Keys
    decreases |order|
  {
    if |order| == 0 then c
    else DrawTiles(if c.tiles[order[0]] then RenderTile(c, order[0], true) else c, order[1..])
  }

  lemma {:induction false} DrawTilesFlags(c: Cache, order: seq<TileKey>)
    requires forall k :: k in order ==> k in c.tiles
    ensures forall k :: k in c.tiles ==>
              DrawTiles(c, order).tiles[k] == (c.tiles[k] && (k in order ==> IdsAt(c.tileIndex, k) == {}))
    decreases |order|
  {
    if |order| > 0 {
      var next := if c.tiles[order[0]] then RenderTile(c, order[0], true) else c;
      DrawTilesFlags(next, order[1..]);
      assert forall k :: k in order <==> k == order[0] || k in order[1..];
    }
  }

  /** `drawToCanvas`, for the dirty flags. `order` is the key order of the tile map, which
      visits every tile. Without a drawing context nothing happens; otherwise a tile stays
      dirty exactly when it was dirty and no stroke is indexed under it. */
  function DrawToCanvas(c: Cache, order: seq<TileKey>, hasContext: bool): (r: Cache)
    requires forall k :: k in order <==> k in c.tiles
    ensures !hasContext ==> r == c
    ensures r.tileIndex == c.tileIndex && r.strokeMap == c.strokeMap && r.tiles.Keys == c.tiles.Keys
    ensures hasContext ==> forall k :: k in c.tiles ==> r.tiles[k] == (c.tiles[k] && IdsAt(c.tileIndex, k) == {})
  {
    if !hasContext then c
    else
      DrawTilesFlags(c, order);
      DrawTiles(c, order)
  }
}

=== FILE: tool_settings.dfy ===
/** Per-tool rendering parameters (tools/toolSettings.ts). */
module ToolSettings {
  import opened StrokeTypes

  datatype Settings = Settings(
    toolFactor: real,
    pressureGamma: real,
    velocityK: real,
    usePressureForWidth: bool,
    useVelocity: bool)

  /** The highlighter ignores pressure and speed; the marker is thinner and more speed
      sensitive than the pen. Every other tool, the eraser included, takes the pen's
      settings. */
  function GetToolSettings(tool: ToolType): (r: Settings)
    ensures tool == Highlighter <==> !r.useVelocity
    ensures tool == Highlighter <==> !r.usePressureForWidth
    ensures tool == Highlighter ==> r == Settings(1.0, 0.6, 0.0, false, false)
    ensures tool == Marker ==> r == Settings(0.8, 0.85, 0.006, true, true)
    ensures tool == Pen || tool == Eraser ==> r == Settings(1.0, 0.6, 0.003, true, true)
  {
    match tool
    case Highlighter => Settings(1.0, 0.6, 0.0, false, false)
    case Marker => Settings(0.8, 0.85, 0.006, true, true)
    case _ => Settings(1.0, 0.6, 0.003, true, true)
  }

  /** Every tool has a positive width factor, a positive gamma and a non-negative
      speed coefficient; the eraser is configured exactly like the pen. */
  lemma ToolSettingsInRange(tool: ToolType)
    ensures var s := GetToolSettings(tool);
            0.0 < s.toolFactor <= 1.0 && 0.0 < s.pressureGamma && 0.0 <= s.velocityK
    ensures GetToolSettings(Eraser) == GetToolSettings(Pen)
  {
  }
}

=== FILE: undo_redo.dfy ===
/** The undo/redo log of the editor (hooks/useUndoRedo.ts): two stacks of commands, each
    holding the stroke list before and after an edit, plus the two counters the UI shows. */
module UndoRedo {
  import opened Wrappers
  import opened StrokeTypes

  datatype UndoCommand = UndoCommand(before: seq<Stroke>, after: seq<Stroke>)

  /** The stacks grow at the end; `undoCount` and `redoCount` are the separately stored
      counters. */
  datatype History = History(
    undoStack: seq<UndoCommand>,
    redoStack: seq<UndoCommand>,
    undoCount: int,
    redoCount: int)

  function Empty(): History
  {
    History([], [], 0, 0)
  }

  /** The counters agree with the stacks. */
  predicate Consistent(h: History)
  {
    h.undoCount == |h.undoStack| && h.redoCount == |h.redoStack|
  }

  /** `pushCommand`: records a new edit on top of the undo stack and forgets every undone
      edit. The counters are set from the stacks, so the result is consistent whatever
      the counters were before. */
  function PushCommand(h: History, before: seq<Stroke>, after: seq<Stroke>): (r: History)
    ensures Consistent(r)
    ensures |r.undoStack| == |h.undoStack| + 1 && r.undoStack[..|h.undoStack|] == h.undoStack
    ensures r.undoStack[|r.undoStack| - 1] == UndoCommand(before, after)
    ensures r.redoStack == []
  {
    History(h.undoStack + [UndoCommand(before, after)], [], |h.undoStack| + 1, 0)
  }

  /** `undo`: with an empty undo stack it returns no strokes and changes nothing;
      otherwise the top command moves to the redo stack and its `before` list is returned. */
  function Undo(h: History): (r: (History, Option<seq<Stroke>>))
    ensures r.1.None? <==> |h.undoStack| == 0
    ensures r.1.None? ==> r.0 == h
    ensures r.1.Some? ==>
              r.1.value == h.undoStack[|h.undoStack| - 1].before
              && r.0.undoStack == h.undoStack[..|h.undoStack| - 1]
              && r.0.redoStack == h.redoStack + [h.undoStack[|h.undoStack| - 1]]
              && Consistent(r.0)
  {
    if |h.undoStack| == 0 then (h, None)
    else
      var cmd := h.undoStack[|h.undoStack| - 1];
      var undoStack := h.undoStack[..|h.undoStack| - 1];
      var redoStack := h.redoStack + [cmd];
      (History(undoStack, redoStack, |undoStack|, |redoStack|), Some(cmd.before))
  }

  /** `redo`: with an empty redo stack it returns no strokes and changes nothing;
      otherwise the top undone command moves back to the undo stack and its `after` list
      is returned. */
  function Redo(h: History): (r: (History, Option<seq<Stroke>>))
    ensures r.1.None? <==> |h.redoStack| == 0
    ensures r.1.None? ==> r.0 == h
    ensures r.1.Some? ==>
              r.1.value == h.redoStack[|h.redoStack| - 1].after
              && r.0.redoStack == h.redoStack[..|h.redoStack| - 1]
              && r.0.undoStack == h.undoStack + [h.redoStack[|h.redoStack| - 1]]
              && Consistent(r.0)
  {
    if |h.redoStack| == 0 then (h, None)
    else
      var cmd := h.redoStack[|h.redoStack| - 1];
      var redoStack := h.redoStack[..|h.redoStack| - 1];
      var undoStack := h.undoStack + [cmd];
      (History(undoStack, redoStack, |undoStack|, |redoStack|), Some(cmd.after))
  }

  /** Every operation keeps the counters equal to the stack lengths. */
  lemma OperationsKeepCounters(h: History, before: seq<Stroke>, after: seq<Stroke>)
    requires Consistent(h)
    ensures Consistent(PushCommand(h, before, after))
    ensures Consistent(Undo(h).0) && Consistent(Redo(h).0)
  {
  }

  /** Undoing a fresh edit returns the strokes from before it; redoing it then returns the
      strokes from after it and restores the history the edit produced. */
  lemma PushUndoRedo(h: History, before: seq<Stroke>, after: seq<Stroke>)
    ensures Undo(PushCommand(h, before, after)).1 == Some(before)
    ensures Redo(Undo(PushCommand(h, before, after)).0).1 == Some(after)
    ensures Redo(Undo(PushCommand(h, before, after)).0).0 == PushCommand(h, before, after)
  {
    var pushed := PushCommand(h, before, after);
    assert pushed.undoStack[..|pushed.undoStack| - 1] + [pushed.undoStack[|pushed.undoStack| - 1]]
           == pushed.undoStack;
  }

  /** On a consistent history, redo undoes an undo and undo undoes a redo. */
  lemma UndoRedoInverse(h: History)
    requires Consistent(h)
    ensures |h.undoStack| > 0 ==> Redo(Undo(h).0).0 == h
    ensures |h.redoStack| > 0 ==> Undo(Redo(h).0).0 == h
  {
    if |h.undoStack| > 0 {
      assert h.undoStack[..|h.undoStack| - 1] + [h.undoStack[|h.undoStack| - 1]] == h.undoStack;
    }
    if |h.redoStack| > 0 {
      assert h.redoStack[..|h.redoStack| - 1] + [h.redoStack[|h.redoStack| - 1]] == h.redoStack;
    }
  }

  /** Undo and redo only move commands between the stacks: together the stacks hold the
      same commands, with the redo stack reversed onto the undo stack. */
  lemma UndoRedoKeepCommands(h: History)
    ensures Undo(h).0.undoStack + Reversed(Undo(h).0.redoStack) == h.undoStack + Reversed(h.redoStack)
    ensures Redo(h).0.undoStack + Reversed(Redo(h).0.redoStack) == h.undoStack + Reversed(h.redoStack)
  {
    if |h.undoStack| > 0 {
      var n := |h.undoStack| - 1;
      ReversedSnoc(h.redoStack, h.undoStack[n]);
      assert h.undoStack[..n] + ([h.undoStack[n]] + Reversed(h.redoStack)) == h.undoStack + Reversed(h.redoStack);
    }
    if |h.redoStack| > 0 {
      var n := |h.redoStack| - 1;
      ReversedSnoc(h.redoStack[..n], h.redoStack[n]);
      assert h.redoStack[..n] + [h.redoStack[n]] == h.redoStack;
    }
  }

  function Reversed<T>(s: seq<T>): (r: seq<T>)
    ensures |r| == |s|
  {
    if |s| == 0 then [] else Reversed(s[1..]) + [s[0]]
  }

  lemma {:induction false} ReversedSnoc<T>(s: seq<T>, x: T)
    ensures Reversed(s + [x]) == [x] + Reversed(s)
  {
    if |s| == 0 {
      assert s + [x] == [x];
      assert Reversed([x]) == Reversed([x][1..]) + [x];
      assert [x][1..] == [];
    } else {
      assert (s + [x])[1..] == s[1..] + [x];
      ReversedSnoc(s[1..], x);
    }
  }
}

=== FILE: velocity.dfy ===
/** Pen speed between two samples (tools/velocity.ts). */
module Velocity {
  import opened StrokeTypes
  import opened Numerics
  import opened Coordinates

  /** Pixel distance between the two samples divided by the current sample's time delta;
      a delta that is not positive counts as 1 ms. */
  function GetVelocity(m: MathLib, prev: Point, curr: Point, pageWidth: real, pageHeight: real): real
  {
    var a := ToCanvasPoint(prev, pageWidth, pageHeight);
    var b := ToCanvasPoint(curr, pageWidth, pageHeight);
    var dist := m.hypot(b.x - a.x, b.y - a.y);
    var dt := if curr.dt > 0.0 then curr.dt else 1.0;
    dist / dt
  }

  /** Speed times elapsed time gives back the pixel distance, with the 1 ms fallback
      for non-positive deltas. */
  lemma VelocityTimesDelta(m: MathLib, prev: Point, curr: Point, pageWidth: real, pageHeight: real)
    ensures var a := ToCanvasPoint(prev, pageWidth, pageHeight);
            var b := ToCanvasPoint(curr, pageWidth, pageHeight);
            var v := GetVelocity(m, prev, curr, pageWidth, pageHeight);
            (0.0 < curr.dt ==> v * curr.dt == m.hypot(b.x - a.x, b.y - a.y))
            && (curr.dt <= 0.0 ==> v == m.hypot(b.x - a.x, b.y - a.y))
  {
  }

  /** The speed is never negative, and it is zero when both samples land on the same
      pixel position. */
  lemma VelocityNonNegative(m: MathLib, prev: Point, curr: Point, pageWidth: real, pageHeight: real)
    requires Sound(m)
    ensures 0.0 <= GetVelocity(m, prev, curr, pageWidth, pageHeight)
    ensures ToCanvasPoint(prev, pageWidth, pageHeight) == ToCanvasPoint(curr, pageWidth, pageHeight)
            ==> GetVelocity(m, prev, curr, pageWidth, pageHeight) == 0.0
  {
    var a := ToCanvasPoint(prev, pageWidth, pageHeight);
    var b := ToCanvasPoint(curr, pageWidth, pageHeight);
    HypotNonNegative(m, b.x - a.x, b.y - a.y);
    if a == b {
      HypotZero(m);
    }
  }
}

=== FILE: wrappers.dfy ===
/** Option and Result values used where the notebook returns `null` or throws. */
module Wrappers {

  datatype Option<+T> = None | Some(value: T)

  datatype Result<+R, +E> = Success(value: R) | Failure(error: E)
}
